=== FILE: README.md ===
# RentaCheck analysis core in Dafny

RentaCheck decides whether a Colombian taxpayer must file an income-tax return. Its
`analyze` endpoint does the following:

- It receives a manifest of uploaded files: exógena spreadsheets, predial receipts and vehicle-tax receipts.
- It builds a context for a generative model. That context holds signed file URLs, the file counts, spreadsheet excerpts, server-side movement sums and retrieved regulation passages.
- It runs one of two model paths, or a stub.
- It supervises the model's answer with at most one corrective round.
- It retries whole attempts until the schema validator accepts a candidate. The answer is 200 with the candidate plus a correlation id, or 502 with the last violations.

This project models that pipeline as pure functions and proves properties of it. The
external world enters as parameters:

- **Services and model replies.** Storage signing, image conversion, file upload, workbook loading and rendering, retrieval, JSON parsing and printing, and the schema validator form one `Oracles.Services` record. The model's replies are scripted sequences that attempts consume in order.
- **JavaScript values.** They are a small datatype `Values.Value`: null, booleans, numbers, NaN, strings, arrays with named properties, and objects. It models strict-mode property reads and writes: reading a property of `null` throws, and writing a property on a primitive throws.
- **Configuration.** The environment is read once into `Oracles.Config`.

Modules, in dependency order:

| module | what it holds |
|---|---|
| `Wrappers` | `Option` and `Result` |
| `Values` | JS values |
| `Text` | `toLowerCase`, `endsWith`, `slice`, `filter(Boolean)`, `join` |
| `Logger` | level threshold, log entries, correlation id |
| `Manifest` | the request's file categories, counts, path lists, the signed-URL map |
| `Sheets` | the three workbook helpers: CSV excerpt, HTML excerpt with mov-first order, movement sum |
| `ToolLoop` | the chat path's bounded tool-calling session |
| `Supervisor` | the correction triggers, the fix and note texts, the defaults, acceptance of the corrected reply |
| `Oracles` | configuration and service parameters |
| `Context` | the system prompt, the stub, the chat preamble, image parts, uploads |
| `ChatAttempt` | one attempt on the chat path |
| `ResponsesAttempt` | one attempt on the Responses path |
| `Retry` | the retry controller and its budget |
| `Handler` | the HTTP entry point |
| `DevTest` | the end-to-end script's MIME table and analyze body |

Where the code departs from what it evidently intends, the model follows the code:

- **The correction round is not re-checked.** On the chat path, the corrected reply replaces the candidate whatever it says, and the triggers are not recomputed. An accepted candidate can therefore still carry wrong `archivos_detectados`, because the validator checks only the schema (`ChatAttempt.CorrectionNotRechecked`).
- **A corrected reply that is not JSON.** On the chat path it makes the whole attempt fail; the original is not kept. On the Responses path the original is kept. An empty corrected text on the Responses path replaces the candidate with `{}` (`ResponsesAttempt.EmptyCorrectionWipes`).
- **Every attempt throws.** The 502 body then carries `validation_errors: []` and `candidate: null` (`Retry.AllThrownCarriesNothing`).
- **The step bound runs out.** A tool-calling session that uses all three steps yields `null` (`ToolLoop.ExhaustedStepsYieldNull`). The chat path then throws on reading a property of it, which fails the attempt.
- **A null first match.** When retrieval answers with a match list whose first entry is null, the logging line after the push throws. The catch then pushes a second tool message under the same call id (`ToolLoop.CallMessages`).
- **An inherited LOG_LEVEL name.** LOG_LEVEL set to `constructor` or `__proto__` finds an inherited member in the level table. It survives the `??`, compares false with every rank, and so lets every line through, debug included (`Logger.InheritedLevelEmitsAll`).
- **A non-numeric MAX_ANALYZE_RETRIES.** The handler makes no attempt at all and answers 502 (`Handler.NaNRetriesAnswer502`; see "## Findings").

## Model

| member | source | states |
|---|---|---|
| Values.ReadProp | api/analyze.ts:363-367 | reading a property throws exactly on null and otherwise gives the property or undefined; what a read sees after a write is stated by Values.ReadAfterWrite |
| Values.ReadAfterWrite | api/analyze.ts:383-384 | after a successful strict-mode write, a read never throws and finds the written value under its key and the old value under every other key |
| Values.WriteProp | api/analyze.ts:383-384 | assigning a property succeeds exactly on objects and arrays, sets that key, and leaves every other key as it was |
| Values.WriteReadBack | api/analyze.ts:383-384 | after a write on an object, reading any key gives the written value for that key and the old value for the others |
| Values.JsonParse | api/analyze.ts:349-353 | `{}` parses to the empty object and `null` to null whatever the parser oracle does; Values.JsonParseIsTheParser states that this changes nothing for a parser that follows the JSON grammar |
| Values.JsonParseIsTheParser | api/analyze.ts:353 | for any parser that reads `{}` and `null` as JSON does, the model's JSON.parse equals that parser on every text |
| Text.NonEmptyAppend | api/analyze.ts:264 | `filter(Boolean)` distributes over concatenation, so it keeps the relative order of the surviving lines |
| Logger.Threshold | backend/utils/logger.ts:12-13 | a known lower-cased LOG_LEVEL gives its rank; an absent or empty one gives info's rank; an inherited name (`constructor`, `__proto__`) gives a threshold below every rank; any other name gives info's rank |
| Logger.ChannelOf | backend/utils/logger.ts:30-32 | console.error is used exactly for 'error' and console.warn exactly for 'warn' |
| Logger.EntryOf | backend/utils/logger.ts:22-28 | the entry has ts, level, event, correlationId plus the data's keys; data overrides the fixed fields it names |
| Logger.Log | backend/utils/logger.ts:20-33 | a line is emitted exactly when the level passes the gate, on the level's channel, with the entry above; how that depends on LOG_LEVEL is stated by Logger.LogFollowsSetting |
| Logger.LogFollowsSetting | backend/utils/logger.ts:12-21 | under a known LOG_LEVEL in any letter case, a known level is written exactly when it ranks at or above the configured level; with LOG_LEVEL unset, exactly the non-debug levels are written |
| Logger.CorrelationId | backend/utils/logger.ts:15-18 | a non-empty x-request-id wins; otherwise a non-empty x-correlation-id wins; otherwise the fresh uuid; no other value can come out |
| Logger.CorrelationIdIgnoresOtherHeaders | backend/utils/logger.ts:15-18 | setting any header other than x-request-id and x-correlation-id never changes the correlation id |
| Logger.RanksIncrease | backend/utils/logger.ts:5-10 | debug < info < warn < error |
| Logger.AlwaysEmitted | backend/utils/logger.ts:21 | 'error' and every unknown level are emitted whatever LOG_LEVEL says |
| Logger.InheritedLevelEmitsAll | backend/utils/logger.ts:12-21 | LOG_LEVEL naming an inherited member, in any case, lets every level through, debug included |
| Logger.EmitsMonotone | backend/utils/logger.ts:21 | lowering the threshold never silences a level that was emitted |
| Logger.ThresholdIgnoresCase | backend/utils/logger.ts:12 | LOG_LEVEL is read case-insensitively |
| Logger.DataOverridesLevelNotChannel | backend/utils/logger.ts:27-30 | one example: a `level` key in data changes the printed level but not the console channel |
| Manifest.Entries | api/analyze.ts:167-169 | one file reference per array element, each read from that element: null stays a null entry, and a string `storage_path` is kept |
| Manifest.CategoryOf | api/analyze.ts:167-169 | a category is present exactly when `body.archivos[name]` is an array, and then it holds one entry per element of that array, read from that element |
| Manifest.CountsValue | api/analyze.ts:236-240 | the counts object carries the three lengths as numbers; with Supervisor.CountsTriggerSeparates, it passes the counts check for the server's counts and fails it for any other counts |
| Manifest.CountsFromBody | api/analyze.ts:155-157 | the server counts are the array lengths in the body, 0 for a category that is not an array |
| Manifest.SafePaths | api/analyze.ts:170-173 | the null-safe path list holds exactly the non-empty storage paths of the entries |
| Manifest.SafePathsAppend | api/analyze.ts:171 | collecting over the concatenated categories is collecting over each, in order |
| Manifest.PathsOf | api/analyze.ts:179-180 | `map(x => x.storage_path).filter(Boolean)` throws exactly on a null entry and otherwise equals the null-safe list |
| Manifest.RawPathsSpec | api/analyze.ts:179-180 | the unfiltered map throws exactly on a null entry, and filtering its result gives the null-safe list |
| Manifest.AddUrlsSpec | api/analyze.ts:175-176 | after the loop each path maps to the URL of the last signing answer that carried one; other paths keep their old entry |
| Manifest.UrlOf | api/analyze.ts:191 | the lookup gives the map's entry for a path in the map and "" (null) for any other path |
| Sheets.InsertStable | api/analyze.ts:59-63 | an insertion step adds exactly the inserted name |
| Sheets.SortStable | api/analyze.ts:59-63 | the sort is a permutation of the sheet names |
| Sheets.MovNames | api/analyze.ts:60 | the mov group holds only names matching /mov/i, all taken from the input |
| Sheets.OtherNames | api/analyze.ts:61 | the other group holds only names not matching /mov/i, all taken from the input |
| Sheets.InsertIntoPartition | api/analyze.ts:59-63 | inserting into a partitioned list puts a mov name at the end of the mov group and any other name at the very end |
| Sheets.SortIsPartition | api/analyze.ts:59-63 | the comparator sort is a stable partition: every mov sheet first, each group in its original order |
| Sheets.CollectTruncates | api/analyze.ts:38-45 | breaking out of the loop once the text exceeds the budget yields, after slicing, the same text as rendering every sheet and slicing |
| Sheets.ExtractText | api/analyze.ts:30-49 | the CSV excerpt is at most maxChars long; it is empty without a URL or on a load failure, otherwise the first five sheets' segments cut to maxChars |
| Sheets.ExtractHtml | api/analyze.ts:51-76 | as for the CSV excerpt, over the first five sheets of the mov-first order, with HTML segments |
| Sheets.SkipNonWord | api/analyze.ts:68 | drops exactly the leading run of non-word characters: everything dropped is non-word and what is left is empty or starts with a word character |
| Sheets.SkipRun | api/analyze.ts:68 | skipping over a run of non-word characters lands exactly on the word text that follows it |
| Sheets.TableId | api/analyze.ts:68 | the id holds only word characters and underscores, is no longer than the name, and leaves a word-only name unchanged |
| Sheets.TableIdRun | api/analyze.ts:68 | `replace(/\W+/g, '_')`: a word-only prefix is kept and the whole non-word run after it becomes a single '_' |
| Sheets.MovLoopSnoc | api/analyze.ts:87-106 | the summarising loop over one more sheet is one more step of it |
| Sheets.MovLoopSpec | api/analyze.ts:87-106 | the loop names the last mov sheet (present or not) and sums exactly the mov sheets present in the workbook |
| Sheets.SummarizeExogena | api/analyze.ts:78-111 | the summary is empty without a URL or on a load failure, otherwise the last mov sheet's name and the mov sheets' total |
| ToolLoop.Payload | api/analyze.ts:325-341 | a retrieval failure gives `{error: message}`; a success gives `{matches: data}` for truthy data and `{matches: []}` otherwise |
| ToolLoop.ArgumentsReachSearch | api/analyze.ts:321-325 | a `top_k` or `threshold` present in the parsed arguments reaches the retrieval unchanged, with no clamping; an absent one takes the configured default |
| ToolLoop.CallMessages | api/analyze.ts:336-343 | a served call pushes its payload message, then a second message under the same id with the `similarity` error exactly when the first match is null |
| ToolLoop.ToolResults | api/analyze.ts:318-346 | a turn's tool calls push only tool messages, at most two per call |
| ToolLoop.ServedCalls | api/analyze.ts:324-326 | only calls named rag_search with a non-empty string query are answered |
| ToolLoop.ToolResultsSpec | api/analyze.ts:318-346 | the tool messages are exactly the served calls' messages, call by call, in call order |
| ToolLoop.OneMessagePerCall | api/analyze.ts:336-341 | when no served call's first match is null, there is exactly one message per served call, carrying its id and payload |
| ToolLoop.ChainedCons | api/analyze.ts:300-348 | a tool turn followed by a chained session is a chained session |
| ToolLoop.AppendTools | api/analyze.ts:337-341 | appending tool results extends the conversation with tool messages only |
| ToolLoop.ToolTurnStep | api/analyze.ts:304-348 | a tool turn carries the loop's invariants from the next step back to this one |
| ToolLoop.Loop | api/analyze.ts:300-356 | the loop makes at least one more call and stays within the bound of 3, keeps the calls already made, and sends the current conversation on its first call |
| ToolLoop.LoopShape | api/analyze.ts:300-348 | the conversation only grows, and only by tool messages; each later call sees the previous one plus one tool turn's results; one reply is consumed per call |
| ToolLoop.LoopEnding | api/analyze.ts:304-354 | the outcome is decided by the last reply consumed (a failure, a final reply's JSON, or null after the bound), and the loop stops early only on a reply without tool calls |
| ToolLoop.RunToolLoop | api/analyze.ts:300-356 | 1 to 3 model calls; the first sees the given messages and every later one the previous plus its tool results; the outcome is that of the last reply consumed |
| ToolLoop.SessionEndsAt | api/analyze.ts:304-351 | a session runs exactly through the tool turns up to and including the first reply without tool calls |
| ToolLoop.EmptyContentIsEmptyObject | api/analyze.ts:349-353 | a final reply with empty content parses as `{}`, after any number of tool turns within the bound |
| ToolLoop.InvalidJsonThrows | api/analyze.ts:349-354 | a final reply that is not JSON makes the session throw "Model did not return valid JSON", after any number of tool turns |
| ToolLoop.ApiFailureFails | api/analyze.ts:304-312 | a failing model call ends the session with its error, after any number of tool turns |
| ToolLoop.ExhaustedStepsYieldNull | api/analyze.ts:304-353 | three tool turns in a row exhaust the bound: three calls are made and the session yields null |
| Supervisor.NeedCountsFix | api/analyze.ts:363-366 | the counts trigger fires exactly when archivos_detectados does not report the server's three counts |
| Supervisor.CountsTriggerSeparates | api/analyze.ts:363-366 | reported counts fire the trigger exactly when they differ from the server's counts |
| Supervisor.NeedRag | api/analyze.ts:367 | the RAG trigger is off exactly when there is at least one verification; Context.StubAgainstTriggers and Supervisor.DefaultsKeepRagAndDecision state how the stub and the defaults meet it |
| Supervisor.NeedMovCheck | api/analyze.ts:532 | the movements trigger fires exactly when a summary's sum reaches a numeric threshold while debe_declarar is false; Supervisor.MovCheckMonotone gives its behaviour under NaN and a lower threshold |
| Supervisor.MovCheckMonotone | api/analyze.ts:532 | the movements check never fires without a summary or with a NaN threshold, and a check that fires keeps firing when the threshold is lowered |
| Supervisor.FixLinesClauses | api/analyze.ts:373-377 | the chat fix text is the header followed by exactly the clauses of the triggers that fired, counts before RAG |
| Supervisor.NoteLinesClauses | api/analyze.ts:534-539 | the Responses note lists exactly the fired triggers' clauses in order, then the closing line |
| Supervisor.FillDefaults | api/analyze.ts:383-384 | defaults apply only to objects (a primitive throws); a falsy count or year is replaced, a truthy one kept, every other key unchanged |
| Supervisor.DefaultsKeepRagAndDecision | api/analyze.ts:383-384 | filling defaults never changes the RAG trigger nor the debe_declarar the movements check reads |
| Supervisor.WrongCountsSurviveDefaults | api/analyze.ts:383 | a truthy but wrong archivos_detectados is not repaired by the defaults |
| Supervisor.MissingCountsFilled | api/analyze.ts:383 | a missing archivos_detectados is filled with the server counts, which then satisfy the counts trigger |
| Supervisor.AcceptCorrection | api/analyze.ts:541-543 | the corrected reply replaces the candidate only when it parses to an object (empty text counts as `{}`); otherwise the candidate stays |
| Oracles.EnvNumber | api/analyze.ts:13 | an unset or empty variable gives the fallback, a set one its numeric reading; Oracles.EnvEmptyIsUnset states that empty and unset are indistinguishable |
| Oracles.EnvEmptyIsUnset | api/analyze.ts:13-21 | a numeric setting holding the empty string reads exactly as if it were unset, that is as its fallback |
| Oracles.ConfigOf | api/analyze.ts:13-21 | each flag reads `=== 'true'` (opt-in) or `!== 'false'` (opt-out); the prompt is the variable's text when set; each number is `Number(env \|\| default)` with its own default |
| Oracles.ConfigIgnoresOtherVariables | api/analyze.ts:13-21 | the configuration depends only on its ten variables: setting any other one changes nothing |
| Oracles.DefaultConfig | api/analyze.ts:13-21 | one example, the empty environment: 2 retries, OpenAI, Responses and Files off, conversion and text embedding on, top-k 8, threshold 0.6, movement threshold 65891000 |
| Context.SystemPrompt | api/analyze.ts:117-127 | a configured prompt with non-blank text is used untrimmed, otherwise the built-in one; the prompt is never blank |
| Context.YearOf | api/analyze.ts:130 | a falsy anio_gravable gives the current year; a number is kept; a string is converted and may be NaN |
| Context.Stub | api/analyze.ts:129-160 | the stub reports the server counts, debe_declarar false, an empty verificaciones_rag and the requested year |
| Context.StubAgainstTriggers | api/analyze.ts:129-160 | the stub passes the counts check but always fails the RAG check, and its UVT year equals its tax year |
| Context.PreambleShape | api/analyze.ts:241-264 | the preamble keeps every fixed line in order; the excerpt line appears exactly when there is excerpt text; the file-id line appears exactly when uploads are enabled, given that the stringified id object is non-empty text |
| Context.ImageParts | api/analyze.ts:267-271 | at most one part per path, each an image part with a non-empty URL |
| Context.ImagePartsMembers | api/analyze.ts:267-271 | every image part carries the signed URL of some path, and every path with a signed URL contributes one |
| Context.ImagePartsAppend | api/analyze.ts:268 | the parts for predial then vehicle paths are the predial parts followed by the vehicle parts |
| Context.ConvertPaths | api/analyze.ts:183-188 | with conversion off, or a failed predial conversion, both lists stay; otherwise the predial list is converted, and the vehicle list is converted exactly when its own conversion succeeds |
| Context.LastSegment | api/analyze.ts:214 | `path.split('/').pop()` is the longest slash-free suffix |
| Context.Listing | api/analyze.ts:191 | one `{path, url}` entry per path, in order, with the signed URL or none |
| Context.UploadItems | api/analyze.ts:214-216 | one upload item per listed file, in order; Context.UploadItemsName states what each carries |
| Context.UploadItemsName | api/analyze.ts:214-216 | each item keeps the listed path, URL and kind, and its file name is the text after the path's last slash |
| Context.UploadAll | api/analyze.ts:211-226 | with uploads off or any batch failing, all three id lists are empty; with all three batches succeeding, each category holds its batch's ids |
| Context.FileIdsValue | api/analyze.ts:256-260 | all exógena ids, and at most five predial and five vehicle ids, with missing ids dropped; Context.FileIdsListed states which ids appear |
| Context.FileIdsListed | api/analyze.ts:256-260 | an exógena id is listed exactly when it was uploaded and is not empty; a listed predial or vehicle id was uploaded, and with at most five of them every uploaded one is listed |
| Context.RawPathValues | api/analyze.ts:244-248 | one JSON entry per file reference |
| ChatAttempt.Prepare | api/analyze.ts:162-297 | preparation succeeds exactly when no entry is null and signing (if any path) succeeds; it yields the server counts, the year, the system prompt message and a user message of one text part then image parts |
| ChatAttempt.PreparedCountsAndTool | api/analyze.ts:236-354 | the counts text is the server counts serialised, and the RAG tool uses the configured search, the configured reply parser and the configured top_k and threshold defaults |
| ChatAttempt.PreparedUserMessage | api/analyze.ts:241-296 | the user message is the preamble built from the year, paths, counts, excerpt and file ids, followed by the image parts of the converted predial paths and then the converted vehicle paths |
| ChatAttempt.PreparedExcerptAndIds | api/analyze.ts:210-261 | with text embedding on, the excerpt is the text extracted from the first exógena file's signed URL; with Files on, the file-id text is the stringified id lists of the exógena, converted predial and converted vehicle uploads |
| ChatAttempt.Correct | api/analyze.ts:369-381 | the correction body runs at most once, exactly when a trigger fired; its re-run is the tool loop on the conversation plus the fix message, and its value replaces the candidate |
| ChatAttempt.AfterFirstPass | api/analyze.ts:359-386 | a null first value throws; otherwise a second session runs exactly when a trigger fires, and it is the tool loop on the first conversation with the fix message appended, on the replies the first left; the result is the defaults applied to the last session's value, or that session's error |
| ChatAttempt.RunChat | api/analyze.ts:162-387 | a session runs exactly when preparation succeeds; a failed preparation or first session is the attempt's error; otherwise the first session is the tool loop on the prepared messages with the prepared tool, followed by AfterFirstPass |
| ChatAttempt.TwoPassBound | api/analyze.ts:359-381 | two sessions make at most six model calls and consume exactly the replies they used |
| ChatAttempt.RunBound | api/analyze.ts:359-381 | any run shaped like an attempt makes at most six model calls and consumes exactly that many replies |
| ChatAttempt.ChatCallBound | api/analyze.ts:300-381 | one chat attempt makes at most 2 × 3 model calls and consumes exactly the replies it used |
| ChatAttempt.CorrectionNotRechecked | api/analyze.ts:369-384 | a correction reply with wrong but truthy counts is returned with the wrong counts still in place |
| ResponsesAttempt.ContentText | api/analyze.ts:514-521 | a non-empty output_text is used as is; an empty one falls back to the concatenated output_text items |
| ResponsesAttempt.ItemTextsEmpty | api/analyze.ts:518 | one output item contributes no text exactly when each of its output_text pieces is empty |
| ResponsesAttempt.OutputTextsEmpty | api/analyze.ts:515-521 | the fallback text is empty exactly when every output_text piece of every item is empty |
| ResponsesAttempt.RagSection | api/analyze.ts:476 | a small fact: each retrieval section is non-empty |
| ResponsesAttempt.Succeeding | api/analyze.ts:470-478 | counts the queries before the first one whose prefetch throws: all before it succeed, and the next one throws |
| ResponsesAttempt.RagBlock | api/analyze.ts:469-480 | the block only grows; it stays as it was exactly when there are no queries or the first prefetch throws |
| ResponsesAttempt.RagBlockSpec | api/analyze.ts:469-480 | the block is one section per query, in order, up to the first query that throws, after what was gathered before |
| ResponsesAttempt.WithRagContext | api/analyze.ts:481 | the parts always stay as a suffix, unchanged; one context part is put in front exactly when the block is not empty |
| ResponsesAttempt.FileParts | api/analyze.ts:434-444 | one exógena file gives its HTML part when the HTML is not empty, then its summary part when there is a summary, and nothing else |
| ResponsesAttempt.ExoParts | api/analyze.ts:433-445 | at most two text parts per exógena file; the last summary is that of the last file processed |
| ResponsesAttempt.ExoPartsAppend | api/analyze.ts:433-445 | the files' parts come file by file, in path order, and the summary carries over from one file to the next |
| ResponsesAttempt.ExoPartsOne | api/analyze.ts:433-445 | a single file gives exactly its own FileParts |
| ResponsesAttempt.CsvParts | api/analyze.ts:447-451 | at most one CSV text part per exógena file |
| ResponsesAttempt.CsvPartsAppend | api/analyze.ts:447-451 | the CSV parts come file by file, in path order |
| ResponsesAttempt.CsvPartsOne | api/analyze.ts:447-451 | one file gives one excerpt part carrying its CSV text exactly when that text is not empty |
| ResponsesAttempt.Unsigned | api/analyze.ts:414 | the paths sent for a second signing are exactly the non-empty image paths without a URL yet |
| ResponsesAttempt.FirstExoPaths | api/analyze.ts:433-434 | reading the first two exógena entries throws exactly on a null one among them; otherwise it yields their storage paths, in order |
| ResponsesAttempt.Resolve | api/analyze.ts:397-418 | resolution succeeds exactly when no predial or vehicle entry is null and both signing rounds that run succeed; the image paths are the converted lists |
| ResponsesAttempt.Prepare | api/analyze.ts:389-481 | preparation succeeds exactly when resolution does and the first two exógena entries are not null; it yields the server counts, the year and the counts text, and the user text part is among the parts |
| ResponsesAttempt.Layout | api/analyze.ts:429-481 | the content is, in order: the RAG context part when the block is not empty, the user text, the exógena parts, the CSV parts, then the images |
| ResponsesAttempt.PreparedContent | api/analyze.ts:389-481 | a prepared request is the assembly of the counts, the year, the first two exógena paths and the resolved URLs and image paths: its parts follow the layout, and the summary the corrective call quotes is that of the last of those exógena files |
| ResponsesAttempt.Assemble | api/analyze.ts:420-481 | the request keeps the counts and year, carries the counts text, and its last summary is that of the last exógena file (none without files) |
| ResponsesAttempt.AssembleLayout | api/analyze.ts:420-481 | the assembled parts are the Layout of the RAG block, the user text, the exógena parts, the CSV parts and the predial then vehicle images |
| ResponsesAttempt.Candidate | api/analyze.ts:497-526 | a failed call throws its error; empty text throws "Empty response"; text that is not JSON throws "did not return valid JSON"; parsed text gives the defaults applied to it |
| ResponsesAttempt.Calls | api/analyze.ts:484-545 | a second call is made exactly when a trigger fires on the first candidate, sending the note in front of the same parts; a failing second call is the error, a reply goes through the acceptance rule |
| ResponsesAttempt.RunResponses | api/analyze.ts:389-546 | no call exactly when preparation throws, whose error is then the outcome; otherwise the attempt is Calls on the prepared content |
| ResponsesAttempt.ResponsesCallBound | api/analyze.ts:484-545 | an attempt makes at most two calls, the first with the prepared content, and consumes exactly one reply per call |
| ResponsesAttempt.MovementsForceRecheck | api/analyze.ts:532-540 | a summary at or above the threshold with debe_declarar false forces a second call whose note cites the sum and the threshold |
| ResponsesAttempt.EmptyCorrectionWipes | api/analyze.ts:541-543 | an empty second reply replaces the candidate with `{}` |
| Retry.RunsAt | api/analyze.ts:580-590 | entry i of the replayed runs is the verdict on the run started from the world after i runs |
| Retry.Loop | api/analyze.ts:577-609 | the attempts stay within budget; every candidate is judged by the validator; the loop stops at the first accepted one; lastErrors and candidate track the last returned candidate |
| Retry.LoopReplays | api/analyze.ts:580-609 | the loop's new entries are the verdicts on consecutive runs from its starting world, and it ends in the world after the last of them |
| Retry.Run | api/analyze.ts:577-609 | the trace is exactly the verdicts on consecutive runs; at most budget attempts; it stops at the first accepted candidate; otherwise every attempt in the budget ran |
| Retry.FirstAcceptedWins | api/analyze.ts:591-601 | if attempt i is accepted, it is the last attempt and its candidate is the answer |
| Retry.FirstValidIsAnswer | api/analyze.ts:580-601 | the answer is the candidate of the first run the validator accepts, when it falls within the budget, and exactly that many runs happen |
| Retry.NoValidRunsAll | api/analyze.ts:580-612 | when no run within the budget is accepted, all of them run and the failure reports the last returned candidate and its violations |
| Retry.AllThrownCarriesNothing | api/analyze.ts:578-579 | when every attempt throws, the failure carries no errors and a null candidate |
| Retry.BudgetAsWrittenIsGuard | api/analyze.ts:580 | the as-written budget admits attempt n exactly when `n < Math.max(1, MAX_RETRIES)` holds |
| Retry.NaNRetriesRunNoAttempt | api/analyze.ts:13 | a non-numeric MAX_ANALYZE_RETRIES makes the loop run no attempt at all |
| Retry.Budget | api/analyze.ts:580 | the corrected budget is at least one attempt and agrees with the guard for every numeric setting |
| Retry.DefaultBudget | api/analyze.ts:13 | examples: a setting of 2 gives two attempts, 0 gives one and 2.5 gives three |
| Handler.BodyOf | api/analyze.ts:556-558 | a missing, empty or unparsable text body becomes `{}`; a text body that parses becomes its value (`null` gives null); a falsy value body becomes `{}` and a truthy one is kept |
| Handler.TextAndValueBodiesAgree | api/analyze.ts:556-558 | a JSON text body and the value it parses to give the same request |
| Handler.Spread | api/analyze.ts:600 | the spread copies exactly an object candidate's own properties, and an array candidate's named properties |
| Handler.Answer | api/analyze.ts:600-612 | the status is 200 exactly when a candidate was accepted, carrying its fields plus the correlation id; otherwise 502 with the last errors and candidate |
| Handler.Attempt | api/analyze.ts:584-588 | without OpenAI the attempt is the stub and leaves both reply scripts alone; with the Responses API it is the Responses run on its script and leaves the chat script alone; otherwise it is the chat run on its script and leaves the Responses script alone |
| Handler.Serve | api/analyze.ts:577-612 | the attempts are the verdicts on consecutive runs, at most budget of them (at least one for a positive budget); 200 carries the last, accepted candidate and the correlation id; 502 follows a whole budget of rejected attempts |
| Handler.Handle | api/analyze.ts:548-612 | 405 exactly for a non-POST request, with nothing consumed; a POST decodes the body, takes the correlation id and runs the configured attempt under the as-written budget |
| Handler.NaNRetriesAnswer502 | api/analyze.ts:577-612 | as written, a non-numeric MAX_ANALYZE_RETRIES answers every POST with 502, no errors and a null candidate, consuming no model reply |
| Handler.HandleCorrected | api/analyze.ts:548-612 | with the corrected budget every POST makes at least one attempt |
| DevTest.GuessMimeIgnoresCase | backend/scripts/dev-test-analyze.js:15 | the MIME guess does not depend on letter case |
| DevTest.GuessMimeSuffixOnly | backend/scripts/dev-test-analyze.js:15-21 | only the last five characters of a name decide its MIME type |
| DevTest.ShortExtension | backend/scripts/dev-test-analyze.js:17-19 | a name ending in .pdf, .jpg or .png after one more character gets that extension's type |
| DevTest.ShortAlone | backend/scripts/dev-test-analyze.js:17-19 | the names `.pdf`, `.jpg` and `.png` get their extension's type |
| DevTest.LongExtension | backend/scripts/dev-test-analyze.js:16-20 | the names `.xlsx`, `.jpeg` and `.heic` get their extension's type |
| DevTest.GuessMimeTable | backend/scripts/dev-test-analyze.js:14-22 | every name ending in a known extension gets that extension's type |
| DevTest.GuessMimeDefault | backend/scripts/dev-test-analyze.js:21 | a name with no known extension is application/octet-stream |
| DevTest.RefsOfKind | backend/scripts/dev-test-analyze.js:74-75 | filtering by kind yields at most one non-null reference per registered file |
| DevTest.RefsOfKindAppend | backend/scripts/dev-test-analyze.js:74-75 | filtering keeps the registration order |
| DevTest.RefsOfKindMembers | backend/scripts/dev-test-analyze.js:74-75 | a path is referenced exactly when a file of that kind with that path was registered |
| DevTest.RefsOfKindCount | backend/scripts/dev-test-analyze.js:74-75 | each registered file of the kind is referenced as many times as it was registered |
| DevTest.AnalyzeBody | backend/scripts/dev-test-analyze.js:74-76 | the body asks for 2024, lists the registered exógena and the registered predial files each as often as registered and in registration order, and no vehicles |

## Left out

- Handler.Handle: CORS handling is not modelled. `applyCors` (api/analyze.ts:549) can end a request itself before the method check, and the development server answers OPTIONS with 204 on its own (server.js:24). The "405 exactly for a non-POST request" of the model holds only for requests that reach the method check.
- The timing helpers: they only measure time for the logs.
- Logging inside the pipeline, and the listing of the Responses input items. Both are side effects whose failures are swallowed. The logger itself is modelled; its timestamp is a parameter.
- Network, storage, OpenAI and XLSX calls. They are parameters of `Oracles.Services` and are assumed to behave the same on every attempt. The embedding call is folded into the retrieval and prefetch parameters.
- Model names, reasoning effort, the JSON response format, the tool schema and SIGNED_URL_EXPIRES: they are passed only to external APIs.
- Floating-point number formatting (`toFixed`, template printing): it is the `show` oracle and part of `prefetch`.
- Infinity and negative zero are not modelled: numbers are reals, plus NaN.
- An infinite MAX_ANALYZE_RETRIES (`Infinity`) is not modelled. The source would loop until an attempt is accepted.
- The validator and the decision schema are the `validate` parameter; the schema file is not part of this model.
- Handler.Answer: a response body is an unordered map, so the key order of `{...candidate, correlationId}` in the JSON text is not modelled. Only which keys the body has and their values are stated.
- Manifest.EntryOf: a truthy non-string `storage_path` reads as absent. An entry's path is kept only when it is a string.
- Context.RawPathValues: it does not tell a missing path from an empty string; both serialise as null. The model states only that there is one entry per reference.
- Text.ToLower: case folding is ASCII-only, with no Unicode mapping.
- Sheets.IsMov: /mov/i is matched with ASCII case folding only.
- Sheets.ExtractText: the CSV renderer is assumed not to throw. In the source a throw inside the loop (api/analyze.ts:41, 46-48) makes the excerpt empty.
- Sheets.ExtractText: lengths and the cut at maxChars count characters (Unicode scalar values). JavaScript counts UTF-16 code units, so a character outside the Basic Multilingual Plane counts twice there and a cut can split it.
- Sheets.ExtractHtml: the renderers are assumed not to throw. A throw there would make the excerpt empty. Its lengths and cut count characters, not UTF-16 code units, as for the CSV excerpt.
- ResponsesAttempt.Resolve: the contract states when resolution succeeds and which image paths it yields. The merged URL map is given by its definition and by Manifest.AddUrlsSpec.
- Handler.Spread: for an array candidate, `{...candidate}` also copies its index keys "0", "1", and so on. The model keeps only the named properties, because values carry no number-to-decimal-string conversion. Such a body reaches the 200 answer only if the validator accepts an array.
- ResponsesAttempt.RunResponses: the recorded requests hold each call's user content only. The system message both calls also send (api/analyze.ts:489-490) is the prompt `Context.SystemPrompt` yields, and it is not recorded.
- DevTest: the upload, health-check and network steps of the script are left out; only `guessMime` and the analyze body are modelled.

## Findings

| source | as written | input that shows it | evidently intended | confidence | as-written member | corrected member |
|---|---|---|---|---|---|---|
| api/analyze.ts:13 | `Number(process.env.MAX_ANALYZE_RETRIES \|\| 2)` is NaN for a non-numeric setting. `Math.max(1, NaN)` is NaN, so the guard `attempt < NaN` at line 580 is false at once. | MAX_ANALYZE_RETRIES=abc: no attempt runs, and the handler answers 502 with no errors and a null candidate | `Math.max(1, …)` means at least one attempt is always made | not executed | Retry.NaNRetriesRunNoAttempt | Retry.Budget |

=== FILE: chat_attempt.dfy ===
/** One analysis attempt through the chat-completions API: sign the manifest's
    paths, build the system prompt and the user preamble with image parts, run
    the tool-calling loop, run at most one correction round when the counts or
    the legal checks are off, then fill in missing counts and year. */
module ChatAttempt {
  import opened Wrappers
  import opened Values
  import opened Manifest
  import opened ToolLoop
  import opened Oracles
  import opened Supervisor
  import opened Context
  import Sheets

  /** What preparation hands to the model calls. */
  datatype Prepared = Prepared(base: seq<Message>, counts: Counts, year: Value, tool: RagTool, countsJson: string,
                               excerpt: string, fileIdsJson: string)

  /** The attempt's result, the chat replies left over, and one session per
      tool-loop run (the first pass and the correction, if any). */
  datatype ChatRun = ChatRun(outcome: Result<Value>, rest: seq<ChatTurn>, sessions: seq<Session>)

  /** `filesSummary.exogena[0]?.url`, "" when absent. */
  function FirstUrl(listing: seq<Signed>): string {
    if |listing| > 0 then listing[0].url else ""
  }

  /** Everything before the first model call. It throws when a predial, vehicle or
      exógena entry is null, or when signing throws. */
  function Prepare(req: Request, cfg: Config, svc: Services, currentYear: int): (r: Result<Prepared>)
    ensures var exo, pred, veh := List(req.exogena), List(req.prediales), List(req.vehiculos);
            var all := SafePaths(exo + pred + veh);
            r.Ok? <==> NullRef !in exo && NullRef !in pred && NullRef !in veh
                       && (|all| == 0 || svc.sign(all).Ok?)
    ensures r.Ok? ==> r.value.counts == CountsOf(req)
    ensures r.Ok? ==> r.value.year == YearOf(req.year, currentYear, svc.strToNum)
    ensures r.Ok? ==> |r.value.base| == 2 && r.value.base[0] == SystemMsg(SystemPrompt(cfg.systemPrompt))
    ensures r.Ok? ==> r.value.base[1].UserMsg? && |r.value.base[1].parts| >= 1
                      && r.value.base[1].parts[0].TextPart?
                      && forall i :: 1 <= i < |r.value.base[1].parts| ==> r.value.base[1].parts[i].ImagePart?
    ensures r.Ok? && !cfg.enableTextEmbed ==> r.value.excerpt == ""
    ensures r.Ok? && !cfg.enableFiles ==> r.value.fileIdsJson == ""
  {
    var year := YearOf(req.year, currentYear, svc.strToNum);
    var exo, pred, veh := List(req.exogena), List(req.prediales), List(req.vehiculos);
    var all := SafePaths(exo + pred + veh);
    var signed :- if |all| > 0 then svc.sign(all) else Ok([]);
    var urls := AddUrls(map[], signed);
    var predPaths0 :- PathsOf(pred);
    var vehPaths0 :- PathsOf(veh);
    var converted := ConvertPaths(cfg.enableImageConversion, svc.toJpeg, predPaths0, vehPaths0);
    var exoPaths :- PathsOf(exo);
    var exoListing := Listing(exoPaths, urls);
    var uploads := UploadAll(cfg.enableFiles, svc.upload, exoListing,
                             Listing(converted.0, urls), Listing(converted.1, urls));
    var excerpt := if cfg.enableTextEmbed
                   then Sheets.ExtractText(FirstUrl(exoListing), Sheets.TextBudget, svc.load, svc.renderCsv)
                   else "";
    var counts := CountsOf(req);
    var countsJson := svc.stringify(CountsValue(counts));
    var fileIdsJson := if cfg.enableFiles then svc.stringify(FileIdsValue(uploads)) else "";
    var preamble := Preamble(svc.show(year), svc.stringify(PathsValue(exo, pred, veh)), countsJson, excerpt,
                             cfg.enableFiles, fileIdsJson);
    var images := ImageParts(converted.0 + converted.1, urls);
    Ok(Prepared([SystemMsg(SystemPrompt(cfg.systemPrompt)), UserMsg([TextPart(preamble)] + images)],
                counts, year, RagTool(svc.search, svc.parse, cfg.ragTopK, cfg.ragThreshold), countsJson,
                excerpt, fileIdsJson))
  }

  /** The user message is the preamble (its lines as `PreambleShape` lists them) followed
      by one image part per converted predial path and then per converted vehicle path
      that has a signed URL. */
  lemma PreparedUserMessage(req: Request, cfg: Config, svc: Services, currentYear: int)
    requires Prepare(req, cfg, svc, currentYear).Ok?
    ensures var p := Prepare(req, cfg, svc, currentYear).value;
            var exo, pred, veh := List(req.exogena), List(req.prediales), List(req.vehiculos);
            var all := SafePaths(exo + pred + veh);
            var urls := AddUrls(map[], if |all| > 0 then svc.sign(all).value else []);
            var converted := ConvertPaths(cfg.enableImageConversion, svc.toJpeg, SafePaths(pred), SafePaths(veh));
            && p.base[1].parts[0]
               == TextPart(Preamble(svc.show(p.year), svc.stringify(PathsValue(exo, pred, veh)), p.countsJson,
                                    p.excerpt, cfg.enableFiles, p.fileIdsJson))
            && p.base[1].parts[1..] == ImageParts(converted.0, urls) + ImageParts(converted.1, urls)
  {
    var p := Prepare(req, cfg, svc, currentYear).value;
    var converted := ConvertPaths(cfg.enableImageConversion, svc.toJpeg,
                                  SafePaths(List(req.prediales)), SafePaths(List(req.vehiculos)));
    var all := SafePaths(List(req.exogena) + List(req.prediales) + List(req.vehiculos));
    ImagePartsAppend(converted.0, converted.1, AddUrls(map[], if |all| > 0 then svc.sign(all).value else []));
  }

  /** The counts text is the server counts serialised, and the RAG tool searches with
      the configured service, parses replies with the configured parser and defaults
      to the configured top_k and threshold. */
  lemma PreparedCountsAndTool(req: Request, cfg: Config, svc: Services, currentYear: int)
    requires Prepare(req, cfg, svc, currentYear).Ok?
    ensures Prepare(req, cfg, svc, currentYear).value.countsJson == svc.stringify(CountsValue(CountsOf(req)))
    ensures Prepare(req, cfg, svc, currentYear).value.tool
            == RagTool(svc.search, svc.parse, cfg.ragTopK, cfg.ragThreshold)
  {
  }

  /** With text embedding on, the excerpt is the text extracted from the first
      exógena file's signed URL ("" when there is none); with Files on, the file-id
      JSON is the stringified id lists of the uploads of the exógena, converted
      predial and converted vehicle listings. */
  lemma PreparedExcerptAndIds(req: Request, cfg: Config, svc: Services, currentYear: int)
    requires Prepare(req, cfg, svc, currentYear).Ok?
    ensures var p := Prepare(req, cfg, svc, currentYear).value;
            var exo, pred, veh := List(req.exogena), List(req.prediales), List(req.vehiculos);
            var all := SafePaths(exo + pred + veh);
            var urls := AddUrls(map[], if |all| > 0 then svc.sign(all).value else []);
            var exoPaths := SafePaths(exo);
            && (cfg.enableTextEmbed ==>
                  p.excerpt == Sheets.ExtractText(if |exoPaths| > 0 then UrlOf(urls, exoPaths[0]) else "",
                                                  Sheets.TextBudget, svc.load, svc.renderCsv))
    ensures var p := Prepare(req, cfg, svc, currentYear).value;
            var exo, pred, veh := List(req.exogena), List(req.prediales), List(req.vehiculos);
            var all := SafePaths(exo + pred + veh);
            var urls := AddUrls(map[], if |all| > 0 then svc.sign(all).value else []);
            var converted := ConvertPaths(cfg.enableImageConversion, svc.toJpeg, SafePaths(pred), SafePaths(veh));
            && (cfg.enableFiles ==>
                  p.fileIdsJson == svc.stringify(FileIdsValue(UploadAll(true, svc.upload, Listing(SafePaths(exo), urls),
                                                                        Listing(converted.0, urls),
                                                                        Listing(converted.1, urls)))))
  {
  }

  /** The message carrying a fix text. */
  function FixMessage(fixText: string): Message {
    UserMsg([TextPart(fixText)])
  }

  /** `while ((needCountsFix || needRag) && corrections < 1)`: the triggers are
      computed once, so the body runs at most once; the re-run's value replaces the
      candidate whatever it is. */
  function Correct(parsed: Value, messages: seq<Message>, turns: seq<ChatTurn>, needCounts: bool, needRag: bool,
                   corrections: nat, fixText: string, tool: RagTool): (r: ChatRun)
    requires corrections <= 1
    ensures |r.sessions| <= 1
    ensures |r.sessions| == 1 <==> (needCounts || needRag) && corrections == 0
    ensures |r.sessions| == 0 ==> r.outcome == Ok(parsed) && r.rest == turns
    ensures |r.sessions| == 1 ==>
              && r.sessions[0] == RunToolLoop(messages + [FixMessage(fixText)], turns, tool)
              && 1 <= |r.sessions[0].sent| <= MaxSteps
              && r.sessions[0].sent[0] == messages + [FixMessage(fixText)]
              && r.outcome == r.sessions[0].outcome
              && r.rest == r.sessions[0].rest
              && r.rest == turns[Min(|r.sessions[0].sent|, |turns|)..]
    decreases 1 - corrections
  {
    if (needCounts || needRag) && corrections < 1 then
      var msgs := messages + [FixMessage(fixText)];
      var s := RunToolLoop(msgs, turns, tool);
      match s.outcome
      case Err(e) => ChatRun(Err(e), s.rest, [s])
      case Ok(p) =>
        var again := Correct(p, msgs, s.rest, needCounts, needRag, corrections + 1, fixText, tool);
        ChatRun(again.outcome, again.rest, [s] + again.sessions)
    else ChatRun(Ok(parsed), turns, [])
  }

  /** The two triggers for a first-pass candidate that is not null. */
  function NeedsCorrection(parsed: Value, counts: Counts): bool {
    NeedCountsFix(Prop(parsed, CountsKey), counts) || NeedRag(Prop(parsed, RagKey))
  }

  function FixTextFor(parsed: Value, p: Prepared): string {
    FixText(NeedCountsFix(Prop(parsed, CountsKey), p.counts), NeedRag(Prop(parsed, RagKey)), p.countsJson)
  }

  /** Reading `archivos_detectados` off a null first-pass candidate throws. */
  const NullCandidateError := "TypeError: Cannot read properties of null (reading 'archivos_detectados')"

  /** Everything after a first pass that returned a value: the null check, the
      correction round and the defaults. */
  function AfterFirstPass(p: Prepared, first: Session): (r: ChatRun)
    requires first.outcome.Ok?
    ensures 1 <= |r.sessions| <= 2 && r.sessions[0] == first
    ensures |r.sessions| == 2 <==> first.outcome.value != Null && NeedsCorrection(first.outcome.value, p.counts)
    ensures |r.sessions| == 1 ==> r.rest == first.rest
    ensures |r.sessions| == 1 ==>
              r.outcome == if first.outcome.value == Null then Err(NullCandidateError)
                           else FillDefaults(first.outcome.value, p.counts, p.year)
    ensures |r.sessions| == 2 ==>
              && first.outcome.value != Null
              && NeedsCorrection(first.outcome.value, p.counts)
              && r.sessions[1] == RunToolLoop(first.messages + [FixMessage(FixTextFor(first.outcome.value, p))],
                                              first.rest, p.tool)
              && 1 <= |r.sessions[1].sent| <= MaxSteps
              && r.sessions[1].sent[0] == first.messages + [FixMessage(FixTextFor(first.outcome.value, p))]
              && r.sessions[1].rest == first.rest[Min(|r.sessions[1].sent|, |first.rest|)..]
              && r.rest == r.sessions[1].rest
              && (r.sessions[1].outcome.Err? ==> r.outcome == r.sessions[1].outcome)
              && (r.sessions[1].outcome.Ok? ==>
                    r.outcome == FillDefaults(r.sessions[1].outcome.value, p.counts, p.year))
  {
    var parsed := first.outcome.value;
    if parsed == Null then
      ChatRun(Err(NullCandidateError), first.rest, [first])
    else
      var needCounts := NeedCountsFix(Prop(parsed, CountsKey), p.counts);
      var needRag := NeedRag(Prop(parsed, RagKey));
      var c := Correct(parsed, first.messages, first.rest, needCounts, needRag, 0,
                       FixText(needCounts, needRag, p.countsJson), p.tool);
      var outcome := match c.outcome
                     case Err(e) => Err(e)
                     case Ok(v) => FillDefaults(v, p.counts, p.year);
      ChatRun(outcome, c.rest, [first] + c.sessions)
  }

  /** `runModelOnceOpenAI`, with the chat API's replies scripted by `turns`. */
  function RunChat(req: Request, cfg: Config, svc: Services, currentYear: int, turns: seq<ChatTurn>): (r: ChatRun)
    ensures |r.sessions| <= 2
    ensures |r.sessions| >= 1 <==> Prepare(req, cfg, svc, currentYear).Ok?
    ensures |r.sessions| == 0 ==> r.outcome == Err(Prepare(req, cfg, svc, currentYear).error) && r.rest == turns
    ensures |r.sessions| >= 1 ==>
              var p := Prepare(req, cfg, svc, currentYear).value;
              && r.sessions[0] == RunToolLoop(p.base, turns, p.tool)
              && 1 <= |r.sessions[0].sent| <= MaxSteps
              && r.sessions[0].sent[0] == p.base
              && r.sessions[0].rest == turns[Min(|r.sessions[0].sent|, |turns|)..]
    ensures |r.sessions| >= 1 && r.sessions[0].outcome.Err? ==>
              |r.sessions| == 1 && r.outcome == r.sessions[0].outcome
    ensures |r.sessions| == 1 ==> r.rest == r.sessions[0].rest
    ensures |r.sessions| >= 1 && r.sessions[0].outcome.Ok? ==>
              r == AfterFirstPass(Prepare(req, cfg, svc, currentYear).value, r.sessions[0])
  {
    match Prepare(req, cfg, svc, currentYear)
    case Err(e) => ChatRun(Err(e), turns, [])
    case Ok(p) =>
      var first := RunToolLoop(p.base, turns, p.tool);
      if first.outcome.Err? then ChatRun(first.outcome, first.rest, [first])
      else AfterFirstPass(p, first)
  }

  /** The number of chat calls a run made. */
  function Calls(sessions: seq<Session>): nat {
    if sessions == [] then 0 else |sessions[0].sent| + Calls(sessions[1..])
  }

  lemma DropDrop<T>(s: seq<T>, a: nat, b: nat)
    ensures s[Min(a, |s|)..][Min(b, |s[Min(a, |s|)..]|)..] == s[Min(a + b, |s|)..]
  {
  }

  /** Two passes consume their calls' replies one after the other. */
  lemma TwoPassBound(turns: seq<ChatTurn>, s0: Session, s1: Session)
    requires 1 <= |s0.sent| <= MaxSteps && 1 <= |s1.sent| <= MaxSteps
    requires s0.rest == turns[Min(|s0.sent|, |turns|)..]
    requires s1.rest == s0.rest[Min(|s1.sent|, |s0.rest|)..]
    ensures Calls([s0, s1]) <= 2 * MaxSteps && s1.rest == turns[Min(Calls([s0, s1]), |turns|)..]
  {
    assert [s0, s1][1..] == [s1];
    assert [s1][1..] == [];
    assert Calls([s1]) == |s1.sent| + Calls([]);
    assert Calls([s0, s1]) == |s0.sent| + |s1.sent|;
    DropDrop(turns, |s0.sent|, |s1.sent|);
  }

  /** A run shaped as `RunChat` promises makes at most six calls and consumed
      exactly that many replies. */
  lemma RunBound(turns: seq<ChatTurn>, r: ChatRun)
    requires |r.sessions| <= 2
    requires |r.sessions| == 0 ==> r.rest == turns
    requires |r.sessions| >= 1 ==>
               1 <= |r.sessions[0].sent| <= MaxSteps && r.sessions[0].rest == turns[Min(|r.sessions[0].sent|, |turns|)..]
    requires |r.sessions| == 1 ==> r.rest == r.sessions[0].rest
    requires |r.sessions| == 2 ==>
               && 1 <= |r.sessions[1].sent| <= MaxSteps
               && r.sessions[1].rest == r.sessions[0].rest[Min(|r.sessions[1].sent|, |r.sessions[0].rest|)..]
               && r.rest == r.sessions[1].rest
    ensures Calls(r.sessions) <= 2 * MaxSteps && r.rest == turns[Min(Calls(r.sessions), |turns|)..]
  {
    if |r.sessions| == 2 {
      assert r.sessions == [r.sessions[0], r.sessions[1]];
      TwoPassBound(turns, r.sessions[0], r.sessions[1]);
    } else if |r.sessions| == 1 {
      assert r.sessions[1..] == [];
    }
  }

  /** An attempt makes at most six chat calls, and the replies it consumed are
      exactly the first that many. */
  lemma ChatCallBound(req: Request, cfg: Config, svc: Services, currentYear: int, turns: seq<ChatTurn>)
    ensures var r := RunChat(req, cfg, svc, currentYear, turns);
            Calls(r.sessions) <= 2 * MaxSteps && r.rest == turns[Min(Calls(r.sessions), |turns|)..]
  {
    RunBound(turns, RunChat(req, cfg, svc, currentYear, turns));
  }

  /** The corrected candidate is not checked again: if the correction comes back
      with present but wrong counts, the attempt still returns it with those counts. */
  lemma CorrectionNotRechecked(p: Prepared, first: Session)
    requires first.outcome.Ok?
    requires var r := AfterFirstPass(p, first);
             && |r.sessions| == 2 && r.sessions[1].outcome.Ok?
             && IsObject(r.sessions[1].outcome.value)
             && Present(Prop(r.sessions[1].outcome.value, CountsKey))
             && NeedCountsFix(Prop(r.sessions[1].outcome.value, CountsKey), p.counts)
    ensures var r := AfterFirstPass(p, first);
            && r.outcome.Ok?
            && NeedCountsFix(Prop(r.outcome.value, CountsKey), p.counts)
  {
    var r := AfterFirstPass(p, first);
    WrongCountsSurviveDefaults(r.sessions[1].outcome.value, p.counts, p.year);
  }
}

=== FILE: context.dfy ===
/** What the analysis attempts put in front of the model: the system prompt, the
    tax year, the stub decision, the chat preamble, the image parts, the image
    conversion step and the uploaded-file listing. */
module Context {
  import opened Wrappers
  import opened Values
  import opened Text
  import opened Manifest
  import opened ToolLoop
  import Supervisor
  import opened Oracles

  // ---------------------------------------------------------------------------
  // System prompt

  /** The built-in prompt: five Spanish sentences joined by single spaces. */
  const DefaultSystemPrompt := "Eres RentaCheck, experto tributario colombiano. Analiza archivos de exógena (.xlsx), prediales e impuestos de vehículo (imágenes/PDF). Prioriza prediales sobre exógena para patrimonio. Usa umbrales por UVT del año solicitado. Responde únicamente con JSON válido que cumpla el esquema renta_check_decision. No incluyas prosa adicional ni razones fuera del JSON."

  /** The characters `String.prototype.trim` removes. */
  predicate IsSpace(c: char) {
    c == ' ' || c == '\t' || c == '\n' || c == '\r' || c == '\U{000B}' || c == '\U{000C}'
    || c == '\U{00A0}' || c == '\U{1680}' || ('\U{2000}' <= c <= '\U{200A}')
    || c == '\U{2028}' || c == '\U{2029}' || c == '\U{202F}' || c == '\U{205F}'
    || c == '\U{3000}' || c == '\U{FEFF}'
  }

  /** `s.trim()` is non-empty. */
  predicate HasNonSpace(s: string) {
    exists i :: 0 <= i < |s| && !IsSpace(s[i])
  }

  /** `buildSystemPrompt`: the configured prompt, untrimmed, unless it is missing or
      blank; then the built-in one. */
  function SystemPrompt(configured: Option<string>): (r: string)
    ensures configured.Some? && HasNonSpace(configured.value) ==> r == configured.value
    ensures !(configured.Some? && HasNonSpace(configured.value)) ==> r == DefaultSystemPrompt
    ensures HasNonSpace(r)
  {
    if configured.Some? && HasNonSpace(configured.value) then configured.value
    else
      assert DefaultSystemPrompt[|DefaultSystemPrompt| - 1] == '.';
      DefaultSystemPrompt
  }

  // ---------------------------------------------------------------------------
  // Tax year and stub decision

  /** `Number(body?.anio_gravable || new Date().getFullYear())`. */
  function YearOf(year: Option<Value>, currentYear: int, strToNum: string -> Option<real>): (r: Value)
    ensures !Present(year) ==> r == Num(currentYear as real)
    ensures Present(year) && year.value.Num? ==> r == year.value
    ensures Present(year) && year.value.Str? ==> r == NumValue(strToNum(year.value.s))
    ensures r.Num? || r == NaN
  {
    NumValue(ToNumber(if Present(year) then year.value else Num(currentYear as real), strToNum))
  }

  /** The placeholder decision returned when the model is switched off. */
  function Stub(req: Request, currentYear: int, strToNum: string -> Option<real>): (r: Value)
    ensures Prop(r, Supervisor.CountsKey) == Some(CountsValue(CountsOf(req)))
    ensures Prop(r, Supervisor.DecisionKey) == Some(Bool(false))
    ensures Prop(r, Supervisor.RagKey) == Some(EmptyArr)
    ensures Prop(r, Supervisor.YearKey) == Some(YearOf(req.year, currentYear, strToNum))
  {
    var anio := YearOf(req.year, currentYear, strToNum);
    Obj(map[
      "anio_gravable" := anio,
      "debe_declarar" := Bool(false),
      "motivos" := Arr(Strs(["Patrimonio e ingresos por debajo de topes UVT estimados",
                             "Sin indicios de consignaciones o consumos elevados"]), map[]),
      "resumen" := Str("Resultado simulado. Implementación real llamará al modelo con structured outputs."),
      "montos" := Obj(map[
        "patrimonio_predial_total_cop" := Num(0.0),
        "patrimonio_exogena_cop" := Num(0.0),
        "ingresos_brutos_cop" := Num(0.0),
        "compras_consumos_cop" := Num(0.0),
        "retenciones_cop" := Num(0.0)]),
      "uvt" := Obj(map["valor_uvt_cop" := Num(47065.0), "anio_uvt" := anio]),
      "prioridad_prediales_aplicada" := Bool(false),
      "verificaciones_rag" := EmptyArr,
      "incertidumbres" := Arr(Strs(["Prototipo: falta análisis real de archivos"]), map[]),
      "archivos_detectados" := CountsValue(CountsOf(req))])
  }

  /** The stub always reports the true counts and never cites a legal check: by the
      supervisor's own rules it needs no count correction but does need a RAG one,
      and its UVT year is its tax year. */
  lemma StubAgainstTriggers(req: Request, currentYear: int, strToNum: string -> Option<real>)
    ensures var s := Stub(req, currentYear, strToNum);
            && !Supervisor.NeedCountsFix(Prop(s, Supervisor.CountsKey), CountsOf(req))
            && Supervisor.NeedRag(Prop(s, Supervisor.RagKey))
            && PropOpt(Prop(s, "uvt"), "anio_uvt") == Prop(s, Supervisor.YearKey)
  {
  }

  // ---------------------------------------------------------------------------
  // Chat preamble

  const FilesHeader := "Archivos disponibles para análisis:"
  const CountsIntro := "Conteo de archivos detectados por tipo (si es 0, significa NO aportado y NO debe reportarse como faltante):"
  const ExcerptIntro := "Contenido exógena (CSV truncado):\n"
  const FilesOnNote := "Archivos también subidos como OpenAI Files (usa si tu contexto lo permite):"
  const FilesOffNote := "Además, usa los URLs firmados (OpenAI Files deshabilitado)."
  const ToolHint := "Usa la función rag_search cuando necesites verificar topes UVT y reglas normativas."
  const PreambleClosing := "Devuelve únicamente un JSON válido que cumpla el esquema renta_check_decision. No agregues texto fuera del JSON."

  function YearLine(yearText: string): string {
    "Año gravable: " + yearText + "."
  }

  /** The preamble's candidate lines, before empty ones are dropped. */
  function PreambleLines(yearText: string, pathsJson: string, countsJson: string, excerpt: string,
                         filesEnabled: bool, fileIdsJson: string): seq<string> {
    [YearLine(yearText), FilesHeader, pathsJson, CountsIntro, countsJson,
     if excerpt != "" then ExcerptIntro + excerpt else "",
     if filesEnabled then FilesOnNote else FilesOffNote,
     if filesEnabled then fileIdsJson else "",
     ToolHint, PreambleClosing]
  }

  function Preamble(yearText: string, pathsJson: string, countsJson: string, excerpt: string,
                    filesEnabled: bool, fileIdsJson: string): string {
    Join(NonEmpty(PreambleLines(yearText, pathsJson, countsJson, excerpt, filesEnabled, fileIdsJson)), "\n")
  }

  /** With non-empty JSON texts, the preamble keeps every fixed line in order; the
      excerpt line appears exactly when there is excerpt text and the file-id line
      exactly when uploads are enabled and listed something. */
  lemma PreambleShape(yearText: string, pathsJson: string, countsJson: string, excerpt: string,
                      filesEnabled: bool, fileIdsJson: string)
    requires pathsJson != "" && countsJson != ""
    ensures NonEmpty(PreambleLines(yearText, pathsJson, countsJson, excerpt, filesEnabled, fileIdsJson))
            == [YearLine(yearText), FilesHeader, pathsJson, CountsIntro, countsJson]
               + When(excerpt != "", ExcerptIntro + excerpt)
               + [if filesEnabled then FilesOnNote else FilesOffNote]
               + When(filesEnabled && fileIdsJson != "", fileIdsJson)
               + [ToolHint, PreambleClosing]
  {
    assert FilesHeader[|FilesHeader| - 1] == ':';
    assert CountsIntro[|CountsIntro| - 1] == ':';
    assert ExcerptIntro[|ExcerptIntro| - 1] == '\n';
    assert FilesOnNote[|FilesOnNote| - 1] == ':';
    assert FilesOffNote[|FilesOffNote| - 1] == '.';
    assert ToolHint[|ToolHint| - 1] == '.';
    assert PreambleClosing[|PreambleClosing| - 1] == '.';
    var yl := YearLine(yearText);
    assert yl[|yl| - 1] == '.';
    var ex := if excerpt != "" then ExcerptIntro + excerpt else "";
    var note := if filesEnabled then FilesOnNote else FilesOffNote;
    var ids := if filesEnabled then fileIdsJson else "";
    FilterTen(yl, FilesHeader, pathsJson, CountsIntro, countsJson, ex, note, ids, ToolHint, PreambleClosing);
    NonEmptyWhen(excerpt != "", ExcerptIntro + excerpt);
    assert NonEmpty([ids]) == When(filesEnabled && fileIdsJson != "", fileIdsJson);
  }

  /** The filter over the preamble's shape: the two optional lines are filtered on their
      own and every other line is kept in place. */
  lemma FilterTen(y: string, h: string, p: string, i: string, c: string, ex: string, n: string,
                  ids: string, t: string, z: string)
    requires y != "" && h != "" && p != "" && i != "" && c != "" && n != "" && t != "" && z != ""
    ensures NonEmpty([y, h, p, i, c, ex, n, ids, t, z])
            == [y, h, p, i, c] + NonEmpty([ex]) + [n] + NonEmpty([ids]) + [t, z]
  {
    var head := [y, h, p, i, c];
    var rest := [ex, n, ids, t, z];
    assert [y, h, p, i, c, ex, n, ids, t, z] == head + rest;
    NonEmptyAppend(head, rest);
    NonEmptyKept(head);
    FilterFive(ex, n, ids, t, z);
  }

  /** The last five preamble lines: the optional ones filtered, the rest kept. */
  lemma FilterFive(ex: string, n: string, ids: string, t: string, z: string)
    requires n != "" && t != "" && z != ""
    ensures NonEmpty([ex, n, ids, t, z]) == NonEmpty([ex]) + [n] + NonEmpty([ids]) + [t, z]
  {
    var tail := [t, z];
    var r3 := [ids] + tail;
    var r2 := [n] + r3;
    assert [ex, n, ids, t, z] == [ex] + r2;
    NonEmptyKept([n]);
    NonEmptyKept(tail);
    NonEmptyAppend([ids], tail);
    NonEmptyAppend([n], r3);
    NonEmptyAppend([ex], r2);
  }

  // ---------------------------------------------------------------------------
  // Images

  /** One image part per path that has a signed URL, in path order. */
  function ImageParts(paths: seq<string>, urls: map<string, string>): (r: seq<Part>)
    ensures |r| <= |paths|
    ensures forall i :: 0 <= i < |r| ==> r[i].ImagePart? && r[i].url != ""
  {
    if paths == [] then []
    else
      var u := UrlOf(urls, paths[0]);
      (if u != "" then [ImagePart(u)] else []) + ImageParts(paths[1..], urls)
  }

  /** Every image part carries the signed URL of one of the paths, and every path with a
      signed URL contributes its part. */
  lemma {:induction false} ImagePartsMembers(paths: seq<string>, urls: map<string, string>)
    ensures forall part :: part in ImageParts(paths, urls) ==>
              exists p :: p in paths && UrlOf(urls, p) == part.url
    ensures forall p :: p in paths && UrlOf(urls, p) != "" ==> ImagePart(UrlOf(urls, p)) in ImageParts(paths, urls)
  {
    if paths != [] {
      ImagePartsMembers(paths[1..], urls);
      forall part | part in ImageParts(paths, urls)
        ensures exists p :: p in paths && UrlOf(urls, p) == part.url
      {
        if part !in ImageParts(paths[1..], urls) {
          assert UrlOf(urls, paths[0]) == part.url;
        } else {
          var q :| q in paths[1..] && UrlOf(urls, q) == part.url;
          assert q in paths;
        }
      }
      forall p | p in paths && UrlOf(urls, p) != ""
        ensures ImagePart(UrlOf(urls, p)) in ImageParts(paths, urls)
      {
        if p != paths[0] {
          assert p in paths[1..];
        }
      }
    }
  }

  /** Parts for two path lists are the parts for each, in order. */
  lemma {:induction false} ImagePartsAppend(a: seq<string>, b: seq<string>, urls: map<string, string>)
    ensures ImageParts(a + b, urls) == ImageParts(a, urls) + ImageParts(b, urls)
  {
    if a == [] {
      assert a + b == b;
    } else {
      assert (a + b)[1..] == a[1..] + b;
      ImagePartsAppend(a[1..], b, urls);
    }
  }

  /** `ensureJpegForPaths` applied to the predial list and then the vehicle list when
      conversion is on; a throw is swallowed, so a failure on the vehicle list keeps
      the already converted predial list. */
  function ConvertPaths(enabled: bool, toJpeg: seq<string> -> Result<seq<string>>,
                        pred: seq<string>, veh: seq<string>): (r: (seq<string>, seq<string>))
    ensures r.0 == pred || (enabled && toJpeg(pred).Ok? && r.0 == toJpeg(pred).value)
    ensures r.1 == veh || (enabled && toJpeg(pred).Ok? && toJpeg(veh).Ok? && r.1 == toJpeg(veh).value)
    ensures enabled && toJpeg(pred).Ok? ==> r.0 == toJpeg(pred).value
    ensures enabled && toJpeg(pred).Ok? && toJpeg(veh).Ok? ==> r.1 == toJpeg(veh).value
    ensures !enabled || toJpeg(pred).Err? ==> r == (pred, veh)
  {
    if !enabled then (pred, veh)
    else match toJpeg(pred)
      case Err(_) => (pred, veh)
      case Ok(p2) =>
        match toJpeg(veh)
        case Err(_) => (p2, veh)
        case Ok(v2) => (p2, v2)
  }

  // ---------------------------------------------------------------------------
  // Uploaded files

  /** `path.split('/').pop()`: the text after the last slash. */
  function LastSegment(path: string): (r: string)
    ensures |r| <= |path| && r == path[|path| - |r|..]
    ensures forall i :: 0 <= i < |r| ==> r[i] != '/'
    ensures |r| < |path| ==> path[|path| - |r| - 1] == '/'
  {
    if path == [] then []
    else if path[|path| - 1] == '/' then []
    else LastSegment(path[..|path| - 1]) + [path[|path| - 1]]
  }

  /** The signed-URL list of one category: each path with its URL ("" for none). */
  function Listing(paths: seq<string>, urls: map<string, string>): (r: seq<Signed>)
    ensures |r| == |paths|
    ensures forall i :: 0 <= i < |r| ==> r[i] == Signed(paths[i], UrlOf(urls, paths[i]))
  {
    if paths == [] then [] else [Signed(paths[0], UrlOf(urls, paths[0]))] + Listing(paths[1..], urls)
  }

  /** The upload item for one listed file: its name is the path's last segment. */
  function ItemOf(entry: Signed, kind: string): UploadItem {
    UploadItem(entry.path, entry.url, LastSegment(entry.path), kind)
  }

  /** The items handed to the upload service for one category. */
  function UploadItems(listing: seq<Signed>, kind: string): (r: seq<UploadItem>)
    ensures |r| == |listing|
    ensures forall i :: 0 <= i < |r| ==> r[i] == ItemOf(listing[i], kind)
  {
    seq(|listing|, i requires 0 <= i < |listing| => ItemOf(listing[i], kind))
  }

  /** Each upload item names the listed file by the text after its path's last slash,
      and keeps the path, the URL and the kind. */
  lemma UploadItemsName(listing: seq<Signed>, kind: string, i: nat)
    requires i < |listing|
    ensures var item := UploadItems(listing, kind)[i];
            && item.path == listing[i].path && item.url == listing[i].url && item.kind == kind
            && listing[i].path == listing[i].path[..|listing[i].path| - |item.filename|] + item.filename
            && '/' !in item.filename
            && (|item.filename| < |listing[i].path| ==> listing[i].path[|listing[i].path| - |item.filename| - 1] == '/')
  {
    var item := UploadItems(listing, kind)[i];
    var p := listing[i].path;
    assert p == p[..|p| - |item.filename|] + p[|p| - |item.filename|..];
  }

  /** The file ids per category; an id is "" when the service gave none. */
  datatype Uploads = Uploads(exogena: seq<string>, prediales: seq<string>, vehiculos: seq<string>)

  /** The three uploads in order; any failure leaves all three lists empty. */
  function UploadAll(enabled: bool, upload: seq<UploadItem> -> Result<seq<string>>,
                     exo: seq<Signed>, pred: seq<Signed>, veh: seq<Signed>): (r: Uploads)
    ensures r != Uploads([], [], []) ==> enabled
    ensures r == Uploads([], [], [])
            || (&& upload(UploadItems(exo, "exogena")) == Ok(r.exogena)
                && upload(UploadItems(pred, "predial")) == Ok(r.prediales)
                && upload(UploadItems(veh, "vehiculo")) == Ok(r.vehiculos))
    ensures var e, p, v := upload(UploadItems(exo, "exogena")), upload(UploadItems(pred, "predial")),
                           upload(UploadItems(veh, "vehiculo"));
            && (enabled && e.Ok? && p.Ok? && v.Ok? ==> r == Uploads(e.value, p.value, v.value))
            && (e.Err? || p.Err? || v.Err? ==> r == Uploads([], [], []))
  {
    if !enabled then Uploads([], [], [])
    else match upload(UploadItems(exo, "exogena"))
      case Err(_) => Uploads([], [], [])
      case Ok(e) =>
        match upload(UploadItems(pred, "predial"))
        case Err(_) => Uploads([], [], [])
        case Ok(p) =>
          match upload(UploadItems(veh, "vehiculo"))
          case Err(_) => Uploads([], [], [])
          case Ok(v) => Uploads(e, p, v)
  }

  /** The ids listed in the preamble: exógena ids all, predial and vehicle ids at
      most five each, missing ids dropped. */
  function FileIdsValue(u: Uploads): (r: Value)
    ensures Prop(r, "exogena_file_ids") == Some(Arr(Strs(NonEmpty(u.exogena)), map[]))
    ensures Prop(r, "prediales_file_ids") == Some(Arr(Strs(Take(NonEmpty(u.prediales), 5)), map[]))
    ensures Prop(r, "vehiculos_file_ids") == Some(Arr(Strs(Take(NonEmpty(u.vehiculos), 5)), map[]))
    ensures |Prop(r, "prediales_file_ids").value.items| <= 5 && |Prop(r, "vehiculos_file_ids").value.items| <= 5
  {
    Obj(map[
      "exogena_file_ids" := Arr(Strs(NonEmpty(u.exogena)), map[]),
      "prediales_file_ids" := Arr(Strs(Take(NonEmpty(u.prediales), 5)), map[]),
      "vehiculos_file_ids" := Arr(Strs(Take(NonEmpty(u.vehiculos), 5)), map[])])
  }

  /** The exógena ids listed are exactly the non-empty ones uploaded; the predial and
      vehicle ids listed are uploaded non-empty ones, and all of them when there are at
      most five. */
  lemma FileIdsListed(u: Uploads, id: string)
    ensures Str(id) in Prop(FileIdsValue(u), "exogena_file_ids").value.items <==> id in u.exogena && id != ""
    ensures Str(id) in Prop(FileIdsValue(u), "prediales_file_ids").value.items ==> id in u.prediales && id != ""
    ensures Str(id) in Prop(FileIdsValue(u), "vehiculos_file_ids").value.items ==> id in u.vehiculos && id != ""
    ensures |NonEmpty(u.prediales)| <= 5 ==>
              (Str(id) in Prop(FileIdsValue(u), "prediales_file_ids").value.items <==> id in u.prediales && id != "")
    ensures |NonEmpty(u.vehiculos)| <= 5 ==>
              (Str(id) in Prop(FileIdsValue(u), "vehiculos_file_ids").value.items <==> id in u.vehiculos && id != "")
  {
    StrsMember(NonEmpty(u.exogena), id);
    StrsMember(Take(NonEmpty(u.prediales), 5), id);
    StrsMember(Take(NonEmpty(u.vehiculos), 5), id);
  }

  lemma StrsMember(xs: seq<string>, x: string)
    ensures Str(x) in Strs(xs) <==> x in xs
  {
    if Str(x) in Strs(xs) {
      var i :| 0 <= i < |xs| && Strs(xs)[i] == Str(x);
    }
    if x in xs {
      var i :| 0 <= i < |xs| && xs[i] == x;
      assert Strs(xs)[i] == Str(x);
    }
  }

  /** `refs.map(x => x.storage_path)` as the JSON the preamble lists: a missing path
      serialises as null. */
  function RawPathValues(refs: seq<FileRef>): (r: seq<Value>)
    ensures |r| == |refs|
  {
    if refs == [] then []
    else [match refs[0] case Ref(p) => if p == "" then Null else Str(p) case NullRef => Null]
         + RawPathValues(refs[1..])
  }

  function PathsValue(exo: seq<FileRef>, pred: seq<FileRef>, veh: seq<FileRef>): Value {
    Obj(map["exogena" := Arr(RawPathValues(exo), map[]),
            "prediales" := Arr(RawPathValues(pred), map[]),
            "vehiculos" := Arr(RawPathValues(veh), map[])])
  }
}

=== FILE: dev_test.dfy ===
/** The two pure pieces of the end-to-end script: the extension-to-MIME table
    used when requesting signed uploads, and the analyze request body built from
    the files the upload service registered. */
module DevTest {
  import opened Values
  import opened Wrappers
  import opened Text
  import Manifest

  const XlsxMime := "application/vnd.openxmlformats-officedocument.spreadsheetml.sheet"
  const OctetStream := "application/octet-stream"

  /** `guessMime`: the lower-cased name's suffix decides, first match wins. */
  function GuessMime(filename: string): string {
    var f := ToLower(filename);
    if EndsWith(f, ".xlsx") then XlsxMime
    else if EndsWith(f, ".pdf") then "application/pdf"
    else if EndsWith(f, ".jpg") || EndsWith(f, ".jpeg") then "image/jpeg"
    else if EndsWith(f, ".png") then "image/png"
    else if EndsWith(f, ".heic") then "image/heic"
    else OctetStream
  }

  /** The reference table: the MIME type of a known extension. */
  function MimeOfExtension(ext: string): Option<string> {
    if ext == ".xlsx" then Some(XlsxMime)
    else if ext == ".pdf" then Some("application/pdf")
    else if ext == ".jpg" || ext == ".jpeg" then Some("image/jpeg")
    else if ext == ".png" then Some("image/png")
    else if ext == ".heic" then Some("image/heic")
    else None
  }

  /** Upper- and lower-case spellings of a name get the same type. */
  lemma GuessMimeIgnoresCase(filename: string)
    ensures GuessMime(ToLower(filename)) == GuessMime(filename)
  {
    ToLowerIdempotent(filename);
  }

  /** Only the last five characters matter (the longest extension is five long):
      any prefix before them leaves the answer unchanged. */
  lemma {:induction false} GuessMimeSuffixOnly(prefix: string, name: string)
    requires |name| >= 5
    ensures GuessMime(prefix + name) == GuessMime(name)
  {
    ToLowerAppend(prefix, name);
    var p, n := ToLower(prefix), ToLower(name);
    EndsWithAppend(p, n, ".xlsx");
    EndsWithAppend(p, n, ".pdf");
    EndsWithAppend(p, n, ".jpg");
    EndsWithAppend(p, n, ".jpeg");
    EndsWithAppend(p, n, ".png");
    EndsWithAppend(p, n, ".heic");
  }

  /** A four-character extension after any one character. */
  lemma ShortExtension(c: char, ext: string)
    requires ext == ".pdf" || ext == ".jpg" || ext == ".png"
    ensures GuessMime([c] + ext) == MimeOfExtension(ext).value
  {
    var f := ToLower([c] + ext);
    assert f == [LowerChar(c)] + ext;
    assert f[1..] == ext;
    assert !EndsWith(f, ".xlsx") by { assert f[1] == '.'; }
  }

  /** A four-character extension on its own. */
  lemma ShortAlone(ext: string)
    requires ext == ".pdf" || ext == ".jpg" || ext == ".png"
    ensures GuessMime(ext) == MimeOfExtension(ext).value
  {
    assert ToLower(ext) == ext;
    assert EndsWith(ext, ext);
  }

  /** The five-character extensions on their own. */
  lemma LongExtension(ext: string)
    requires ext == ".xlsx" || ext == ".jpeg" || ext == ".heic"
    ensures GuessMime(ext) == MimeOfExtension(ext).value
  {
    assert ToLower(ext) == ext;
    assert EndsWith(ext, ext);
    if ext != ".xlsx" {
      assert !EndsWith(ext, ".xlsx");
      assert ext[1..] != ".pdf" && ext[1..] != ".jpg";
    }
    if ext == ".heic" {
      assert ext[1..] != ".png";
    }
  }

  /** Every name ending in a known extension, in any case, gets that extension's
      type; the extension is matched on the lower-cased name. */
  lemma {:induction false} GuessMimeTable(base: string, ext: string)
    requires MimeOfExtension(ext).Some?
    ensures GuessMime(base + ext) == MimeOfExtension(ext).value
  {
    if |ext| == 5 {
      GuessMimeSuffixOnly(base, ext);
      LongExtension(ext);
    } else if base == [] {
      assert base + ext == ext;
      ShortAlone(ext);
    } else {
      var n := |base| - 1;
      assert base + ext == base[..n] + ([base[n]] + ext);
      GuessMimeSuffixOnly(base[..n], [base[n]] + ext);
      ShortExtension(base[n], ext);
    }
  }

  /** A name with no known extension is an opaque byte stream. */
  lemma GuessMimeDefault(filename: string)
    requires forall ext :: MimeOfExtension(ext).Some? ==> !EndsWith(ToLower(filename), ext)
    ensures GuessMime(filename) == OctetStream
  {
    assert MimeOfExtension(".xlsx").Some? && MimeOfExtension(".pdf").Some?;
    assert MimeOfExtension(".jpg").Some? && MimeOfExtension(".jpeg").Some?;
    assert MimeOfExtension(".png").Some? && MimeOfExtension(".heic").Some?;
  }

  /** One entry of the upload-init response. */
  datatype InitFile = InitFile(kind: string, storagePath: string)

  /** `files.filter(x => x.kind === kind).map(x => ({ storage_path: x.storage_path }))`. */
  function RefsOfKind(files: seq<InitFile>, kind: string): (r: seq<Manifest.FileRef>)
    ensures |r| <= |files|
    ensures forall x :: x in r ==> x.Ref?
  {
    if files == [] then []
    else if files[0].kind == kind then [Manifest.Ref(files[0].storagePath)] + RefsOfKind(files[1..], kind)
    else RefsOfKind(files[1..], kind)
  }

  /** Filtering keeps the relative order: the refs of a concatenation are the
      refs of each part, one after the other. */
  lemma {:induction false} RefsOfKindAppend(a: seq<InitFile>, b: seq<InitFile>, kind: string)
    ensures RefsOfKind(a + b, kind) == RefsOfKind(a, kind) + RefsOfKind(b, kind)
  {
    if a == [] {
      assert a + b == b;
    } else {
      assert (a + b)[1..] == a[1..] + b;
      RefsOfKindAppend(a[1..], b, kind);
    }
  }

  /** Exactly the files of the kind are kept, with their paths. */
  lemma {:induction false} RefsOfKindMembers(files: seq<InitFile>, kind: string, path: string)
    ensures Manifest.Ref(path) in RefsOfKind(files, kind) <==> InitFile(kind, path) in files
  {
    if files != [] {
      RefsOfKindMembers(files[1..], kind, path);
      assert files == [files[0]] + files[1..];
    }
  }

  /** Each file of the kind is kept as often as it occurs, and nothing else is. */
  lemma {:induction false} RefsOfKindCount(files: seq<InitFile>, kind: string, path: string)
    ensures multiset(RefsOfKind(files, kind))[Manifest.Ref(path)] == multiset(files)[InitFile(kind, path)]
  {
    if files != [] {
      var rest := files[1..];
      RefsOfKindCount(rest, kind, path);
      assert multiset(files) == multiset{files[0]} + multiset(rest) by {
        assert files == [files[0]] + rest;
      }
      if files[0].kind == kind {
        assert multiset(RefsOfKind(files, kind))
               == multiset{Manifest.Ref(files[0].storagePath)} + multiset(RefsOfKind(rest, kind));
      }
    }
  }

  /** The analyze request of step 3 of the script: year 2024, the exogena and
      predial files in upload order, and no vehicle files. */
  function AnalyzeBody(files: seq<InitFile>): (r: Manifest.Request)
    ensures r.year == Some(Num(2024.0))
    ensures r.exogena.Some? && r.prediales.Some? && r.vehiculos == Some([])
    ensures forall p :: Manifest.Ref(p) in r.exogena.value <==> InitFile("exogena", p) in files
    ensures forall p :: Manifest.Ref(p) in r.prediales.value <==> InitFile("predial", p) in files
    ensures forall p :: multiset(r.exogena.value)[Manifest.Ref(p)] == multiset(files)[InitFile("exogena", p)]
    ensures forall p :: multiset(r.prediales.value)[Manifest.Ref(p)] == multiset(files)[InitFile("predial", p)]
    ensures forall x :: x in r.exogena.value + r.prediales.value ==> x.Ref?
    ensures r.exogena == Some(RefsOfKind(files, "exogena")) && r.prediales == Some(RefsOfKind(files, "predial"))
  {
    assert forall p :: multiset(RefsOfKind(files, "exogena"))[Manifest.Ref(p)] == multiset(files)[InitFile("exogena", p)] by {
      forall p { RefsOfKindCount(files, "exogena", p); }
    }
    assert forall p :: multiset(RefsOfKind(files, "predial"))[Manifest.Ref(p)] == multiset(files)[InitFile("predial", p)] by {
      forall p { RefsOfKindCount(files, "predial", p); }
    }
    assert forall p :: Manifest.Ref(p) in RefsOfKind(files, "exogena") <==> InitFile("exogena", p) in files by {
      forall p { RefsOfKindMembers(files, "exogena", p); }
    }
    assert forall p :: Manifest.Ref(p) in RefsOfKind(files, "predial") <==> InitFile("predial", p) in files by {
      forall p { RefsOfKindMembers(files, "predial", p); }
    }
    Manifest.Request(Some(Num(2024.0)), Some(RefsOfKind(files, "exogena")),
                     Some(RefsOfKind(files, "predial")), Some([]))
  }
}

=== FILE: handler.dfy ===
/** The HTTP entry point: method check, correlation id, body decoding, the retry
    loop over whole attempts (stub, chat or Responses path by configuration), and
    the 200 / 502 answers. */
module Handler {
  import opened Wrappers
  import opened Values
  import opened Manifest
  import opened ToolLoop
  import opened Oracles
  import opened Retry
  import Logger
  import Context
  import ChatAttempt
  import ResponsesAttempt

  /** The raw request body as the platform hands it over. */
  datatype RawBody = TextBody(text: string) | ValueBody(value: Value) | NoBody

  datatype HttpRequest = HttpRequest(verb: string, headers: Option<map<string, string>>, body: RawBody)

  datatype HttpResponse = HttpResponse(status: nat, body: Value)

  /** The scripted replies of the two model APIs, consumed across attempts. */
  datatype World = World(chat: seq<ChatTurn>, responses: seq<ResponsesTurn>)

  datatype Handled = Handled(response: HttpResponse, world: World, attempts: seq<Attempt>)

  /** `typeof raw === 'string' ? JSON.parse(raw || '{}') : (raw || {})`, with `{}`
      when parsing throws. */
  function BodyOf(raw: RawBody, parse: string -> Option<Value>): (r: Value)
    ensures raw == NoBody ==> r == EmptyObj
    ensures raw.TextBody? && raw.text == "" ==> r == EmptyObj
    ensures raw.TextBody? && parse(raw.text).None? && raw.text != "null" ==> r == EmptyObj
    ensures raw.TextBody? && raw.text !in {"", "{}", "null"} && parse(raw.text).Some? ==> r == parse(raw.text).value
    ensures raw == TextBody("null") ==> r == Null
    ensures raw == TextBody("{}") ==> r == EmptyObj
    ensures raw.ValueBody? ==> r == if Truthy(raw.value) then raw.value else EmptyObj
  {
    match raw
    case TextBody(t) =>
      (match JsonParse(parse, if t == "" then "{}" else t)
       case Some(v) => v
       case None => EmptyObj)
    case ValueBody(v) => if Truthy(v) then v else EmptyObj
    case NoBody => EmptyObj
  }

  /** A JSON text body and the value it parses to describe the same request: the
      platform may hand the body over either way. */
  lemma TextAndValueBodiesAgree(t: string, parse: string -> Option<Value>)
    requires t != "" && JsonParse(parse, t).Some?
    ensures RequestOf(BodyOf(TextBody(t), parse)) == RequestOf(BodyOf(ValueBody(JsonParse(parse, t).value), parse))
  {
    var v := JsonParse(parse, t).value;
    if !Truthy(v) {
      assert !IsObject(v);
    }
  }

  /** One attempt, by configuration. Without OpenAI it is the stub and touches
      neither script. With the Responses API on, its outcome and what is left of the
      Responses script are `RunResponses`' on that script, and the chat script is left
      as it was. Otherwise they are `RunChat`'s on the chat script, and the Responses
      script is left as it was. */
  function Attempt(req: Request, cfg: Config, svc: Services, currentYear: int, w: World): (out: (Result<Value>, World))
    ensures !cfg.enableOpenAI ==> out == (Ok(Context.Stub(req, currentYear, svc.strToNum)), w)
    ensures cfg.enableOpenAI && cfg.enableResponses ==>
              var r := ResponsesAttempt.RunResponses(req, cfg, svc, currentYear, w.responses);
              out.0 == r.outcome && out.1 == World(w.chat, r.rest)
    ensures cfg.enableOpenAI && !cfg.enableResponses ==>
              var r := ChatAttempt.RunChat(req, cfg, svc, currentYear, w.chat);
              out.0 == r.outcome && out.1 == World(r.rest, w.responses)
  {
    if !cfg.enableOpenAI then (Ok(Context.Stub(req, currentYear, svc.strToNum)), w)
    else if cfg.enableResponses then
      var r := ResponsesAttempt.RunResponses(req, cfg, svc, currentYear, w.responses);
      (r.outcome, World(w.chat, r.rest))
    else
      var r := ChatAttempt.RunChat(req, cfg, svc, currentYear, w.chat);
      (r.outcome, World(r.rest, w.responses))
  }

  /** The attempt as a function of the scripts, as the retry loop takes it. */
  function RunAttempt(req: Request, cfg: Config, svc: Services, currentYear: int): World -> (Result<Value>, World) {
    (w: World) => Attempt(req, cfg, svc, currentYear, w)
  }

  /** `{ ...candidate }`: an object's own fields, an array's named properties. */
  function Spread(v: Value): (m: map<string, Value>)
    ensures forall k :: (k in m) <==> Prop(v, k).Some?
    ensures forall k :: k in m ==> Prop(v, k) == Some(m[k])
  {
    match v
    case Obj(f) => f
    case Arr(_, p) => p
    case _ => map[]
  }

  function SuccessBody(candidate: Value, correlationId: string): Value {
    Obj(Spread(candidate)["correlationId" := Str(correlationId)])
  }

  function FailureBody(errors: seq<string>, candidate: Value, correlationId: string): Value {
    Obj(map["error" := Str("Structured output validation failed"),
            "validation_errors" := Arr(Strs(errors), map[]),
            "candidate" := candidate,
            "correlationId" := Str(correlationId)])
  }

  /** The answer for a finished retry loop: 200 with the accepted candidate's
      fields and the correlation id, otherwise 502 with the last violations and the
      last candidate. */
  function Answer(out: Outcome<World>, correlationId: string): (r: HttpResponse)
    ensures r.status == 200 <==> out.accepted.Some?
    ensures r.status == 200 || r.status == 502
    ensures r.status == 200 ==>
              && Prop(r.body, "correlationId") == Some(Str(correlationId))
              && forall k :: k != "correlationId" ==> Prop(r.body, k) == Prop(out.accepted.value, k)
    ensures r.status != 200 ==> r == HttpResponse(502, FailureBody(out.lastErrors, out.candidate, correlationId))
  {
    match out.accepted
    case Some(c) => HttpResponse(200, SuccessBody(c, correlationId))
    case None => HttpResponse(502, FailureBody(out.lastErrors, out.candidate, correlationId))
  }

  /** A POST request: the retry loop over `attempt`, then the answer. */
  function Serve(attempt: World -> (Result<Value>, World), validate: Value -> Validation, budget: nat,
                 world: World, correlationId: string): (r: Handled)
    ensures r.response.status == 200 || r.response.status == 502
    ensures |r.attempts| <= budget
    ensures budget >= 1 ==> 1 <= |r.attempts|
    ensures r.attempts == Runs(attempt, validate, world, |r.attempts|)
    ensures r.world == WorldAfter(attempt, world, |r.attempts|)
    ensures forall i :: 0 <= i < |r.attempts| - 1 ==> !Accepted(r.attempts[i])
    ensures r.response.status == 200 ==> 1 <= |r.attempts|
    ensures r.response.status == 200 ==>
              var last := r.attempts[|r.attempts| - 1];
              && Accepted(last)
              && validate(last.candidate).ok
              && Prop(r.response.body, "correlationId") == Some(Str(correlationId))
              && forall k :: k != "correlationId" ==> Prop(r.response.body, k) == Prop(last.candidate, k)
    ensures r.response.status == 502 ==>
              && |r.attempts| == budget
              && (forall i :: 0 <= i < |r.attempts| ==> !Accepted(r.attempts[i]))
              && r.response.body == FailureBody(LastErrors(r.attempts), LastCandidate(r.attempts), correlationId)
  {
    var out := Run(attempt, validate, budget, world);
    Handled(Answer(out, correlationId), out.world, out.trace)
  }

  /** The handler. `uuid` is the fresh id used when the request carries none,
      `currentYear` the clock's year. The attempt budget is the one the loop guard
      computes as written, so a non-numeric MAX_ANALYZE_RETRIES runs no attempt. */
  function Handle(http: HttpRequest, cfg: Config, svc: Services, uuid: string, currentYear: int, world: World)
    : (r: Handled)
    ensures r.response.status == 405 <==> http.verb != "POST"
    ensures r.response.status == 405 ==>
              r.response.body == Obj(map["error" := Str("Method not allowed")]) && r.world == world && r.attempts == []
    ensures http.verb == "POST" ==>
              r == Serve(RunAttempt(RequestOf(BodyOf(http.body, svc.parse)), cfg, svc, currentYear),
                         svc.validate, BudgetAsWritten(cfg.maxRetries), world, Logger.CorrelationId(http.headers, uuid))
  {
    Dispatch(http, cfg, svc, uuid, currentYear, world, BudgetAsWritten(cfg.maxRetries))
  }

  /** The handler with the budget the guard evidently intends: every POST makes at
      least one attempt. */
  function HandleCorrected(http: HttpRequest, cfg: Config, svc: Services, uuid: string, currentYear: int, world: World)
    : (r: Handled)
    ensures r.response.status == 405 <==> http.verb != "POST"
    ensures http.verb == "POST" ==> 1 <= |r.attempts|
    ensures http.verb == "POST" ==>
              r == Serve(RunAttempt(RequestOf(BodyOf(http.body, svc.parse)), cfg, svc, currentYear),
                         svc.validate, Budget(cfg.maxRetries), world, Logger.CorrelationId(http.headers, uuid))
  {
    Dispatch(http, cfg, svc, uuid, currentYear, world, Budget(cfg.maxRetries))
  }

  /** The method check, then the retry loop with the given budget. */
  function Dispatch(http: HttpRequest, cfg: Config, svc: Services, uuid: string, currentYear: int, world: World,
                    budget: nat): (r: Handled)
    ensures r.response.status == 405 <==> http.verb != "POST"
  {
    if http.verb != "POST" then
      Handled(HttpResponse(405, Obj(map["error" := Str("Method not allowed")])), world, [])
    else
      Serve(RunAttempt(RequestOf(BodyOf(http.body, svc.parse)), cfg, svc, currentYear),
            svc.validate, budget, world, Logger.CorrelationId(http.headers, uuid))
  }

  /** As written, a non-numeric MAX_ANALYZE_RETRIES answers every POST with 502, no
      violations and a null candidate, without consulting either model. */
  lemma NaNRetriesAnswer502(http: HttpRequest, cfg: Config, svc: Services, uuid: string, currentYear: int,
                            world: World)
    requires http.verb == "POST" && cfg.maxRetries.None?
    ensures var r := Handle(http, cfg, svc, uuid, currentYear, world);
            && r.attempts == [] && r.world == world
            && r.response == HttpResponse(502, FailureBody([], Null, Logger.CorrelationId(http.headers, uuid)))
  {
  }
}

=== FILE: logger.dfy ===
/** Structured logging: level ranks, the threshold taken from the LOG_LEVEL
    setting, the gate in `log`, the entry it writes, the console channel it picks,
    and the correlation-id choice for an incoming request. */
module Logger {
  import opened Wrappers
  import opened Values
  import Text

  /** The console stream a line goes to. */
  datatype Channel = ConsoleError | ConsoleWarn | ConsoleLog

  /** A line that passed the gate: where it goes and the object it serialises. */
  datatype Emitted = Emitted(channel: Channel, entry: map<string, Value>)

  /** The LEVELS table; None for any other name. */
  function Rank(level: string): Option<int> {
    if level == "debug" then Some(10)
    else if level == "info" then Some(20)
    else if level == "warn" then Some(30)
    else if level == "error" then Some(40)
    else None
  }

  /** The rank `log` uses for a level it does not know (`?? 999`). */
  const UnknownRank := 999

  /** The lower-case names every object inherits: looking one of them up in the
      LEVELS table finds a function or an object, not undefined. */
  const InheritedNames: set<string> := {"constructor", "__proto__"}

  /** The threshold that stands for an inherited member: a number compares false
      against it, so it lies below every rank. */
  const NoThreshold := 0

  /** CURRENT_LEVEL: the rank of the lower-cased LOG_LEVEL (absent or empty reads as
      'info'), falling back to info's rank for an unknown name; an inherited name
      survives the `??` and filters nothing. */
  function Threshold(logLevel: Option<string>): (t: int)
    ensures t == NoThreshold || t == 10 || t == 20 || t == 30 || t == 40
    ensures logLevel.Some? && Rank(Text.ToLower(logLevel.value)).Some? && logLevel.value != ""
            ==> t == Rank(Text.ToLower(logLevel.value)).value
    ensures logLevel.Some? && logLevel.value != "" && Rank(Text.ToLower(logLevel.value)).None?
            ==> t == if Text.ToLower(logLevel.value) in InheritedNames then NoThreshold else 20
    ensures logLevel.None? || logLevel.value == "" ==> t == 20
  {
    var name := Text.ToLower(if logLevel.Some? && logLevel.value != "" then logLevel.value else "info");
    if name in InheritedNames then NoThreshold else Rank(name).GetOr(20)
  }

  /** The gate of `log`: a line is dropped exactly when its rank is below the threshold. */
  predicate Emits(level: string, threshold: int) {
    !(Rank(level).GetOr(UnknownRank) < threshold)
  }

  function ChannelOf(level: string): (c: Channel)
    ensures c == ConsoleError <==> level == "error"
    ensures c == ConsoleWarn <==> level == "warn"
  {
    if level == "error" then ConsoleError
    else if level == "warn" then ConsoleWarn
    else ConsoleLog
  }

  /** `{ ts, level, event, correlationId, ...(data || {}) }`: caller data is spread last. */
  function EntryOf(ts: string, level: string, event: string, correlationId: string,
                   data: Option<map<string, Value>>): (e: map<string, Value>)
    ensures e.Keys == {"ts", "level", "event", "correlationId"} + data.GetOr(map[]).Keys
    ensures forall k :: k in data.GetOr(map[]) ==> e[k] == data.value[k]
    ensures "level" !in data.GetOr(map[]) ==> e["level"] == Str(level)
    ensures "ts" !in data.GetOr(map[]) ==> e["ts"] == Str(ts)
    ensures "event" !in data.GetOr(map[]) ==> e["event"] == Str(event)
    ensures "correlationId" !in data.GetOr(map[]) ==> e["correlationId"] == Str(correlationId)
  {
    var base := map["ts" := Str(ts), "level" := Str(level), "event" := Str(event),
                    "correlationId" := Str(correlationId)];
    base + data.GetOr(map[])
  }

  /** `log(level, correlationId, event, data)` with the clock reading `ts` and the
      threshold as parameters. */
  function Log(level: string, correlationId: string, event: string,
               data: Option<map<string, Value>>, ts: string, threshold: int): (r: Option<Emitted>)
    ensures r.Some? <==> Emits(level, threshold)
    ensures r.Some? ==> r.value.channel == ChannelOf(level)
    ensures r.Some? ==> r.value.entry == EntryOf(ts, level, event, correlationId, data)
  {
    if Rank(level).GetOr(UnknownRank) < threshold then None
    else Some(Emitted(ChannelOf(level), EntryOf(ts, level, event, correlationId, data)))
  }

  /** `getCorrelationId`: x-request-id, else x-correlation-id, else a fresh UUID
      (passed in); an empty header value is falsy and skipped. */
  function CorrelationId(headers: Option<map<string, string>>, uuid: string): (r: string)
    ensures r == uuid || (headers.Some? && r != "" &&
              (("x-request-id" in headers.value && r == headers.value["x-request-id"]) ||
               ("x-correlation-id" in headers.value && r == headers.value["x-correlation-id"])))
    ensures headers.Some? && "x-request-id" in headers.value && headers.value["x-request-id"] != ""
            ==> r == headers.value["x-request-id"]
    ensures headers.Some? && ("x-request-id" in headers.value ==> headers.value["x-request-id"] == "")
            && "x-correlation-id" in headers.value && headers.value["x-correlation-id"] != ""
            ==> r == headers.value["x-correlation-id"]
    ensures r == uuid <== (headers.None? ||
              ((("x-request-id" in headers.value) ==> headers.value["x-request-id"] == "") &&
               (("x-correlation-id" in headers.value) ==> headers.value["x-correlation-id"] == "")))
  {
    var h := (name: string) => if headers.Some? && name in headers.value then headers.value[name] else "";
    if h("x-request-id") != "" then h("x-request-id")
    else if h("x-correlation-id") != "" then h("x-correlation-id")
    else uuid
  }

  /** Under a LOG_LEVEL naming a known level, in any case, `log` writes a line of a
      known level exactly when that level ranks at or above the configured one; with
      no setting that is 'info', so debug lines are dropped and the others written. */
  lemma LogFollowsSetting(level: string, setting: Option<string>, correlationId: string, event: string,
                          data: Option<map<string, Value>>, ts: string)
    requires setting.Some? ==> setting.value != "" && Rank(Text.ToLower(setting.value)).Some?
    requires Rank(level).Some?
    ensures var configured := if setting.Some? then Text.ToLower(setting.value) else "info";
            var written := Log(level, correlationId, event, data, ts, Threshold(setting)).Some?;
            written <==> Rank(level).value >= Rank(configured).value
    ensures setting.None? ==>
              (Log(level, correlationId, event, data, ts, Threshold(setting)).Some? <==> level != "debug")
  {
  }

  /** Ranks are strictly increasing from debug to error. */
  lemma RanksIncrease()
    ensures Rank("debug").value < Rank("info").value < Rank("warn").value < Rank("error").value
  {
  }

  /** A level the table does not know is never filtered out, and neither is 'error'. */
  lemma AlwaysEmitted(level: string, logLevel: Option<string>)
    requires Rank(level).None? || level == "error"
    ensures Emits(level, Threshold(logLevel))
  {
  }

  /** A LOG_LEVEL naming an inherited member, in any case, lets every line through. */
  lemma InheritedLevelEmitsAll(logLevel: string, level: string)
    requires Text.ToLower(logLevel) in InheritedNames
    ensures Emits(level, Threshold(Some(logLevel)))
  {
  }

  /** Only a header carrying a non-empty value can replace the fresh id, and no
      header other than the two named ones is ever consulted. */
  lemma CorrelationIdIgnoresOtherHeaders(headers: map<string, string>, name: string, value: string, uuid: string)
    requires name != "x-request-id" && name != "x-correlation-id"
    ensures CorrelationId(Some(headers[name := value]), uuid) == CorrelationId(Some(headers), uuid)
  {
  }

  /** Raising the threshold can only drop lines. */
  lemma EmitsMonotone(level: string, t: int, t': int)
    requires t' <= t
    requires Emits(level, t)
    ensures Emits(level, t')
  {
  }

  /** LOG_LEVEL is read case-insensitively. */
  lemma ThresholdIgnoresCase(name: string)
    ensures Threshold(Some(name)) == Threshold(Some(Text.ToLower(name)))
  {
    Text.ToLowerIdempotent(name);
  }

  /** The data argument can rename the entry's level, but the channel still follows
      the level argument. */
  lemma DataOverridesLevelNotChannel(cid: string, ts: string)
    ensures var r := Log("error", cid, "e", Some(map["level" := Str("info")]), ts, 10);
            r.Some? && r.value.channel == ConsoleError && r.value.entry["level"] == Str("info")
  {
  }
}

=== FILE: manifest.dfy ===
/** The request manifest: file references per category, the true per-category
    counts, storage paths, and the path-to-signed-URL map built from the signing
    service's answer. */
module Manifest {
  import opened Wrappers
  import opened Values

  /** A manifest entry. `Ref("")` is an object without a (truthy) storage_path;
      `NullRef` is a null entry, whose `storage_path` cannot be read. */
  datatype FileRef = Ref(path: string) | NullRef

  /** The parts of the request body the handler reads. A category is None when the
      body's value there is not an array. */
  datatype Request = Request(
    year: Option<Value>,
    exogena: Option<seq<FileRef>>,
    prediales: Option<seq<FileRef>>,
    vehiculos: Option<seq<FileRef>>)

  /** Files detected per category. */
  datatype Counts = Counts(exogena: nat, prediales: nat, vehiculos: nat)

  /** One answer of the storage signing service; `url == ""` is a missing URL. */
  datatype Signed = Signed(path: string, url: string)

  function EntryOf(v: Value): FileRef {
    if v == Null then NullRef
    else match Prop(v, "storage_path")
      case Some(Str(s)) => Ref(s)
      case _ => Ref("")
  }

  function Entries(items: seq<Value>): (r: seq<FileRef>)
    ensures |r| == |items|
    ensures forall i :: 0 <= i < |items| ==> r[i] == EntryOf(items[i])
  {
    if items == [] then [] else [EntryOf(items[0])] + Entries(items[1..])
  }

  /** `body?.archivos?.[name]` when it is an array. */
  function CategoryOf(body: Value, name: string): (r: Option<seq<FileRef>>)
    ensures r.Some? <==> IsArray(PropOpt(PropOpt(Some(body), "archivos"), name))
    ensures r.Some? ==> var items := PropOpt(PropOpt(Some(body), "archivos"), name).value.items;
                        |r.value| == |items| && forall i :: 0 <= i < |items| ==> r.value[i] == EntryOf(items[i])
  {
    match PropOpt(PropOpt(Some(body), "archivos"), name)
    case Some(Arr(items, _)) => Some(Entries(items))
    case _ => None
  }

  function RequestOf(body: Value): Request {
    Request(PropOpt(Some(body), "anio_gravable"), CategoryOf(body, "exogena"),
            CategoryOf(body, "prediales"), CategoryOf(body, "vehiculos"))
  }

  /** `Array.isArray(c) ? c : []`. */
  function List(c: Option<seq<FileRef>>): seq<FileRef> {
    c.GetOr([])
  }

  /** The server's counts: a category that is not an array counts 0. */
  function CountsOf(req: Request): Counts {
    Counts(|List(req.exogena)|, |List(req.prediales)|, |List(req.vehiculos)|)
  }

  /** The counts as the object `{ exogena, prediales, vehiculos }`. */
  function CountsValue(c: Counts): (v: Value)
    ensures Prop(v, "exogena") == Some(Num(c.exogena as real))
    ensures Prop(v, "prediales") == Some(Num(c.prediales as real))
    ensures Prop(v, "vehiculos") == Some(Num(c.vehiculos as real))
  {
    Obj(map["exogena" := Num(c.exogena as real), "prediales" := Num(c.prediales as real),
            "vehiculos" := Num(c.vehiculos as real)])
  }

  /** The length of an array value at `body.archivos.name`, or 0. */
  function ArrayLength(o: Option<Value>): nat {
    match o
    case Some(Arr(items, _)) => |items|
    case _ => 0
  }

  /** The counts of a parsed body are the array lengths in it, 0 for a non-array. */
  lemma CountsFromBody(body: Value)
    ensures var c := CountsOf(RequestOf(body));
            var archivos := PropOpt(Some(body), "archivos");
            && c.exogena == ArrayLength(PropOpt(archivos, "exogena"))
            && c.prediales == ArrayLength(PropOpt(archivos, "prediales"))
            && c.vehiculos == ArrayLength(PropOpt(archivos, "vehiculos"))
  {
  }

  /** `for (const it of refs) if (it?.storage_path) paths.push(it.storage_path)`. */
  function SafePaths(refs: seq<FileRef>): (r: seq<string>)
    ensures |r| <= |refs|
    ensures forall p :: p in r ==> p != "" && Ref(p) in refs
    ensures forall p :: p != "" && Ref(p) in refs ==> p in r
  {
    if refs == [] then []
    else match refs[0]
      case Ref(p) => if p != "" then [p] + SafePaths(refs[1..]) else SafePaths(refs[1..])
      case NullRef => SafePaths(refs[1..])
  }

  lemma {:induction false} SafePathsAppend(a: seq<FileRef>, b: seq<FileRef>)
    ensures SafePaths(a + b) == SafePaths(a) + SafePaths(b)
  {
    if a == [] {
      assert a + b == b;
    } else {
      assert (a + b)[1..] == a[1..] + b;
      SafePathsAppend(a[1..], b);
    }
  }

  /** `refs.map(x => x.storage_path)`, which throws on a null entry; None is the throw. */
  function RawPaths(refs: seq<FileRef>): Option<seq<string>> {
    if refs == [] then Some([])
    else match refs[0]
      case NullRef => None
      case Ref(p) =>
        match RawPaths(refs[1..])
        case None => None
        case Some(rest) => Some([p] + rest)
  }

  /** `refs.map(x => x.storage_path).filter(Boolean)`: throws on a null entry, and
      otherwise gives the same paths as the null-safe loop. */
  function PathsOf(refs: seq<FileRef>): (r: Result<seq<string>>)
    ensures r.Ok? <==> NullRef !in refs
    ensures r.Ok? ==> r.value == SafePaths(refs)
  {
    RawPathsSpec(refs);
    match RawPaths(refs)
    case None => Err("TypeError: Cannot read properties of null (reading 'storage_path')")
    case Some(ps) => Ok(NonEmptyPaths(ps))
  }

  function NonEmptyPaths(ps: seq<string>): seq<string> {
    if ps == [] then [] else if ps[0] == "" then NonEmptyPaths(ps[1..]) else [ps[0]] + NonEmptyPaths(ps[1..])
  }

  lemma {:induction false} RawPathsSpec(refs: seq<FileRef>)
    ensures RawPaths(refs).Some? <==> NullRef !in refs
    ensures RawPaths(refs).Some? ==> NonEmptyPaths(RawPaths(refs).value) == SafePaths(refs)
  {
    if refs != [] {
      RawPathsSpec(refs[1..]);
      assert refs == [refs[0]] + refs[1..];
    }
  }

  /** `for (const r of signed) if (r.url) urlByPath.set(r.path, r.url)`, starting from `m`. */
  function AddUrls(m: map<string, string>, signed: seq<Signed>): map<string, string>
    decreases signed
  {
    if signed == [] then m
    else AddUrls(if signed[0].url != "" then m[signed[0].path := signed[0].url] else m, signed[1..])
  }

  /** Reference: the URL of the last answer for `p` that carries one. */
  function LastUrl(signed: seq<Signed>, p: string): Option<string> {
    if signed == [] then None
    else match LastUrl(signed[1..], p)
      case Some(u) => Some(u)
      case None => if signed[0].path == p && signed[0].url != "" then Some(signed[0].url) else None
  }

  /** The map holds, for each path, the URL of the last answer that carried one;
      paths never answered with a URL keep what `m` had. */
  lemma {:induction false} AddUrlsSpec(m: map<string, string>, signed: seq<Signed>, p: string)
    ensures var r := AddUrls(m, signed);
            match LastUrl(signed, p)
            case Some(u) => p in r && r[p] == u
            case None => (p in r <==> p in m) && (p in m ==> r[p] == m[p])
    decreases signed
  {
    if signed != [] {
      var m' := if signed[0].url != "" then m[signed[0].path := signed[0].url] else m;
      AddUrlsSpec(m', signed[1..], p);
    }
  }

  /** `urlByPath.get(p) || null`, with "" for the null. */
  function UrlOf(m: map<string, string>, p: string): (u: string)
    ensures u != "" ==> p in m && m[p] == u
    ensures p in m ==> u == m[p]
    ensures p !in m ==> u == ""
  {
    if p in m then m[p] else ""
  }
}

=== FILE: oracles.dfy ===
/** The handler's configuration, read once from the environment, and the services
    it calls. Every service is a pure function parameter: storage signing, image
    conversion, file upload, workbook loading and rendering, vector search, the
    JSON codec and the schema validator. The two model APIs are not here: their
    replies are scripted per request (see `Handler.World`). */
module Oracles {
  import opened Wrappers
  import opened Values
  import opened Manifest
  import opened ToolLoop
  import Sheets

  /** The settings the pipeline reads from the environment. `None` numbers are NaN. */
  datatype Config = Config(
    maxRetries: Option<real>,
    enableOpenAI: bool,
    enableResponses: bool,
    enableFiles: bool,
    enableImageConversion: bool,
    enableTextEmbed: bool,
    systemPrompt: Option<string>,
    ragTopK: Value,
    ragThreshold: Value,
    movThreshold: Option<real>)

  /** `Number(process.env[key] || fallback)`: an unset or empty variable gives the fallback. */
  function EnvNumber(env: map<string, string>, key: string, fallback: real,
                     strToNum: string -> Option<real>): (r: Option<real>)
    ensures (key !in env || env[key] == "") ==> r == Some(fallback)
    ensures key in env && env[key] != "" ==> r == strToNum(env[key])
  {
    if key in env && env[key] != "" then strToNum(env[key]) else Some(fallback)
  }

  /** `process.env[key] === 'true'`. */
  predicate EnvOn(env: map<string, string>, key: string) {
    key in env && env[key] == "true"
  }

  /** `process.env[key] !== 'false'`. */
  predicate EnvNotOff(env: map<string, string>, key: string) {
    !(key in env && env[key] == "false")
  }

  function ConfigOf(env: map<string, string>, strToNum: string -> Option<real>): (c: Config)
    ensures c.enableOpenAI <==> EnvOn(env, "ENABLE_OPENAI")
    ensures c.enableResponses <==> EnvOn(env, "ENABLE_RESPONSES_API")
    ensures c.enableFiles <==> EnvOn(env, "ENABLE_OPENAI_FILES")
    ensures c.enableImageConversion <==> EnvNotOff(env, "ENABLE_IMAGE_CONVERSION")
    ensures c.enableTextEmbed <==> EnvNotOff(env, "ENABLE_EXOGENA_TEXT_EMBED")
    ensures c.systemPrompt.Some? <==> "RENTACHECK_SYSTEM_PROMPT" in env
    ensures c.systemPrompt.Some? ==> c.systemPrompt.value == env["RENTACHECK_SYSTEM_PROMPT"]
    ensures c.maxRetries == EnvNumber(env, "MAX_ANALYZE_RETRIES", 2.0, strToNum)
    ensures c.ragTopK == NumValue(EnvNumber(env, "RAG_TOP_K", 8.0, strToNum))
    ensures c.ragThreshold == NumValue(EnvNumber(env, "RAG_THRESHOLD", 0.6, strToNum))
    ensures c.movThreshold == EnvNumber(env, "MOV_UMBRAL_COP", 65891000.0, strToNum)
  {
    Config(
      EnvNumber(env, "MAX_ANALYZE_RETRIES", 2.0, strToNum),
      EnvOn(env, "ENABLE_OPENAI"),
      EnvOn(env, "ENABLE_RESPONSES_API"),
      EnvOn(env, "ENABLE_OPENAI_FILES"),
      EnvNotOff(env, "ENABLE_IMAGE_CONVERSION"),
      EnvNotOff(env, "ENABLE_EXOGENA_TEXT_EMBED"),
      if "RENTACHECK_SYSTEM_PROMPT" in env then Some(env["RENTACHECK_SYSTEM_PROMPT"]) else None,
      NumValue(EnvNumber(env, "RAG_TOP_K", 8.0, strToNum)),
      NumValue(EnvNumber(env, "RAG_THRESHOLD", 0.6, strToNum)),
      EnvNumber(env, "MOV_UMBRAL_COP", 65891000.0, strToNum))
  }

  /** The variables the configuration reads. */
  const ConfigKeys: set<string> := {
    "MAX_ANALYZE_RETRIES", "ENABLE_OPENAI", "ENABLE_RESPONSES_API", "ENABLE_OPENAI_FILES",
    "ENABLE_IMAGE_CONVERSION", "ENABLE_EXOGENA_TEXT_EMBED", "RENTACHECK_SYSTEM_PROMPT",
    "RAG_TOP_K", "RAG_THRESHOLD", "MOV_UMBRAL_COP"}

  /** A numeric setting set to the empty string behaves exactly as if it were unset. */
  lemma EnvEmptyIsUnset(env: map<string, string>, key: string, fallback: real, strToNum: string -> Option<real>)
    ensures EnvNumber(env[key := ""], key, fallback, strToNum) == EnvNumber(env - {key}, key, fallback, strToNum)
    ensures EnvNumber(env - {key}, key, fallback, strToNum) == Some(fallback)
  {
  }

  /** The configuration depends only on its ten variables: setting any other one
      changes nothing. */
  lemma ConfigIgnoresOtherVariables(env: map<string, string>, key: string, value: string,
                                    strToNum: string -> Option<real>)
    requires key !in ConfigKeys
    ensures ConfigOf(env[key := value], strToNum) == ConfigOf(env, strToNum)
  {
  }

  /** With nothing set: two attempts, the stub path, image conversion and text
      embedding on, eight matches at similarity 0.6, a threshold of 65,891,000 COP. */
  lemma DefaultConfig(strToNum: string -> Option<real>)
    ensures ConfigOf(map[], strToNum)
            == Config(Some(2.0), false, false, false, true, true, None, Num(8.0), Num(0.6), Some(65891000.0))
  {
  }

  /** An item handed to the file-upload service. */
  datatype UploadItem = UploadItem(path: string, url: string, filename: string, kind: string)

  /** The schema validator's verdict. */
  datatype Validation = Validation(ok: bool, errors: seq<string>)

  /** One text item inside a Responses output element; `kind` is its `type`. */
  datatype ContentItem = ContentItem(kind: string, text: string)

  /** One element of a Responses `output`; `content` is empty when it is not an array. */
  datatype OutputItem = OutputItem(content: seq<ContentItem>)

  /** A Responses API call's answer, or the error it threw. */
  datatype ResponsesTurn = RReply(outputText: string, output: seq<OutputItem>) | RFailure(message: string)

  /** The services, as pure functions; `Err` is a throw. `show` is how a template
      literal prints a value, `prefetch` the text of the top picks for one
      retrieval query. */
  datatype Services = Services(
    parse: string -> Option<Value>,
    stringify: Value -> string,
    show: Value -> string,
    strToNum: string -> Option<real>,
    sign: seq<string> -> Result<seq<Signed>>,
    toJpeg: seq<string> -> Result<seq<string>>,
    upload: seq<UploadItem> -> Result<seq<string>>,
    load: string -> Result<Sheets.Workbook>,
    renderCsv: Sheets.Sheet -> string,
    renderHtml: (Sheets.Sheet, string) -> string,
    sheetSum: Sheets.Sheet -> real,
    search: (string, Value, Value) -> RagResult,
    prefetch: string -> Result<string>,
    validate: Value -> Validation)
}

=== FILE: responses_attempt.dfy ===
/** One analysis attempt through the Responses API: no tool calls; the retrieval
    context is fetched up front, the exógena workbooks are attached as HTML,
    server summary and CSV, the images as input images, and at most one
    corrective call follows the first. */
module ResponsesAttempt {
  import opened Wrappers
  import opened Values
  import opened Text
  import opened Manifest
  import opened ToolLoop
  import opened Oracles
  import opened Supervisor
  import opened Context
  import Sheets

  // ---------------------------------------------------------------------------
  // Reply text

  /** The text of every `output_text` item, concatenated in order. */
  function OutputTexts(output: seq<OutputItem>): string {
    if output == [] then "" else ItemTexts(output[0].content) + OutputTexts(output[1..])
  }

  function ItemTexts(content: seq<ContentItem>): string {
    if content == [] then ""
    else (if content[0].kind == "output_text" then content[0].text else "") + ItemTexts(content[1..])
  }

  /** `resp.output_text`, or when that is empty the concatenated output texts. */
  function ContentText(outputText: string, output: seq<OutputItem>): (r: string)
    ensures outputText != "" ==> r == outputText
    ensures outputText == "" ==> r == OutputTexts(output)
  {
    if outputText != "" then outputText else OutputTexts(output)
  }

  lemma {:induction false} ItemTextsEmpty(content: seq<ContentItem>)
    ensures ItemTexts(content) == "" <==> forall c :: c in content && c.kind == "output_text" ==> c.text == ""
  {
    if content != [] {
      ItemTextsEmpty(content[1..]);
      assert forall c :: c in content <==> c == content[0] || c in content[1..];
    }
  }

  /** The reply text is empty exactly when `output_text` is empty and every
      `output_text` item in the output is empty. */
  lemma {:induction false} OutputTextsEmpty(output: seq<OutputItem>)
    ensures OutputTexts(output) == "" <==>
              forall o, c :: o in output && c in o.content && c.kind == "output_text" ==> c.text == ""
  {
    if output != [] {
      ItemTextsEmpty(output[0].content);
      OutputTextsEmpty(output[1..]);
      assert forall o :: o in output <==> o == output[0] || o in output[1..];
    }
  }

  // ---------------------------------------------------------------------------
  // Retrieval context

  const RagQueries := [
    "umbral ingresos brutos 1.400 UVT año gravable 2024 obligación declarar",
    "umbral patrimonio bruto 4.500 UVT año gravable 2024 obligación declarar",
    "umbral compras consumos tarjetas consignaciones 1.400 UVT año gravable 2024",
    "responsable de IVA diciembre 2024 obligación declarar personas naturales"]

  const RagIntro := "Contexto normativo (RAG extractos):\n"

  function RagSection(query: string, picks: string): (r: string)
    ensures r != ""
  {
    "\n### RAG: " + query + "\n" + picks
  }

  /** The prefetch loop: one section per query until a query throws, which ends the
      loop and keeps the sections gathered so far. */
  function RagBlock(queries: seq<string>, prefetch: string -> Result<string>, acc: string): (r: string)
    ensures |acc| <= |r| && r[..|acc|] == acc
    ensures r == acc <==> queries == [] || prefetch(queries[0]).Err?
  {
    if queries == [] then acc
    else match prefetch(queries[0])
      case Err(_) => acc
      case Ok(picks) => RagBlock(queries[1..], prefetch, acc + RagSection(queries[0], picks))
  }

  /** How many queries, from the first, succeed before the first throw. */
  function Succeeding(queries: seq<string>, prefetch: string -> Result<string>): (n: nat)
    ensures n <= |queries|
    ensures forall i :: 0 <= i < n ==> prefetch(queries[i]).Ok?
    ensures n < |queries| ==> prefetch(queries[n]).Err?
  {
    if queries == [] || prefetch(queries[0]).Err? then 0 else 1 + Succeeding(queries[1..], prefetch)
  }

  /** Reference: the sections of queries that all succeed, built from the back. */
  function Sections(queries: seq<string>, prefetch: string -> Result<string>): string
    requires forall i :: 0 <= i < |queries| ==> prefetch(queries[i]).Ok?
  {
    if queries == [] then ""
    else
      var last := queries[|queries| - 1];
      Sections(queries[..|queries| - 1], prefetch) + RagSection(last, prefetch(last).value)
  }

  lemma {:induction false} SectionsCons(queries: seq<string>, prefetch: string -> Result<string>)
    requires queries != [] && forall i :: 0 <= i < |queries| ==> prefetch(queries[i]).Ok?
    ensures Sections(queries, prefetch)
            == RagSection(queries[0], prefetch(queries[0]).value) + Sections(queries[1..], prefetch)
    decreases |queries|
  {
    if |queries| > 1 {
      var init := queries[..|queries| - 1];
      SectionsCons(init, prefetch);
      assert init[1..] == queries[1..][..|queries[1..]| - 1];
    }
  }

  /** The block holds one section per query, in order, up to the first query that
      throws; what was gathered before stays in front. */
  lemma {:induction false} RagBlockSpec(queries: seq<string>, prefetch: string -> Result<string>, acc: string)
    ensures RagBlock(queries, prefetch, acc) == acc + Sections(queries[..Succeeding(queries, prefetch)], prefetch)
    decreases |queries|
  {
    var n := Succeeding(queries, prefetch);
    if n == 0 {
      assert queries[..n] == [];
    } else {
      var q0 := RagSection(queries[0], prefetch(queries[0]).value);
      RagBlockSpec(queries[1..], prefetch, acc + q0);
      SectionsCons(queries[..n], prefetch);
      assert queries[..n][1..] == queries[1..][..n - 1];
    }
  }

  /** The context part is prepended exactly when the first query succeeded; the
      other parts follow unchanged. */
  function WithRagContext(block: string, parts: seq<Part>): (r: seq<Part>)
    ensures block == "" ==> r == parts
    ensures block != "" ==> r == [TextPart(RagIntro + block)] + parts
    ensures |parts| <= |r| <= |parts| + 1 && r[|r| - |parts|..] == parts
  {
    if block != "" then [TextPart(RagIntro + block)] + parts else parts
  }

  // ---------------------------------------------------------------------------
  // Exógena parts

  const HtmlIntro := "HTML exógena (parcial):\n"
  const SummaryIntro := "Resumen automático (servidor) exógena: "

  function SummaryValue(sum: Sheets.Summary): Value
    requires sum.Summary?
  {
    Obj(map["movimientos_sheet" := Str(sum.sheet), "movimientos_sum_cop" := Num(sum.sum)])
  }

  /** The summary line with the server's hint (the sum is always a finite number). */
  function SummaryText(sum: Sheets.Summary, threshold: Option<real>, svc: Services): string
    requires sum.Summary?
  {
    SummaryIntro + svc.stringify(SummaryValue(sum)) + "\n"
      + "Pista del servidor: movimientos_sum_cop=" + svc.show(Num(sum.sum))
      + " y umbral_1400UVT=" + svc.show(NumValue(threshold))
      + " (verifica y usa como apoyo; NO ignores reglas)."
  }

  /** The parts for one exógena file: its HTML when there is some, then its summary
      when there is one. */
  function FileParts(url: string, threshold: Option<real>, svc: Services): (r: seq<Part>)
    ensures var html := Sheets.ExtractHtml(url, Sheets.HtmlBudget, svc.load, svc.renderHtml);
            var sum := Sheets.SummarizeExogena(url, svc.load, svc.sheetSum);
            && |r| == (if html != "" then 1 else 0) + (if sum.Summary? then 1 else 0)
            && (html != "" ==> r[0] == TextPart(HtmlIntro + html))
            && (sum.Summary? ==> r[|r| - 1] == TextPart(SummaryText(sum, threshold, svc)))
  {
    var html := Sheets.ExtractHtml(url, Sheets.HtmlBudget, svc.load, svc.renderHtml);
    var sum := Sheets.SummarizeExogena(url, svc.load, svc.sheetSum);
    (if html != "" then [TextPart(HtmlIntro + html)] else [])
      + (if sum.Summary? then [TextPart(SummaryText(sum, threshold, svc))] else [])
  }

  /** HTML and summary parts for the first (at most two) exógena paths, with the
      last file's summary. */
  function ExoParts(paths: seq<string>, urls: map<string, string>, threshold: Option<real>,
                    svc: Services, last: Sheets.Summary): (r: (seq<Part>, Sheets.Summary))
    ensures paths == [] ==> r == ([], last)
    ensures paths != [] ==> r.1 == Sheets.SummarizeExogena(UrlOf(urls, paths[|paths| - 1]), svc.load, svc.sheetSum)
    ensures forall part :: part in r.0 ==> part.TextPart?
    ensures |r.0| <= 2 * |paths|
  {
    if paths == [] then ([], last)
    else
      var url := UrlOf(urls, paths[0]);
      var more := ExoParts(paths[1..], urls, threshold, svc, Sheets.SummarizeExogena(url, svc.load, svc.sheetSum));
      (FileParts(url, threshold, svc) + more.0, more.1)
  }

  /** The files' parts come file by file, in path order. */
  lemma {:induction false} ExoPartsAppend(a: seq<string>, b: seq<string>, urls: map<string, string>,
                                          threshold: Option<real>, svc: Services, last: Sheets.Summary)
    ensures var ra := ExoParts(a, urls, threshold, svc, last);
            var rb := ExoParts(b, urls, threshold, svc, ra.1);
            ExoParts(a + b, urls, threshold, svc, last) == (ra.0 + rb.0, rb.1)
    decreases |a|
  {
    if a == [] {
      assert a + b == b;
      var rb := ExoParts(b, urls, threshold, svc, last);
      assert [] + rb.0 == rb.0;
    } else {
      var s0 := Sheets.SummarizeExogena(UrlOf(urls, a[0]), svc.load, svc.sheetSum);
      assert (a + b)[0] == a[0] && (a + b)[1..] == a[1..] + b;
      ExoPartsAppend(a[1..], b, urls, threshold, svc, s0);
      ExoPartsStep(a, urls, threshold, svc, last);
      ExoPartsStep(a + b, urls, threshold, svc, last);
      var here := FileParts(UrlOf(urls, a[0]), threshold, svc);
      var ra' := ExoParts(a[1..], urls, threshold, svc, s0);
      var rb := ExoParts(b, urls, threshold, svc, ra'.1);
      ConcatAssoc(here, ra'.0, rb.0);
    }
  }

  lemma ExoPartsStep(a: seq<string>, urls: map<string, string>, threshold: Option<real>, svc: Services,
                     last: Sheets.Summary)
    requires a != []
    ensures var url := UrlOf(urls, a[0]);
            var more := ExoParts(a[1..], urls, threshold, svc, Sheets.SummarizeExogena(url, svc.load, svc.sheetSum));
            ExoParts(a, urls, threshold, svc, last) == (FileParts(url, threshold, svc) + more.0, more.1)
  {
  }

  /** One file gives exactly its own parts. */
  lemma ExoPartsOne(p: string, urls: map<string, string>, threshold: Option<real>, svc: Services,
                    last: Sheets.Summary)
    ensures ExoParts([p], urls, threshold, svc, last).0 == FileParts(UrlOf(urls, p), threshold, svc)
  {
    assert [p][1..] == [];
  }

  /** CSV parts for the first (at most two) exógena paths. */
  function CsvParts(paths: seq<string>, urls: map<string, string>, svc: Services): (r: seq<Part>)
    ensures forall part :: part in r ==> part.TextPart?
    ensures |r| <= |paths|
  {
    if paths == [] then []
    else
      var csv := Sheets.ExtractText(UrlOf(urls, paths[0]), Sheets.TextBudget, svc.load, svc.renderCsv);
      (if csv != "" then [TextPart(ExcerptIntro + csv)] else []) + CsvParts(paths[1..], urls, svc)
  }

  /** The CSV excerpts come file by file, in path order. */
  lemma {:induction false} CsvPartsAppend(a: seq<string>, b: seq<string>, urls: map<string, string>, svc: Services)
    ensures CsvParts(a + b, urls, svc) == CsvParts(a, urls, svc) + CsvParts(b, urls, svc)
    decreases |a|
  {
    if a == [] {
      assert a + b == b;
    } else {
      assert (a + b)[1..] == a[1..] + b;
      CsvPartsAppend(a[1..], b, urls, svc);
    }
  }

  /** One file gives one excerpt part exactly when its CSV text is not empty. */
  lemma CsvPartsOne(p: string, urls: map<string, string>, svc: Services)
    ensures var csv := Sheets.ExtractText(UrlOf(urls, p), Sheets.TextBudget, svc.load, svc.renderCsv);
            CsvParts([p], urls, svc) == if csv != "" then [TextPart(ExcerptIntro + csv)] else []
  {
    assert [p][1..] == [];
  }

  /** `[...predialPaths, ...vehiculoPaths].filter(p => p && !urlByPath.has(p))`. */
  function Unsigned(paths: seq<string>, urls: map<string, string>): (r: seq<string>)
    ensures forall p :: p in r <==> p in paths && p != "" && p !in urls
  {
    if paths == [] then []
    else (if paths[0] != "" && paths[0] !in urls then [paths[0]] else []) + Unsigned(paths[1..], urls)
  }

  /** The first-call content and what the corrective call needs. */
  datatype Prepared = Prepared(parts: seq<Part>, counts: Counts, year: Value, countsJson: string,
                               lastSum: Sheets.Summary)

  /** The user text of the first call: its four lines joined with newlines. */
  function UserText(yearText: string, countsJson: string): string {
    YearLine(yearText) + "\n"
      + "Responde exclusivamente con JSON que cumpla el esquema renta_check_decision." + "\n"
      + "Conteo de archivos detectados por tipo (0 = no aportado, NO reportar como faltante):" + "\n"
      + countsJson
  }

  /** `urlByPath.get(x.storage_path)` for the first two exógena entries; a null one throws. */
  function FirstExoPaths(exo: seq<FileRef>): (r: Result<seq<string>>)
    ensures r.Ok? <==> NullRef !in Take(exo, 2)
    ensures r.Ok? ==> |r.value| == |Take(exo, 2)|
    ensures r.Ok? ==> forall i :: 0 <= i < |r.value| ==> exo[i] == Ref(r.value[i])
    ensures exo == [] ==> r == Ok([])
  {
    var two := Take(exo, 2);
    if NullRef in two then Err("TypeError: Cannot read properties of null (reading 'storage_path')")
    else
      var paths := seq(|two|, i requires 0 <= i < |two| => two[i].path);
      assert forall i :: 0 <= i < |paths| ==> exo[i] == two[i] == Ref(paths[i]);
      Ok(paths)
  }

  /** The signed URLs and the (possibly converted) image paths. */
  datatype Resolved = Resolved(urls: map<string, string>, predPaths: seq<string>, vehPaths: seq<string>)

  /** Signing, path extraction, image conversion and the second signing round for
      converted paths that have no URL yet. */
  function Resolve(exo: seq<FileRef>, pred: seq<FileRef>, veh: seq<FileRef>, cfg: Config, svc: Services)
    : (r: Result<Resolved>)
    ensures var all := SafePaths(exo + pred + veh);
            r.Ok? <==> && NullRef !in pred && NullRef !in veh
                       && (|all| == 0 || svc.sign(all).Ok?)
                       && var urls0 := AddUrls(map[], if |all| > 0 then svc.sign(all).value else []);
                          var converted := ConvertPaths(cfg.enableImageConversion, svc.toJpeg, SafePaths(pred), SafePaths(veh));
                          var toSign := Unsigned(converted.0 + converted.1, urls0);
                          |toSign| == 0 || svc.sign(toSign).Ok?
    ensures r.Ok? ==> var converted := ConvertPaths(cfg.enableImageConversion, svc.toJpeg, SafePaths(pred), SafePaths(veh));
                      r.value.predPaths == converted.0 && r.value.vehPaths == converted.1
  {
    var all := SafePaths(exo + pred + veh);
    var signed :- if |all| > 0 then svc.sign(all) else Ok([]);
    var urls0 := AddUrls(map[], signed);
    var predPaths0 :- PathsOf(pred);
    var vehPaths0 :- PathsOf(veh);
    var converted := ConvertPaths(cfg.enableImageConversion, svc.toJpeg, predPaths0, vehPaths0);
    var toSign := Unsigned(converted.0 + converted.1, urls0);
    var extra :- if |toSign| > 0 then svc.sign(toSign) else Ok([]);
    var urls := AddUrls(urls0, extra);
    Ok(Resolved(urls, converted.0, converted.1))
  }

  /** Everything before the first Responses call. It throws when a predial or
      vehicle entry or one of the first two exógena entries is null, or when a
      signing call throws. */
  function Prepare(req: Request, cfg: Config, svc: Services, currentYear: int): (r: Result<Prepared>)
    ensures var exo, pred, veh := List(req.exogena), List(req.prediales), List(req.vehiculos);
            r.Ok? <==> Resolve(exo, pred, veh, cfg, svc).Ok? && NullRef !in Take(exo, 2)
    ensures r.Ok? ==> r.value.counts == CountsOf(req)
    ensures r.Ok? ==> r.value.year == YearOf(req.year, currentYear, svc.strToNum)
    ensures r.Ok? ==> NullRef !in List(req.prediales) && NullRef !in List(req.vehiculos)
                      && NullRef !in Take(List(req.exogena), 2)
    ensures r.Ok? ==> |r.value.parts| >= 1
    ensures r.Ok? ==> TextPart(UserText(svc.show(r.value.year), r.value.countsJson)) in r.value.parts
    ensures r.Ok? ==> r.value.countsJson == svc.stringify(CountsValue(CountsOf(req)))
    ensures r.Ok? && List(req.exogena) == [] ==> r.value.lastSum == Sheets.NoSummary
  {
    var exo, pred, veh := List(req.exogena), List(req.prediales), List(req.vehiculos);
    var res :- Resolve(exo, pred, veh, cfg, svc);
    var exoPaths :- FirstExoPaths(exo);
    var year := YearOf(req.year, currentYear, svc.strToNum);
    AssembleLayout(CountsOf(req), year, exoPaths, res.urls, res.predPaths, res.vehPaths, cfg, svc);
    Ok(Assemble(CountsOf(req), year, exoPaths, res.urls, res.predPaths, res.vehPaths, cfg, svc))
  }

  /** The first call's content in order: the RAG context part when the block is not
      empty, the user text, the exógena HTML and summaries, the CSV excerpts, and the
      images last. */
  function Layout(block: string, user: Part, exo: seq<Part>, csv: seq<Part>, images: seq<Part>): (r: seq<Part>)
    ensures var k := if block == "" then 0 else 1;
            && |r| == k + 1 + |exo| + |csv| + |images|
            && (block != "" ==> r[0] == TextPart(RagIntro + block))
            && r[k] == user
            && r[k + 1..k + 1 + |exo|] == exo
            && r[k + 1 + |exo|..k + 1 + |exo| + |csv|] == csv
            && r[k + 1 + |exo| + |csv|..] == images
  {
    var parts := [user] + exo + csv + images;
    var k := if block == "" then 0 else 1;
    var r := WithRagContext(block, parts);
    assert r[k..] == parts;
    r
  }

  /** The first call's content: the RAG context if any, the user text, the exógena
      HTML and summaries, the exógena CSVs, then the predial and vehicle images. */
  function Assemble(counts: Counts, year: Value, exoPaths: seq<string>, urls: map<string, string>,
                    predPaths: seq<string>, vehPaths: seq<string>, cfg: Config, svc: Services): (r: Prepared)
    ensures r.counts == counts && r.year == year
    ensures r.countsJson == svc.stringify(CountsValue(counts))
    ensures |r.parts| >= 1
    ensures exoPaths == [] ==> r.lastSum == Sheets.NoSummary
    ensures exoPaths != [] ==>
              r.lastSum == Sheets.SummarizeExogena(UrlOf(urls, exoPaths[|exoPaths| - 1]), svc.load, svc.sheetSum)
  {
    var countsJson := svc.stringify(CountsValue(counts));
    var exoParts := ExoParts(exoPaths, urls, cfg.movThreshold, svc, Sheets.NoSummary);
    var parts := Layout(RagBlock(RagQueries, svc.prefetch, ""), TextPart(UserText(svc.show(year), countsJson)),
                        exoParts.0, CsvParts(exoPaths, urls, svc), ImageParts(predPaths, urls) + ImageParts(vehPaths, urls));
    Prepared(parts, counts, year, countsJson, exoParts.1)
  }

  /** `Assemble` lays out the RAG context, the user text, the exógena parts, the CSV
      excerpts and the images as `Layout` places them. */
  lemma AssembleLayout(counts: Counts, year: Value, exoPaths: seq<string>, urls: map<string, string>,
                       predPaths: seq<string>, vehPaths: seq<string>, cfg: Config, svc: Services)
    ensures var r := Assemble(counts, year, exoPaths, urls, predPaths, vehPaths, cfg, svc);
            && r.parts == Layout(RagBlock(RagQueries, svc.prefetch, ""), TextPart(UserText(svc.show(year), r.countsJson)),
                                 ExoParts(exoPaths, urls, cfg.movThreshold, svc, Sheets.NoSummary).0,
                                 CsvParts(exoPaths, urls, svc), ImageParts(predPaths, urls) + ImageParts(vehPaths, urls))
            && TextPart(UserText(svc.show(year), r.countsJson)) in r.parts
  {
    var r := Assemble(counts, year, exoPaths, urls, predPaths, vehPaths, cfg, svc);
    var k := if RagBlock(RagQueries, svc.prefetch, "") == "" then 0 else 1;
    assert r.parts[k] == TextPart(UserText(svc.show(year), r.countsJson));
  }

  /** A prepared first call is the assembly of the request's counts and year, the
      paths of the first two exógena entries and the resolved URLs and image paths:
      its parts follow `Layout`, and the summary the corrective call quotes is the
      one of the last of those (at most two) exógena workbooks. */
  lemma PreparedContent(req: Request, cfg: Config, svc: Services, currentYear: int)
    requires Prepare(req, cfg, svc, currentYear).Ok?
    ensures var exo, pred, veh := List(req.exogena), List(req.prediales), List(req.vehiculos);
            var res := Resolve(exo, pred, veh, cfg, svc).value;
            var exoPaths := FirstExoPaths(exo).value;
            var p := Prepare(req, cfg, svc, currentYear).value;
            && p == Assemble(CountsOf(req), YearOf(req.year, currentYear, svc.strToNum), exoPaths,
                             res.urls, res.predPaths, res.vehPaths, cfg, svc)
            && p.parts == Layout(RagBlock(RagQueries, svc.prefetch, ""), TextPart(UserText(svc.show(p.year), p.countsJson)),
                                 ExoParts(exoPaths, res.urls, cfg.movThreshold, svc, Sheets.NoSummary).0,
                                 CsvParts(exoPaths, res.urls, svc),
                                 ImageParts(res.predPaths, res.urls) + ImageParts(res.vehPaths, res.urls))
            && (exoPaths != [] ==>
                  p.lastSum == Sheets.SummarizeExogena(UrlOf(res.urls, exoPaths[|exoPaths| - 1]), svc.load, svc.sheetSum))
  {
    var exo, pred, veh := List(req.exogena), List(req.prediales), List(req.vehiculos);
    var res := Resolve(exo, pred, veh, cfg, svc).value;
    AssembleLayout(CountsOf(req), YearOf(req.year, currentYear, svc.strToNum), FirstExoPaths(exo).value,
                   res.urls, res.predPaths, res.vehPaths, cfg, svc);
  }

  // ---------------------------------------------------------------------------
  // The two calls

  /** The candidate from a reply: its text, parsed, with counts and year filled in. */
  function Candidate(turn: ResponsesTurn, p: Prepared, parse: string -> Option<Value>): (r: Result<Value>)
    ensures turn.RFailure? ==> r == Err(turn.message)
    ensures turn.RReply? && ContentText(turn.outputText, turn.output) == "" ==>
              r == Err("Empty response from Responses API")
    ensures turn.RReply? && ContentText(turn.outputText, turn.output) != "" ==>
              match JsonParse(parse, ContentText(turn.outputText, turn.output))
              case None => r == Err("Responses API did not return valid JSON")
              case Some(v) => r == FillDefaults(v, p.counts, p.year)
    ensures r.Ok? ==> IsObject(r.value) && Present(Prop(r.value, CountsKey))
  {
    match turn
    case RFailure(m) => Err(m)
    case RReply(outputText, output) =>
      var text := ContentText(outputText, output);
      if text == "" then Err("Empty response from Responses API")
      else match JsonParse(parse, text)
        case None => Err("Responses API did not return valid JSON")
        case Some(v) => FillDefaults(v, p.counts, p.year)
  }

  /** The three triggers; the movements one needs a summary at or over the threshold
      while the candidate says no declaration is due. */
  function Triggers(parsed: Value, p: Prepared, threshold: Option<real>): (bool, bool, bool) {
    (NeedCountsFix(Prop(parsed, CountsKey), p.counts), NeedRag(Prop(parsed, RagKey)),
     NeedMovCheck(p.lastSum, threshold, Prop(parsed, DecisionKey)))
  }

  function Note(parsed: Value, p: Prepared, cfg: Config, svc: Services): string {
    var t := Triggers(parsed, p, cfg.movThreshold);
    var sumText := if p.lastSum.Summary? then svc.show(Num(p.lastSum.sum)) else "undefined";
    Join(NoteLines(t.0, t.1, t.2, p.countsJson, sumText, svc.show(NumValue(cfg.movThreshold))), "\n")
  }

  /** The attempt's result, the Responses replies left over, and the user content
      of each call made. */
  datatype ResponsesRun = ResponsesRun(outcome: Result<Value>, rest: seq<ResponsesTurn>, requests: seq<seq<Part>>)

  /** A scripted call: the next reply, or a failure when none is left. */
  function Next(turns: seq<ResponsesTurn>): ResponsesTurn {
    if turns == [] then RFailure("no reply") else turns[0]
  }

  function Drop1<T>(turns: seq<T>): seq<T> {
    if turns == [] then [] else turns[1..]
  }

  /** Dropping one reply, then another, leaves the replies after the first one or two. */
  lemma DropReplies<T>(turns: seq<T>)
    ensures Drop1(turns) == turns[Min(1, |turns|)..]
    ensures Drop1(Drop1(turns)) == turns[Min(2, |turns|)..]
  {
    if |turns| >= 2 {
      assert turns[1..][1..] == turns[2..];
    }
  }

  /** Everything from the first call on. */
  function Calls(p: Prepared, cfg: Config, svc: Services, turns: seq<ResponsesTurn>): (r: ResponsesRun)
    ensures 1 <= |r.requests| <= 2 && r.requests[0] == p.parts
    ensures r.rest == turns[Min(|r.requests|, |turns|)..]
    ensures |r.requests| == 2 <==>
              var c := Candidate(Next(turns), p, svc.parse);
              c.Ok? && var t := Triggers(c.value, p, cfg.movThreshold); t.0 || t.1 || t.2
    ensures |r.requests| == 2 ==>
              r.requests[1] == [TextPart(Note(Candidate(Next(turns), p, svc.parse).value, p, cfg, svc))] + p.parts
    ensures |r.requests| == 1 ==> r.outcome == Candidate(Next(turns), p, svc.parse)
    ensures |r.requests| == 2 ==>
              var second := Next(Drop1(turns));
              && (second.RFailure? ==> r.outcome == Err(second.message))
              && (second.RReply? ==>
                    r.outcome == Ok(AcceptCorrection(Candidate(Next(turns), p, svc.parse).value,
                                                     ContentText(second.outputText, second.output), svc.parse)))
  {
    DropReplies(turns);
    var first := Candidate(Next(turns), p, svc.parse);
    var rest1 := Drop1(turns);
    match first
    case Err(e) => ResponsesRun(Err(e), rest1, [p.parts])
    case Ok(parsed) =>
      var t := Triggers(parsed, p, cfg.movThreshold);
      if !(t.0 || t.1 || t.2) then ResponsesRun(Ok(parsed), rest1, [p.parts])
      else
        var request2 := [TextPart(Note(parsed, p, cfg, svc))] + p.parts;
        match Next(rest1)
        case RFailure(m) => ResponsesRun(Err(m), Drop1(rest1), [p.parts, request2])
        case RReply(outputText, output) =>
          ResponsesRun(Ok(AcceptCorrection(parsed, ContentText(outputText, output), svc.parse)),
                       Drop1(rest1), [p.parts, request2])
  }

  /** `runModelOnceResponses`, with the Responses API's replies scripted by `turns`. */
  function RunResponses(req: Request, cfg: Config, svc: Services, currentYear: int,
                        turns: seq<ResponsesTurn>): (r: ResponsesRun)
    ensures |r.requests| == 0 <==> Prepare(req, cfg, svc, currentYear).Err?
    ensures |r.requests| == 0 ==> r == ResponsesRun(Err(Prepare(req, cfg, svc, currentYear).error), turns, [])
    ensures |r.requests| >= 1 ==> r == Calls(Prepare(req, cfg, svc, currentYear).value, cfg, svc, turns)
  {
    match Prepare(req, cfg, svc, currentYear)
    case Err(e) => ResponsesRun(Err(e), turns, [])
    case Ok(p) => Calls(p, cfg, svc, turns)
  }

  /** An attempt makes at most two Responses calls, the first with the prepared
      content, and the replies it consumed are exactly the first that many. */
  lemma ResponsesCallBound(req: Request, cfg: Config, svc: Services, currentYear: int, turns: seq<ResponsesTurn>)
    ensures var r := RunResponses(req, cfg, svc, currentYear, turns);
            && |r.requests| <= 2
            && (|r.requests| >= 1 ==> r.requests[0] == Prepare(req, cfg, svc, currentYear).value.parts)
            && r.rest == turns[Min(|r.requests|, |turns|)..]
  {
  }

  /** When the workbook's movements reach the threshold but the candidate says no
      declaration is due, a second call is made and its note carries the movements
      clause with the sum and the threshold. */
  lemma MovementsForceRecheck(p: Prepared, cfg: Config, svc: Services, turns: seq<ResponsesTurn>)
    requires Candidate(Next(turns), p, svc.parse).Ok?
    requires p.lastSum.Summary? && cfg.movThreshold.Some? && p.lastSum.sum >= cfg.movThreshold.value
    requires Prop(Candidate(Next(turns), p, svc.parse).value, DecisionKey) == Some(Bool(false))
    ensures var r := Calls(p, cfg, svc, turns);
            var t := Triggers(Candidate(Next(turns), p, svc.parse).value, p, cfg.movThreshold);
            && |r.requests| == 2
            && MovClause(svc.show(Num(p.lastSum.sum)), svc.show(NumValue(cfg.movThreshold)))
                 in NoteLines(t.0, t.1, t.2, p.countsJson, svc.show(Num(p.lastSum.sum)), svc.show(NumValue(cfg.movThreshold)))
  {
    var t := Triggers(Candidate(Next(turns), p, svc.parse).value, p, cfg.movThreshold);
    NoteLinesClauses(t.0, t.1, t.2, p.countsJson, svc.show(Num(p.lastSum.sum)), svc.show(NumValue(cfg.movThreshold)));
  }

  /** An empty corrective reply wipes the candidate to `{}`. */
  lemma EmptyCorrectionWipes(p: Prepared, cfg: Config, svc: Services, turns: seq<ResponsesTurn>)
    requires |turns| >= 2 && turns[1] == RReply("", [])
    ensures var r := Calls(p, cfg, svc, turns);
            |r.requests| == 2 ==> r.outcome == Ok(EmptyObj)
  {
    assert Drop1(turns) == turns[1..];
  }
}

=== FILE: retry.dfy ===
/** The retry controller: run whole attempts until one returns a candidate the
    validator accepts, or the budget is spent. A thrown attempt and a rejected
    candidate both consume one unit of budget. */
module Retry {
  import opened Wrappers
  import opened Values
  import opened Oracles

  /** What one attempt did: threw, or returned a candidate with its verdict. */
  datatype Attempt = Threw(message: string) | Returned(candidate: Value, validation: Validation)

  predicate Accepted(a: Attempt) {
    a.Returned? && a.validation.ok
  }

  /** The violations of the last returned candidate; [] when none returned. */
  function LastErrors(trace: seq<Attempt>): seq<string> {
    if trace == [] then []
    else if trace[|trace| - 1].Returned? then trace[|trace| - 1].validation.errors
    else LastErrors(trace[..|trace| - 1])
  }

  /** The last returned candidate; null when none returned. */
  function LastCandidate(trace: seq<Attempt>): Value {
    if trace == [] then Null
    else if trace[|trace| - 1].Returned? then trace[|trace| - 1].candidate
    else LastCandidate(trace[..|trace| - 1])
  }

  /** Every returned candidate carries the validator's verdict on it. */
  predicate Judged(trace: seq<Attempt>, validate: Value -> Validation) {
    forall i :: 0 <= i < |trace| && trace[i].Returned? ==> trace[i].validation == validate(trace[i].candidate)
  }

  /** How the validator's verdict turns one run's result into a trace entry. */
  function Verdict(res: Result<Value>, validate: Value -> Validation): Attempt {
    match res
    case Err(m) => Threw(m)
    case Ok(c) => Returned(c, validate(c))
  }

  /** The world after `n` runs, each starting from the world the previous one left. */
  function WorldAfter<W>(run: W -> (Result<Value>, W), w: W, n: nat): W {
    if n == 0 then w else WorldAfter(run, run(w).1, n - 1)
  }

  /** The verdicts on `n` consecutive runs, each starting from the world the
      previous one left. */
  function Runs<W>(run: W -> (Result<Value>, W), validate: Value -> Validation, w: W, n: nat): (r: seq<Attempt>)
    ensures |r| == n
  {
    if n == 0 then [] else [Verdict(run(w).0, validate)] + Runs(run, validate, run(w).1, n - 1)
  }

  /** Entry i of the replay is the verdict on the run from the world after i runs. */
  lemma {:induction false} RunsAt<W>(run: W -> (Result<Value>, W), validate: Value -> Validation, w: W, n: nat, i: nat)
    requires i < n
    ensures Runs(run, validate, w, n)[i] == Verdict(run(WorldAfter(run, w, i)).0, validate)
  {
    if i > 0 {
      RunsAt(run, validate, run(w).1, n - 1, i - 1);
    }
  }

  /** The controller's result: the attempts made, the accepted candidate if any,
      the `lastErrors` and `candidate` variables at the end, and the world after
      the last attempt. */
  datatype Outcome<W> = Outcome(trace: seq<Attempt>, accepted: Option<Value>, lastErrors: seq<string>,
                                candidate: Value, world: W)

  /** One step of the loop per attempt still in the budget. */
  function Loop<W>(run: W -> (Result<Value>, W), validate: Value -> Validation, budget: nat, w: W,
                   trace: seq<Attempt>, lastErrors: seq<string>, candidate: Value): (r: Outcome<W>)
    requires |trace| <= budget
    requires lastErrors == LastErrors(trace) && candidate == LastCandidate(trace)
    requires forall i :: 0 <= i < |trace| ==> !Accepted(trace[i])
    requires Judged(trace, validate)
    ensures |trace| <= |r.trace| <= budget && r.trace[..|trace|] == trace
    ensures Judged(r.trace, validate)
    ensures forall i :: 0 <= i < |r.trace| - 1 ==> !Accepted(r.trace[i])
    ensures r.accepted.Some? <==> |r.trace| > 0 && Accepted(r.trace[|r.trace| - 1])
    ensures r.accepted.Some? ==> |r.trace| > |trace| && r.accepted.value == r.trace[|r.trace| - 1].candidate
    ensures r.accepted.None? ==> |r.trace| == budget
    ensures r.accepted.None? ==> r.lastErrors == LastErrors(r.trace) && r.candidate == LastCandidate(r.trace)
    decreases budget - |trace|
  {
    if |trace| < budget then
      var step := run(w);
      match step.0
      case Err(m) =>
        Loop(run, validate, budget, step.1, trace + [Threw(m)], lastErrors, candidate)
      case Ok(c) =>
        var v := validate(c);
        if v.ok then Outcome(trace + [Returned(c, v)], Some(c), lastErrors, c, step.1)
        else Loop(run, validate, budget, step.1, trace + [Returned(c, v)], v.errors, c)
    else Outcome(trace, None, lastErrors, candidate, w)
  }

  /** `r` extends `trace` with the verdicts on consecutive runs from `w`, and ends
      in the world after the last of them. */
  ghost predicate Replays<W>(run: W -> (Result<Value>, W), validate: Value -> Validation, w: W,
                       trace: seq<Attempt>, r: Outcome<W>) {
    && |trace| <= |r.trace|
    && r.trace == trace + Runs(run, validate, w, |r.trace| - |trace|)
    && r.world == WorldAfter(run, w, |r.trace| - |trace|)
  }

  /** The loop's new entries are the verdicts on consecutive runs from the world
      it starts in, and it ends in the world after the last of them. */
  lemma {:induction false} LoopReplays<W>(run: W -> (Result<Value>, W), validate: Value -> Validation,
                                          budget: nat, w: W, trace: seq<Attempt>,
                                          lastErrors: seq<string>, candidate: Value)
    requires |trace| <= budget
    requires lastErrors == LastErrors(trace) && candidate == LastCandidate(trace)
    requires forall i :: 0 <= i < |trace| ==> !Accepted(trace[i])
    requires Judged(trace, validate)
    ensures Replays(run, validate, w, trace, Loop(run, validate, budget, w, trace, lastErrors, candidate))
    decreases budget - |trace|
  {
    if |trace| < budget {
      var a := Verdict(run(w).0, validate);
      if Accepted(a) {
        LoopAccepts(run, validate, budget, w, trace, lastErrors, candidate);
        assert Runs(run, validate, w, 1) == [a] + Runs(run, validate, run(w).1, 0) == [a];
        assert WorldAfter(run, w, 1) == WorldAfter(run, run(w).1, 0) == run(w).1;
        assert Replays(run, validate, w, trace, Loop(run, validate, budget, w, trace, lastErrors, candidate));
      } else {
        var t', le, c := trace + [a], LastErrors(trace + [a]), LastCandidate(trace + [a]);
        ExtendTrace(validate, trace, run(w).0);
        LoopReplays(run, validate, budget, run(w).1, t', le, c);
        LoopStep(run, validate, budget, w, trace, lastErrors, candidate);
        ReplaysCons(run, validate, w, trace, t', Loop(run, validate, budget, run(w).1, t', le, c));
      }
    } else {
      assert trace + Runs(run, validate, w, 0) == trace;
    }
  }

  /** A replay from the world after one run extends backwards over that run. */
  lemma ReplaysCons<W>(run: W -> (Result<Value>, W), validate: Value -> Validation, w: W,
                       trace: seq<Attempt>, t': seq<Attempt>, r: Outcome<W>)
    requires t' == trace + [Verdict(run(w).0, validate)]
    requires Replays(run, validate, run(w).1, t', r)
    ensures Replays(run, validate, w, trace, r)
  {
    var m := |r.trace| - |t'|;
    assert Runs(run, validate, w, m + 1) == [Verdict(run(w).0, validate)] + Runs(run, validate, run(w).1, m);
    assert WorldAfter(run, w, m + 1) == WorldAfter(run, run(w).1, m);
    assert |r.trace| - |trace| == m + 1;
  }

  /** An unaccepted verdict keeps the loop's entry conditions. */
  lemma ExtendTrace(validate: Value -> Validation, trace: seq<Attempt>, res: Result<Value>)
    requires forall i :: 0 <= i < |trace| ==> !Accepted(trace[i])
    requires Judged(trace, validate)
    requires !Accepted(Verdict(res, validate))
    ensures var t' := trace + [Verdict(res, validate)];
            && (forall i :: 0 <= i < |t'| ==> !Accepted(t'[i]))
            && Judged(t', validate)
  {
  }

  /** An accepted run ends the loop with one more entry. */
  lemma LoopAccepts<W>(run: W -> (Result<Value>, W), validate: Value -> Validation,
                       budget: nat, w: W, trace: seq<Attempt>, lastErrors: seq<string>, candidate: Value)
    requires |trace| < budget
    requires lastErrors == LastErrors(trace) && candidate == LastCandidate(trace)
    requires forall i :: 0 <= i < |trace| ==> !Accepted(trace[i])
    requires Judged(trace, validate)
    requires Accepted(Verdict(run(w).0, validate))
    ensures var r := Loop(run, validate, budget, w, trace, lastErrors, candidate);
            r.trace == trace + [Verdict(run(w).0, validate)] && r.world == run(w).1
  {
  }

  /** One unaccepted run: the loop continues from the next world with one more entry. */
  lemma LoopStep<W>(run: W -> (Result<Value>, W), validate: Value -> Validation,
                    budget: nat, w: W, trace: seq<Attempt>, lastErrors: seq<string>, candidate: Value)
    requires |trace| < budget
    requires lastErrors == LastErrors(trace) && candidate == LastCandidate(trace)
    requires forall i :: 0 <= i < |trace| ==> !Accepted(trace[i])
    requires Judged(trace, validate)
    requires !Accepted(Verdict(run(w).0, validate))
    ensures var t' := trace + [Verdict(run(w).0, validate)];
            Loop(run, validate, budget, w, trace, lastErrors, candidate)
            == Loop(run, validate, budget, run(w).1, t', LastErrors(t'), LastCandidate(t'))
  {
  }

  /** The controller from a fresh start: `lastErrors = []`, `candidate = null`. */
  function Run<W>(run: W -> (Result<Value>, W), validate: Value -> Validation, budget: nat, w: W): (r: Outcome<W>)
    ensures |r.trace| <= budget
    ensures r.trace == Runs(run, validate, w, |r.trace|)
    ensures r.world == WorldAfter(run, w, |r.trace|)
    ensures Judged(r.trace, validate)
    ensures forall i :: 0 <= i < |r.trace| - 1 ==> !Accepted(r.trace[i])
    ensures r.accepted.Some? <==> |r.trace| > 0 && Accepted(r.trace[|r.trace| - 1])
    ensures r.accepted.Some? ==> r.accepted.value == r.trace[|r.trace| - 1].candidate
    ensures r.accepted.None? ==> |r.trace| == budget
    ensures r.accepted.None? ==> r.lastErrors == LastErrors(r.trace) && r.candidate == LastCandidate(r.trace)
  {
    var r := Loop(run, validate, budget, w, [], [], Null);
    assert r.trace == Runs(run, validate, w, |r.trace|) && r.world == WorldAfter(run, w, |r.trace|) by {
      LoopReplays(run, validate, budget, w, [], [], Null);
      assert [] + Runs(run, validate, w, |r.trace| - 0) == Runs(run, validate, w, |r.trace|);
    }
    r
  }

  /** Short circuit: the accepted candidate is the first accepted one, and no
      attempt runs after it. */
  lemma FirstAcceptedWins<W>(run: W -> (Result<Value>, W), validate: Value -> Validation, budget: nat, w: W, i: nat)
    requires var r := Run(run, validate, budget, w); i < |r.trace| && Accepted(r.trace[i])
    ensures var r := Run(run, validate, budget, w); r.accepted == Some(r.trace[i].candidate) && |r.trace| == i + 1
  {
  }

  /** The answer is the candidate of the first run whose result the validator
      accepts, provided it falls within the budget; exactly that many runs happen. */
  lemma FirstValidIsAnswer<W>(run: W -> (Result<Value>, W), validate: Value -> Validation, budget: nat, w: W, i: nat)
    requires i < budget
    requires forall j :: 0 <= j < i ==> !Accepted(Verdict(run(WorldAfter(run, w, j)).0, validate))
    requires Accepted(Verdict(run(WorldAfter(run, w, i)).0, validate))
    ensures var r := Run(run, validate, budget, w);
            r.accepted == Some(run(WorldAfter(run, w, i)).0.value) && |r.trace| == i + 1
  {
    var r := Run(run, validate, budget, w);
    if i < |r.trace| {
      RunsAt(run, validate, w, |r.trace|, i);
    }
    if r.accepted.Some? {
      RunsAt(run, validate, w, |r.trace|, |r.trace| - 1);
    }
  }

  /** When no run within the budget is accepted, every one of them is made and the
      failure reports the last returned candidate and its violations. */
  lemma NoValidRunsAll<W>(run: W -> (Result<Value>, W), validate: Value -> Validation, budget: nat, w: W)
    requires forall j :: 0 <= j < budget ==> !Accepted(Verdict(run(WorldAfter(run, w, j)).0, validate))
    ensures var r := Run(run, validate, budget, w);
            && r.accepted == None && |r.trace| == budget
            && r.lastErrors == LastErrors(r.trace) && r.candidate == LastCandidate(r.trace)
  {
    var r := Run(run, validate, budget, w);
    if r.accepted.Some? {
      RunsAt(run, validate, w, |r.trace|, |r.trace| - 1);
    }
  }

  /** When every attempt throws, the failure carries no violations and a null
      candidate. */
  lemma AllThrownCarriesNothing(trace: seq<Attempt>)
    requires forall i :: 0 <= i < |trace| ==> trace[i].Threw?
    ensures LastErrors(trace) == [] && LastCandidate(trace) == Null
  {
    if trace != [] {
      AllThrownCarriesNothing(trace[..|trace| - 1]);
    }
  }

  // ---------------------------------------------------------------------------
  // The attempt budget

  function Max(a: real, b: real): real {
    if a >= b then a else b
  }

  /** The least integer not below x. */
  function Ceil(x: real): (n: nat)
    requires x >= 0.0
    ensures (n as real) >= x && (n as real) - 1.0 < x
  {
    var f := x.Floor;
    if f as real == x then f else f + 1
  }

  /** How many times `while (attempt < Math.max(1, MAX_RETRIES))` runs its body as
      written: a NaN bound (`None`) makes `Math.max` NaN and the guard false at once. */
  function BudgetAsWritten(maxRetries: Option<real>): nat {
    if maxRetries.None? then 0 else Ceil(Max(1.0, maxRetries.value))
  }

  /** The guard holds for attempt number n exactly when n is below the budget. */
  lemma BudgetAsWrittenIsGuard(maxRetries: Option<real>, n: nat)
    ensures n < BudgetAsWritten(maxRetries) <==> maxRetries.Some? && (n as real) < Max(1.0, maxRetries.value)
  {
  }

  /** A non-numeric MAX_ANALYZE_RETRIES (for example "abc") gives a budget of zero:
      no attempt runs, and the request fails with no violations and a null candidate. */
  lemma NaNRetriesRunNoAttempt<W>(run: W -> (Result<Value>, W), validate: Value -> Validation, w: W)
    ensures BudgetAsWritten(None) == 0
    ensures var r := Run(run, validate, BudgetAsWritten(None), w);
            r.trace == [] && r.accepted == None && r.lastErrors == [] && r.candidate == Null && r.world == w
  {
  }

  /** The budget the guard evidently intends: at least one attempt, a NaN setting
      read as one, otherwise as written. */
  function Budget(maxRetries: Option<real>): (n: nat)
    ensures n >= 1
    ensures maxRetries.Some? ==> n == BudgetAsWritten(maxRetries)
  {
    if maxRetries.None? then 1 else BudgetAsWritten(maxRetries)
  }

  /** The default setting gives two attempts; any setting gives at least one. */
  lemma DefaultBudget()
    ensures Budget(Some(2.0)) == 2 && Budget(Some(0.0)) == 1 && Budget(Some(2.5)) == 3
  {
  }
}

=== FILE: sheets.dfy ===
/** The spreadsheet side of context assembly: the text and HTML excerpts of the
    first five sheets of an exogena workbook (truncated to a character budget,
    empty on any failure), the "mov-first" sheet order used for HTML, the
    identifier given to each rendered HTML table, and the server-side
    movements summary. Reading the workbook and rendering a sheet are
    parameters. */
module Sheets {
  import opened Wrappers
  import opened Text

  /** A worksheet; its cells only matter to the renderers, which are parameters. */
  datatype Sheet = Sheet(cells: seq<seq<string>>)

  /** `wb.SheetNames` and `wb.Sheets`. */
  datatype Workbook = Workbook(names: seq<string>, sheets: map<string, Sheet>)

  /** The automatic summary: `{}` or `{ movimientos_sheet, movimientos_sum_cop }`. */
  datatype Summary = NoSummary | Summary(sheet: string, sum: real)

  const TextBudget: nat := 60000
  const HtmlBudget: nat := 80000
  const SheetLimit: nat := 5

  // ---------------------------------------------------------------------------
  // Sheet names

  /** `/mov/i.test(name)` (ASCII case folding). */
  predicate IsMov(name: string)
    decreases |name|
  {
    |name| >= 3 && (ToLower(name[..3]) == "mov" || IsMov(name[1..]))
  }

  /** The sort key of the comparator in `extractExogenaHtml`. */
  function Key(name: string): int {
    if IsMov(name) then -1 else 0
  }

  /** One insertion step of a stable sort by `Key`: `x` moves left past the
      elements whose key is greater than its own. */
  function InsertStable(s: seq<string>, x: string): (r: seq<string>)
    ensures |r| == |s| + 1
    ensures multiset(r) == multiset(s) + multiset{x}
  {
    if s == [] then [x]
    else if Key(s[|s| - 1]) > Key(x) then
      assert s == s[..|s| - 1] + [s[|s| - 1]];
      InsertStable(s[..|s| - 1], x) + [s[|s| - 1]]
    else s + [x]
  }

  /** `[...sheets].sort((a, b) => key(a) - key(b))`: a stable sort, here insertion sort. */
  function SortStable(s: seq<string>): (r: seq<string>)
    ensures multiset(r) == multiset(s)
  {
    if s == [] then []
    else
      assert s == s[..|s| - 1] + [s[|s| - 1]];
      InsertStable(SortStable(s[..|s| - 1]), s[|s| - 1])
  }

  /** The names matching /mov/i, in their original order. */
  function MovNames(s: seq<string>): (r: seq<string>)
    ensures forall x :: x in r ==> IsMov(x)
    ensures forall x :: x in r ==> x in s
  {
    if s == [] then []
    else MovNames(s[..|s| - 1]) + (if IsMov(s[|s| - 1]) then [s[|s| - 1]] else [])
  }

  /** The other names, in their original order. */
  function OtherNames(s: seq<string>): (r: seq<string>)
    ensures forall x :: x in r ==> !IsMov(x)
    ensures forall x :: x in r ==> x in s
  {
    if s == [] then []
    else OtherNames(s[..|s| - 1]) + (if IsMov(s[|s| - 1]) then [] else [s[|s| - 1]])
  }

  lemma {:induction false} InsertIntoPartition(a: seq<string>, b: seq<string>, x: string)
    requires forall y :: y in a ==> IsMov(y)
    requires forall y :: y in b ==> !IsMov(y)
    ensures InsertStable(a + b, x) == if IsMov(x) then a + [x] + b else a + b + [x]
    decreases |b|
  {
    if b == [] {
      assert a + b == a;
    } else {
      var k := |b| - 1;
      assert (a + b)[..|a + b| - 1] == a + b[..k];
      assert (a + b)[|a + b| - 1] == b[k];
      if IsMov(x) {
        InsertIntoPartition(a, b[..k], x);
        assert a + [x] + b[..k] + [b[k]] == a + [x] + b;
      }
    }
  }

  /** The sort is a stable partition: every mov sheet first, each group in its
      original order. */
  lemma {:induction false} SortIsPartition(s: seq<string>)
    ensures SortStable(s) == MovNames(s) + OtherNames(s)
  {
    if s != [] {
      var p, x := s[..|s| - 1], s[|s| - 1];
      var m, o := MovNames(p), OtherNames(p);
      assert SortStable(s) == InsertStable(m + o, x) by {
        SortIsPartition(p);
      }
      InsertIntoPartition(m, o, x);
      assert MovNames(s) + OtherNames(s) == if IsMov(x) then m + [x] + o else m + o + [x] by {
        NamesSnoc(s);
        if IsMov(x) {
          assert o + [] == o;
        } else {
          assert m + [] == m;
          ConcatAssoc(m, o, [x]);
        }
      }
    }
  }

  /** One more name joins the end of its own group. */
  lemma NamesSnoc(s: seq<string>)
    requires s != []
    ensures var p, x := s[..|s| - 1], s[|s| - 1];
            MovNames(s) == MovNames(p) + (if IsMov(x) then [x] else [])
            && OtherNames(s) == OtherNames(p) + (if IsMov(x) then [] else [x])
  {
  }

  // ---------------------------------------------------------------------------
  // Excerpts

  /** `` `\n# Hoja: ${name}\n` + csv + '\n' `` */
  function TextSegment(name: string, csv: string): string {
    "\n# Hoja: " + name + "\n" + csv + "\n"
  }

  /** `` `\n<!-- Hoja: ${name} -->\n` + html + '\n' `` */
  function HtmlSegment(name: string, html: string): string {
    "\n<!-- Hoja: " + name + " -->\n" + html + "\n"
  }

  /** The per-sheet loop of both extractors: sheets missing from the workbook are
      skipped, and the loop stops once the output is longer than the budget. */
  function Collect(names: seq<string>, sheets: map<string, Sheet>,
                   seg: (string, Sheet) -> string, maxChars: nat, out: string): string
    decreases |names|
  {
    if names == [] then out
    else if names[0] !in sheets then Collect(names[1..], sheets, seg, maxChars, out)
    else
      var out' := out + seg(names[0], sheets[names[0]]);
      if |out'| > maxChars then out' else Collect(names[1..], sheets, seg, maxChars, out')
  }

  /** Reference: the segments of every listed sheet that exists, concatenated. */
  function Full(names: seq<string>, sheets: map<string, Sheet>, seg: (string, Sheet) -> string): string
  {
    if names == [] then ""
    else if names[0] !in sheets then Full(names[1..], sheets, seg)
    else seg(names[0], sheets[names[0]]) + Full(names[1..], sheets, seg)
  }

  /** Stopping early never changes the truncated result. */
  lemma {:induction false} CollectTruncates(names: seq<string>, sheets: map<string, Sheet>,
                                            seg: (string, Sheet) -> string, maxChars: nat, out: string)
    ensures Take(Collect(names, sheets, seg, maxChars, out), maxChars)
         == Take(out + Full(names, sheets, seg), maxChars)
    decreases |names|
  {
    if names != [] {
      if names[0] !in sheets {
        CollectTruncates(names[1..], sheets, seg, maxChars, out);
      } else {
        var s := seg(names[0], sheets[names[0]]);
        var rest := Full(names[1..], sheets, seg);
        assert out + Full(names, sheets, seg) == (out + s) + rest;
        if |out + s| > maxChars {
          TakePrefix(out + s, rest, maxChars);
        } else {
          CollectTruncates(names[1..], sheets, seg, maxChars, out + s);
        }
      }
    }
  }

  function CsvSegments(renderCsv: Sheet -> string): (string, Sheet) -> string {
    (name: string, ws: Sheet) => TextSegment(name, renderCsv(ws))
  }

  function HtmlSegments(renderHtml: (Sheet, string) -> string): (string, Sheet) -> string {
    (name: string, ws: Sheet) => HtmlSegment(name, renderHtml(ws, TableId(name)))
  }

  /** `extractExogenaText(url, maxChars)`: `load` stands for fetching and parsing the
      workbook; any failure, or a missing URL, gives "". */
  function ExtractText(url: string, maxChars: nat, load: string -> Result<Workbook>,
                       renderCsv: Sheet -> string): (r: string)
    ensures |r| <= maxChars
    ensures url == "" || load(url).Err? ==> r == ""
    ensures url != "" && load(url).Ok? ==>
              var wb := load(url).value;
              r == Take(Full(Take(wb.names, SheetLimit), wb.sheets, CsvSegments(renderCsv)), maxChars)
  {
    if url == "" then ""
    else match load(url)
      case Err(_) => ""
      case Ok(wb) =>
        var names := Take(wb.names, SheetLimit);
        CollectTruncates(names, wb.sheets, CsvSegments(renderCsv), maxChars, "");
        assert "" + Full(names, wb.sheets, CsvSegments(renderCsv)) == Full(names, wb.sheets, CsvSegments(renderCsv));
        Take(Collect(names, wb.sheets, CsvSegments(renderCsv), maxChars, ""), maxChars)
  }

  /** `extractExogenaHtml(url, maxChars)`: like the text excerpt, over the sheets in
      mov-first order. */
  function ExtractHtml(url: string, maxChars: nat, load: string -> Result<Workbook>,
                       renderHtml: (Sheet, string) -> string): (r: string)
    ensures |r| <= maxChars
    ensures url == "" || load(url).Err? ==> r == ""
    ensures url != "" && load(url).Ok? ==>
              var wb := load(url).value;
              r == Take(Full(Take(MovNames(wb.names) + OtherNames(wb.names), SheetLimit), wb.sheets,
                             HtmlSegments(renderHtml)), maxChars)
  {
    if url == "" then ""
    else match load(url)
      case Err(_) => ""
      case Ok(wb) =>
        var names := Take(SortStable(wb.names), SheetLimit);
        SortIsPartition(wb.names);
        CollectTruncates(names, wb.sheets, HtmlSegments(renderHtml), maxChars, "");
        assert "" + Full(names, wb.sheets, HtmlSegments(renderHtml)) == Full(names, wb.sheets, HtmlSegments(renderHtml));
        Take(Collect(names, wb.sheets, HtmlSegments(renderHtml), maxChars, ""), maxChars)
  }

  // ---------------------------------------------------------------------------
  // Table identifiers

  /** A character of /\w/. */
  predicate IsWord(c: char) {
    'a' <= c <= 'z' || 'A' <= c <= 'Z' || '0' <= c <= '9' || c == '_'
  }

  /** Every character is a word character. */
  predicate AllWord(s: string) {
    s == [] || (IsWord(s[0]) && AllWord(s[1..]))
  }

  /** Drops the leading run of non-word characters. */
  function SkipNonWord(s: string): (r: string)
    ensures |r| <= |s| && r == s[|s| - |r|..]
    ensures r == [] || IsWord(r[0])
    ensures s != [] && !IsWord(s[0]) ==> |r| < |s|
    ensures forall i :: 0 <= i < |s| - |r| ==> !IsWord(s[i])
  {
    if s == [] || IsWord(s[0]) then s
    else
      var r := SkipNonWord(s[1..]);
      assert r == s[|s| - |r|..] by {
        assert s[1..][|s| - 1 - |r|..] == s[|s| - |r|..];
      }
      assert forall i :: 1 <= i < |s| - |r| ==> s[i] == s[1..][i - 1];
      r
  }

  /** Skipping a run of non-word characters lands on what follows the run. */
  lemma {:induction false} SkipRun(n: string, t: string)
    requires forall i :: 0 <= i < |n| ==> !IsWord(n[i])
    requires t == [] || IsWord(t[0])
    ensures SkipNonWord(n + t) == t
  {
    if n == [] {
      assert n + t == t;
    } else {
      assert (n + t)[1..] == n[1..] + t;
      SkipRun(n[1..], t);
    }
  }

  /** `name.replace(/\W+/g, '_')`: each run of non-word characters becomes one '_'. */
  function TableId(name: string): (r: string)
    ensures |r| <= |name|
    ensures forall i :: 0 <= i < |r| ==> IsWord(r[i])
    ensures AllWord(name) ==> r == name
    decreases |name|
  {
    if name == [] then []
    else if IsWord(name[0]) then [name[0]] + TableId(name[1..])
    else "_" + TableId(SkipNonWord(name))
  }

  /** Word characters are kept and a whole run of non-word characters between them
      becomes a single '_'. */
  lemma {:induction false} TableIdRun(w: string, n: string, t: string)
    requires AllWord(w)
    requires n != [] && forall i :: 0 <= i < |n| ==> !IsWord(n[i])
    requires t == [] || IsWord(t[0])
    ensures TableId(w + n + t) == w + ("_" + TableId(t))
    decreases |w|
  {
    if w == [] {
      assert w + n + t == n + t;
      TableIdRunStart(n, t);
    } else {
      var w', u := w[1..], "_" + TableId(t);
      assert TableId(w + n + t) == [w[0]] + TableId(w' + n + t) by {
        assert w + n + t == [w[0]] + (w' + n + t);
        TableIdWordCons(w[0], w' + n + t);
      }
      TableIdRun(w', n, t);
      assert [w[0]] + (w' + u) == w + u by {
        ConcatAssoc([w[0]], w', u);
        assert [w[0]] + w' == w;
      }
    }
  }

  /** A word character in front is copied as it is. */
  lemma TableIdWordCons(c: char, s: string)
    requires IsWord(c)
    ensures TableId([c] + s) == [c] + TableId(s)
  {
    assert ([c] + s)[1..] == s;
  }

  /** A leading run of non-word characters becomes one '_'. */
  lemma TableIdRunStart(n: string, t: string)
    requires n != [] && forall i :: 0 <= i < |n| ==> !IsWord(n[i])
    requires t == [] || IsWord(t[0])
    ensures TableId(n + t) == "_" + TableId(t)
  {
    assert (n + t)[0] == n[0];
    SkipRun(n, t);
  }

  // ---------------------------------------------------------------------------
  // Movements summary

  /** The state of the summarising loop: the last mov sheet seen and the running sum. */
  datatype MovState = MovState(sheet: string, sum: real)

  /** One iteration: a mov sheet name is recorded even when the sheet is missing;
      only a present sheet adds its cell total. */
  function MovStep(st: MovState, name: string, sheets: map<string, Sheet>,
                   sheetSum: Sheet -> real): MovState {
    if !IsMov(name) then st
    else if name !in sheets then MovState(name, st.sum)
    else MovState(name, st.sum + sheetSum(sheets[name]))
  }

  function MovLoop(names: seq<string>, st: MovState, sheets: map<string, Sheet>,
                   sheetSum: Sheet -> real): MovState
    decreases |names|
  {
    if names == [] then st else MovLoop(names[1..], MovStep(st, names[0], sheets, sheetSum), sheets, sheetSum)
  }

  lemma {:induction false} MovLoopSnoc(names: seq<string>, x: string, st: MovState,
                                       sheets: map<string, Sheet>, sheetSum: Sheet -> real)
    ensures MovLoop(names + [x], st, sheets, sheetSum)
         == MovStep(MovLoop(names, st, sheets, sheetSum), x, sheets, sheetSum)
    decreases |names|
  {
    if names == [] {
      assert names + [x] == [x];
    } else {
      assert (names + [x])[1..] == names[1..] + [x];
      MovLoopSnoc(names[1..], x, MovStep(st, names[0], sheets, sheetSum), sheets, sheetSum);
    }
  }

  /** Reference: the total of the present sheets among `names`. */
  function SumPresent(names: seq<string>, sheets: map<string, Sheet>, sheetSum: Sheet -> real): real {
    if names == [] then 0.0
    else SumPresent(names[..|names| - 1], sheets, sheetSum)
         + (if names[|names| - 1] in sheets then sheetSum(sheets[names[|names| - 1]]) else 0.0)
  }

  function LastOr(s: seq<string>, default: string): string {
    if s == [] then default else s[|s| - 1]
  }

  /** The loop names the last mov sheet and sums exactly the present mov sheets. */
  lemma {:induction false} MovLoopSpec(names: seq<string>, sheets: map<string, Sheet>, sheetSum: Sheet -> real)
    ensures MovLoop(names, MovState("", 0.0), sheets, sheetSum)
         == MovState(LastOr(MovNames(names), ""), SumPresent(MovNames(names), sheets, sheetSum))
  {
    if names != [] {
      var p, x := names[..|names| - 1], names[|names| - 1];
      assert names == p + [x];
      MovLoopSpec(p, sheets, sheetSum);
      MovLoopSnoc(p, x, MovState("", 0.0), sheets, sheetSum);
      if IsMov(x) {
        var m := MovNames(p) + [x];
        assert m[..|m| - 1] == MovNames(p);
      } else {
        assert MovNames(p) + [] == MovNames(p);
      }
    }
  }

  /** `summarizeExogena(url)`: {} for a missing URL or any failure; otherwise the
      last sheet whose name matches /mov/i ("" when none) and the total of the
      cell values of the matching sheets present in the workbook. */
  function SummarizeExogena(url: string, load: string -> Result<Workbook>,
                            sheetSum: Sheet -> real): (r: Summary)
    ensures url == "" || load(url).Err? ==> r == NoSummary
    ensures url != "" && load(url).Ok? ==>
              var wb := load(url).value;
              r == Summary(LastOr(MovNames(wb.names), ""), SumPresent(MovNames(wb.names), wb.sheets, sheetSum))
  {
    if url == "" then NoSummary
    else match load(url)
      case Err(_) => NoSummary
      case Ok(wb) =>
        MovLoopSpec(wb.names, wb.sheets, sheetSum);
        var st := MovLoop(wb.names, MovState("", 0.0), wb.sheets, sheetSum);
        Summary(st.sheet, st.sum)
  }
}

=== FILE: supervisor.dfy ===
/** The correction supervisor's pieces shared by the chat and Responses paths:
    the trigger conditions, the corrective instruction texts, the acceptance
    rule for a corrected Responses reply, and the defaults written onto a
    candidate. */
module Supervisor {
  import opened Wrappers
  import opened Values
  import opened Text
  import opened Manifest
  import Sheets

  const CountsKey := "archivos_detectados"
  const RagKey := "verificaciones_rag"
  const YearKey := "anio_gravable"
  const DecisionKey := "debe_declarar"

  /** The candidate reports exactly the server's counts. */
  predicate ReportsCounts(ad: Option<Value>, c: Counts) {
    && Present(ad)
    && Prop(ad.value, "exogena") == Prop(CountsValue(c), "exogena")
    && Prop(ad.value, "prediales") == Prop(CountsValue(c), "prediales")
    && Prop(ad.value, "vehiculos") == Prop(CountsValue(c), "vehiculos")
  }

  /** `needCountsFix`: `archivos_detectados` is falsy, or one of its three fields is
      not strictly equal to the server count. */
  function NeedCountsFix(ad: Option<Value>, c: Counts): (r: bool)
    ensures r <==> !ReportsCounts(ad, c)
  {
    !Present(ad)
    || Prop(ad.value, "exogena") != Some(Num(c.exogena as real))
    || Prop(ad.value, "prediales") != Some(Num(c.prediales as real))
    || Prop(ad.value, "vehiculos") != Some(Num(c.vehiculos as real))
  }

  /** The server's own counts never fire the trigger, and any other counts do: the
      trigger tells the three numbers apart. */
  lemma CountsTriggerSeparates(reported: Counts, c: Counts)
    ensures NeedCountsFix(Some(CountsValue(reported)), c) <==> reported != c
  {
    if reported != c {
      assert Prop(CountsValue(reported), "exogena") != Prop(CountsValue(c), "exogena")
          || Prop(CountsValue(reported), "prediales") != Prop(CountsValue(c), "prediales")
          || Prop(CountsValue(reported), "vehiculos") != Prop(CountsValue(c), "vehiculos");
    }
  }

  /** `needRag`: `verificaciones_rag` is not an array with at least one entry. */
  function NeedRag(vr: Option<Value>): (r: bool)
    ensures !r <==> vr.Some? && vr.value.Arr? && |vr.value.items| >= 1
  {
    !IsArray(vr) || |vr.value.items| < 1
  }

  /** `needMovCheck` (Responses path): the summary of the last summarised file has a
      movements total at or above the threshold (a NaN threshold never is) while the
      candidate says `debe_declarar === false`. */
  function NeedMovCheck(sum: Sheets.Summary, threshold: Option<real>, decision: Option<Value>): (r: bool)
    ensures r ==> sum.Summary? && threshold.Some? && decision == Some(Bool(false))
    ensures sum.Summary? && threshold.Some? && sum.sum >= threshold.value && decision == Some(Bool(false)) ==> r
    ensures r ==> sum.sum >= threshold.value
  {
    sum.Summary? && threshold.Some? && sum.sum >= threshold.value && decision == Some(Bool(false))
  }

  /** The movements check never fires without a summary or with a NaN threshold,
      and a check that fires keeps firing when the threshold is lowered. */
  lemma MovCheckMonotone(sum: Sheets.Summary, t: real, t': real, decision: Option<Value>)
    requires t' <= t
    ensures !NeedMovCheck(Sheets.NoSummary, Some(t), decision) && !NeedMovCheck(sum, None, decision)
    ensures NeedMovCheck(sum, Some(t), decision) ==> NeedMovCheck(sum, Some(t'), decision)
  {
  }

  // ---------------------------------------------------------------------------
  // Corrective instructions

  const FixHeader := "Corrige y devuelve SOLO el JSON del esquema: "
  const RagClause := "Realiza AL MENOS una llamada a rag_search para validar umbrales y obligaciones y refleja la(s) verificación(es) en verificaciones_rag."
  const RagNote := "Incluye al menos una verificación normativa clara en verificaciones_rag basada en el contexto RAG provisto."
  const NoteClosing := "Devuelve SOLO el JSON válido del esquema."

  /** The count instruction, with the counts as JSON text. */
  function CountsClause(countsJson: string): string {
    "Ajusta 'archivos_detectados' EXACTAMENTE a " + countsJson + "."
  }

  /** The movements instruction, with the sum and threshold as printed numbers. */
  function MovClause(sumText: string, thresholdText: string): string {
    "Reevalúa obligación: movimientos_sum_cop=" + sumText + " >= " + thresholdText
      + " (1.400 UVT aprox 2024). Aplica reglas y devuelve SOLO el JSON."
  }

  /** The lines of the chat path's `fixText`, after `filter(Boolean)`. */
  function FixLines(needCounts: bool, needRag: bool, countsJson: string): seq<string> {
    NonEmpty([FixHeader, if needCounts then CountsClause(countsJson) else "",
              if needRag then RagClause else ""])
  }

  function FixText(needCounts: bool, needRag: bool, countsJson: string): string {
    Join(FixLines(needCounts, needRag, countsJson), "\n")
  }

  /** The lines of the Responses path's `note`, after `filter(Boolean)`. */
  function NoteLines(needCounts: bool, needRag: bool, needMov: bool, countsJson: string,
                     sumText: string, thresholdText: string): seq<string> {
    NonEmpty([if needCounts then CountsClause(countsJson) else "",
              if needRag then RagNote else "",
              if needMov then MovClause(sumText, thresholdText) else "",
              NoteClosing])
  }

  /** The chat fix text is the header followed by exactly the clauses of the
      triggers that fired, counts before RAG. */
  lemma FixLinesClauses(needCounts: bool, needRag: bool, countsJson: string)
    ensures FixLines(needCounts, needRag, countsJson)
            == [FixHeader] + When(needCounts, CountsClause(countsJson)) + When(needRag, RagClause)
  {
    NonEmptyThree(FixHeader, if needCounts then CountsClause(countsJson) else "", if needRag then RagClause else "");
    NonEmptyWhen(true, FixHeader);
    NonEmptyWhen(needCounts, CountsClause(countsJson));
    NonEmptyWhen(needRag, RagClause);
  }

  /** The Responses note is exactly the clauses of the triggers that fired, in the
      order counts, RAG, movements, followed by the closing line. */
  lemma NoteLinesClauses(needCounts: bool, needRag: bool, needMov: bool, countsJson: string,
                         sumText: string, thresholdText: string)
    ensures NoteLines(needCounts, needRag, needMov, countsJson, sumText, thresholdText)
            == When(needCounts, CountsClause(countsJson)) + When(needRag, RagNote)
               + When(needMov, MovClause(sumText, thresholdText)) + [NoteClosing]
  {
    var c := if needCounts then CountsClause(countsJson) else "";
    var r := if needRag then RagNote else "";
    var m := if needMov then MovClause(sumText, thresholdText) else "";
    assert [c, r, m, NoteClosing] == [c, r, m] + [NoteClosing];
    NonEmptyAppend([c, r, m], [NoteClosing]);
    NonEmptyThree(c, r, m);
    NonEmptyWhen(needCounts, CountsClause(countsJson));
    NonEmptyWhen(needRag, RagNote);
    NonEmptyWhen(needMov, MovClause(sumText, thresholdText));
    NonEmptyWhen(true, NoteClosing);
  }

  // ---------------------------------------------------------------------------
  // Candidate updates

  /** Lines 383-384 and 525-526: write the server counts when `archivos_detectados`
      is falsy and the request year when `anio_gravable` is falsy. Reading from null
      or writing onto a primitive throws. */
  function FillDefaults(parsed: Value, c: Counts, year: Value): (r: Result<Value>)
    ensures r.Ok? <==> IsObject(parsed)
    ensures r.Ok? ==> IsObject(r.value)
    ensures r.Ok? ==>
              Prop(r.value, CountsKey) == if Present(Prop(parsed, CountsKey)) then Prop(parsed, CountsKey) else Some(CountsValue(c))
    ensures r.Ok? ==>
              Prop(r.value, YearKey) == if Present(Prop(parsed, YearKey)) then Prop(parsed, YearKey) else Some(year)
    ensures r.Ok? ==> forall k :: k != CountsKey && k != YearKey ==> Prop(r.value, k) == Prop(parsed, k)
  {
    match ReadProp(parsed, CountsKey)
    case Err(e) => Err(e)
    case Ok(ad) =>
      var withCounts := if Present(ad) then Ok(parsed) else WriteProp(parsed, CountsKey, CountsValue(c));
      match withCounts
      case Err(e) => Err(e)
      case Ok(p1) =>
        if Present(Prop(p1, YearKey)) then Ok(p1) else WriteProp(p1, YearKey, year)
  }

  /** Filling defaults never changes the RAG trigger, nor the decision the
      movements check reads. */
  lemma DefaultsKeepRagAndDecision(parsed: Value, c: Counts, year: Value)
    requires IsObject(parsed)
    ensures FillDefaults(parsed, c, year).Ok?
    ensures NeedRag(Prop(FillDefaults(parsed, c, year).value, RagKey)) == NeedRag(Prop(parsed, RagKey))
    ensures Prop(FillDefaults(parsed, c, year).value, DecisionKey) == Prop(parsed, DecisionKey)
  {
  }

  /** Present-but-wrong counts are left as they are: filling defaults never clears
      the count trigger once it holds of a present value. */
  lemma WrongCountsSurviveDefaults(parsed: Value, c: Counts, year: Value)
    requires IsObject(parsed)
    requires Present(Prop(parsed, CountsKey))
    requires NeedCountsFix(Prop(parsed, CountsKey), c)
    ensures FillDefaults(parsed, c, year).Ok?
    ensures NeedCountsFix(Prop(FillDefaults(parsed, c, year).value, CountsKey), c)
  {
  }

  /** A candidate without counts gets the server's, which then satisfy the trigger. */
  lemma MissingCountsFilled(parsed: Value, c: Counts, year: Value)
    requires IsObject(parsed) && !Present(Prop(parsed, CountsKey))
    ensures FillDefaults(parsed, c, year).Ok?
    ensures !NeedCountsFix(Prop(FillDefaults(parsed, c, year).value, CountsKey), c)
  {
  }

  /** Line 543: the corrected reply replaces the candidate only when it parses to an
      object; an empty reply reads as '{}', so it replaces the candidate with `{}`. */
  function AcceptCorrection(parsed: Value, text: string, parse: string -> Option<Value>): (r: Value)
    ensures r == parsed || (IsObject(r) && JsonParse(parse, if text == "" then "{}" else text) == Some(r))
    ensures text == "" ==> r == EmptyObj
    ensures text != "" && (match JsonParse(parse, text) case Some(v) => IsObject(v) case None => false) ==>
              r == JsonParse(parse, text).value
  {
    match JsonParse(parse, if text == "" then "{}" else text)
    case Some(v) => if Truthy(v) && IsObject(v) then v else parsed
    case None => parsed
  }
}

=== FILE: text.dfy ===
/** String helpers shared by the model: ASCII case mapping, suffix tests,
    joining and filtering of line lists, prefixes. */
module Text {

  /** ASCII lower-casing of one character; other characters are unchanged. */
  function LowerChar(c: char): char {
    if 'A' <= c <= 'Z' then (c as int - 'A' as int + 'a' as int) as char else c
  }

  function ToLower(s: string): (r: string)
    ensures |r| == |s|
    ensures forall i :: 0 <= i < |s| ==> r[i] == LowerChar(s[i])
  {
    if s == [] then [] else [LowerChar(s[0])] + ToLower(s[1..])
  }

  lemma ToLowerAppend(a: string, b: string)
    ensures ToLower(a + b) == ToLower(a) + ToLower(b)
  {
    assert forall i :: 0 <= i < |a + b| ==> ToLower(a + b)[i] == (ToLower(a) + ToLower(b))[i];
  }

  lemma ToLowerIdempotent(s: string)
    ensures ToLower(ToLower(s)) == ToLower(s)
  {
  }

  predicate EndsWith(s: string, suffix: string) {
    |suffix| <= |s| && s[|s| - |suffix|..] == suffix
  }

  /** Only the last |suffix| characters decide a suffix test. */
  lemma EndsWithAppend(p: string, s: string, suffix: string)
    requires |suffix| <= |s|
    ensures EndsWith(p + s, suffix) <==> EndsWith(s, suffix)
  {
    assert (p + s)[|p + s| - |suffix|..] == s[|s| - |suffix|..];
  }

  predicate StartsWith(s: string, prefix: string) {
    |prefix| <= |s| && s[..|prefix|] == prefix
  }

  /** JavaScript's `s.slice(0, n)` for n >= 0. */
  function Take<T>(s: seq<T>, n: nat): (r: seq<T>)
    ensures |r| == if n <= |s| then n else |s|
    ensures r <= s
  {
    if n <= |s| then s[..n] else s
  }

  /** Truncation only looks at the first n elements. */
  lemma TakePrefix<T>(a: seq<T>, b: seq<T>, n: nat)
    requires n <= |a|
    ensures Take(a + b, n) == Take(a, n)
  {
    assert (a + b)[..n] == a[..n];
  }

  /** Concatenation regroups freely. */
  lemma ConcatAssoc<T>(x: seq<T>, y: seq<T>, z: seq<T>)
    ensures x + (y + z) == (x + y) + z
  {
  }

  /** `lines.join(sep)`. */
  function Join(lines: seq<string>, sep: string): string {
    if lines == [] then ""
    else if |lines| == 1 then lines[0]
    else lines[0] + sep + Join(lines[1..], sep)
  }

  /** `lines.filter(Boolean)` on strings: drops the empty ones, keeps the order. */
  function NonEmpty(lines: seq<string>): (r: seq<string>)
    ensures |r| <= |lines|
    ensures forall x :: x in r <==> x in lines && x != ""
  {
    if lines == [] then []
    else if lines[0] == "" then NonEmpty(lines[1..])
    else [lines[0]] + NonEmpty(lines[1..])
  }

  /** Filtering distributes over concatenation, which is what "keeps the order" means. */
  lemma {:induction false} NonEmptyAppend(a: seq<string>, b: seq<string>)
    ensures NonEmpty(a + b) == NonEmpty(a) + NonEmpty(b)
  {
    if a == [] {
      assert a + b == b;
    } else {
      assert (a + b)[1..] == a[1..] + b;
      NonEmptyAppend(a[1..], b);
    }
  }

  /** The line for a condition: the line when it holds, nothing otherwise. */
  function When(holds: bool, line: string): seq<string> {
    if holds then [line] else []
  }

  /** A line blanked when its condition fails survives the filter exactly when the
      condition holds. */
  lemma NonEmptyWhen(holds: bool, line: string)
    requires line != ""
    ensures NonEmpty([if holds then line else ""]) == When(holds, line)
  {
  }

  /** `filter(Boolean)` over three lines keeps each non-empty one, in order. */
  lemma NonEmptyThree(x: string, y: string, z: string)
    ensures NonEmpty([x, y, z]) == NonEmpty([x]) + NonEmpty([y]) + NonEmpty([z])
  {
    assert [x, y, z] == [x] + ([y] + [z]);
    NonEmptyAppend([x], [y] + [z]);
    NonEmptyAppend([y], [z]);
  }

  /** `filter(Boolean)` distributes over four consecutive groups of lines. */
  lemma NonEmptyFour(a: seq<string>, b: seq<string>, c: seq<string>, d: seq<string>)
    ensures NonEmpty(a + b + c + d) == NonEmpty(a) + NonEmpty(b) + NonEmpty(c) + NonEmpty(d)
  {
    NonEmptyAppend(a + b + c, d);
    NonEmptyAppend(a + b, c);
    NonEmptyAppend(a, b);
  }

  /** Lines that are all non-empty pass the filter unchanged. */
  lemma {:induction false} NonEmptyKept(lines: seq<string>)
    requires forall i :: 0 <= i < |lines| ==> lines[i] != ""
    ensures NonEmpty(lines) == lines
  {
    if lines != [] {
      NonEmptyKept(lines[1..]);
    }
  }
}

=== FILE: tool_loop.dfy ===
/** The tool-calling session of the chat path (`runToolLoop`): at most three
    model turns; a turn that requests tools gets one tool message per served
    `rag_search` call appended, in call order, before the next turn; the first
    turn without tool calls ends the session with its content parsed as JSON. */
module ToolLoop {
  import opened Wrappers
  import opened Values

  /** A content part of a user message. */
  datatype Part = TextPart(text: string) | ImagePart(url: string)

  /** The conversation entries the handler itself writes. */
  datatype Message =
    | SystemMsg(text: string)
    | UserMsg(parts: seq<Part>)
    | ToolMsg(callId: string, payload: Value)

  /** A function call requested by the model; an absent name or arguments is "". */
  datatype ToolCall = ToolCall(id: string, name: string, arguments: string)

  /** One chat-completion call: the reply message (content "" for null or absent),
      or a thrown API error. */
  datatype ChatTurn = Reply(content: string, toolCalls: seq<ToolCall>) | ApiFailure(message: string)

  /** The retrieval step behind `rag_search` (embedding, then `match_sections`):
      the rows it returned, or the message of whatever it threw. */
  datatype RagResult = RagMatches(data: Value) | RagFailure(message: string)

  /** What the session needs from outside: the retrieval call, JSON.parse, and the
      configured defaults for `top_k` and `threshold`. */
  datatype RagTool = RagTool(
    search: (string, Value, Value) -> RagResult,
    parse: string -> Option<Value>,
    topK: Value,
    threshold: Value)

  /** The result of one session: the parsed final content (or the error thrown),
      the conversation as it ends, the replies not consumed, and the conversation
      sent at each model call. */
  datatype Session = Session(
    outcome: Result<Value>,
    messages: seq<Message>,
    rest: seq<ChatTurn>,
    sent: seq<seq<Message>>)

  const MaxSteps: nat := 3
  const ToolName := "rag_search"

  predicate IsToolTurn(t: ChatTurn) {
    t.Reply? && |t.toolCalls| > 0
  }

  function Min(a: nat, b: nat): nat {
    if a <= b then a else b
  }

  /** `JSON.parse(call.function?.arguments || '{}')`, `{}` when that throws. */
  function Args(call: ToolCall, parse: string -> Option<Value>): Value {
    match JsonParse(parse, if call.arguments == "" then "{}" else call.arguments)
    case Some(v) => v
    case None => EmptyObj
  }

  /** The object destructured: `args || {}`. */
  function ArgsObject(call: ToolCall, parse: string -> Option<Value>): Value {
    var a := Args(call, parse);
    if Truthy(a) then a else EmptyObj
  }

  /** `query`, when it is a non-empty string. */
  function Query(call: ToolCall, parse: string -> Option<Value>): Option<string> {
    match Prop(ArgsObject(call, parse), "query")
    case Some(Str(s)) => if s != "" then Some(s) else None
    case _ => None
  }

  /** A call the loop answers: named `rag_search` with a usable query. */
  predicate Served(call: ToolCall, tool: RagTool) {
    call.name == ToolName && Query(call, tool.parse).Some?
  }

  /** `top_k` as destructured: the call's own value unless it is undefined. */
  function TopK(call: ToolCall, tool: RagTool): Value {
    Prop(ArgsObject(call, tool.parse), "top_k").GetOr(tool.topK)
  }

  /** `threshold` as destructured: the call's own value unless it is undefined. */
  function MatchThreshold(call: ToolCall, tool: RagTool): Value {
    Prop(ArgsObject(call, tool.parse), "threshold").GetOr(tool.threshold)
  }

  /** The retrieval behind one served call. */
  function Search(call: ToolCall, tool: RagTool): RagResult
    requires Served(call, tool)
  {
    tool.search(Query(call, tool.parse).value, TopK(call, tool), MatchThreshold(call, tool))
  }

  /** The tool message's payload: `{ matches: data || [] }`, or `{ error }` when the
      retrieval threw. */
  function Payload(call: ToolCall, tool: RagTool): (v: Value)
    requires Served(call, tool)
    ensures v.Obj?
    ensures v.fields.Keys == {"matches"} <==> Search(call, tool).RagMatches?
    ensures Search(call, tool).RagFailure? ==> v == Obj(map["error" := Str(Search(call, tool).message)])
    ensures Search(call, tool).RagMatches? && Truthy(Search(call, tool).data)
            ==> v.fields["matches"] == Search(call, tool).data
    ensures Search(call, tool).RagMatches? && !Truthy(Search(call, tool).data)
            ==> v.fields["matches"] == EmptyArr
  {
    match Search(call, tool)
    case RagMatches(data) => Obj(map["matches" := if Truthy(data) then data else EmptyArr])
    case RagFailure(m) => Obj(map["error" := Str(m)])
  }

  /** Arguments that parse to an object carrying `top_k` and `threshold` reach the
      retrieval as they are, with no default and no clamping; absent ones take the
      configured defaults. */
  lemma ArgumentsReachSearch(call: ToolCall, tool: RagTool, f: map<string, Value>)
    requires Served(call, tool)
    requires call.arguments != "" && JsonParse(tool.parse, call.arguments) == Some(Obj(f))
    ensures TopK(call, tool) == if "top_k" in f then f["top_k"] else tool.topK
    ensures MatchThreshold(call, tool) == if "threshold" in f then f["threshold"] else tool.threshold
  {
  }

  /** The message the logging line after the push throws when the first match is
      null (`data[0].similarity`); the catch pushes it as a second tool message. */
  const SimilarityError := "Cannot read properties of null (reading 'similarity')"

  /** `data[0].similarity` throws: the matches are a non-empty array starting with null. */
  predicate BestThrows(call: ToolCall, tool: RagTool)
    requires Served(call, tool)
  {
    match Search(call, tool)
    case RagMatches(Arr(items, _)) => |items| > 0 && items[0] == Null
    case _ => false
  }

  /** The messages pushed for one served call: the payload, then an error message
      under the same call id when the line after the push throws. */
  function CallMessages(call: ToolCall, tool: RagTool): (r: seq<Message>)
    requires Served(call, tool)
    ensures 1 <= |r| <= 2 && r[0] == ToolMsg(call.id, Payload(call, tool))
    ensures |r| == 2 <==> BestThrows(call, tool)
    ensures |r| == 2 ==> r[1] == ToolMsg(call.id, Obj(map["error" := Str(SimilarityError)]))
  {
    [ToolMsg(call.id, Payload(call, tool))]
      + (if BestThrows(call, tool) then [ToolMsg(call.id, Obj(map["error" := Str(SimilarityError)]))] else [])
  }

  /** The body of the `for (const call of msg.tool_calls)` loop: the messages pushed. */
  function ToolResults(calls: seq<ToolCall>, tool: RagTool): (r: seq<Message>)
    ensures |r| <= 2 * |calls|
    ensures forall i :: 0 <= i < |r| ==> r[i].ToolMsg?
  {
    if calls == [] then []
    else if Served(calls[0], tool) then CallMessages(calls[0], tool) + ToolResults(calls[1..], tool)
    else ToolResults(calls[1..], tool)
  }

  /** Reference: the served calls, in the order the model made them. */
  function ServedCalls(calls: seq<ToolCall>, tool: RagTool): (r: seq<ToolCall>)
    ensures forall c :: c in r ==> c in calls && Served(c, tool)
  {
    if calls == [] then []
    else if Served(calls[0], tool) then [calls[0]] + ServedCalls(calls[1..], tool)
    else ServedCalls(calls[1..], tool)
  }

  /** Reference: the messages for a list of served calls, call by call. */
  function AnswerAll(served: seq<ToolCall>, tool: RagTool): seq<Message>
    requires forall c :: c in served ==> Served(c, tool)
  {
    if served == [] then [] else CallMessages(served[0], tool) + AnswerAll(served[1..], tool)
  }

  /** The pushed messages are the served calls' messages in call order; every other
      call (another name, no query) gets nothing. */
  lemma {:induction false} ToolResultsSpec(calls: seq<ToolCall>, tool: RagTool)
    ensures ToolResults(calls, tool) == AnswerAll(ServedCalls(calls, tool), tool)
  {
    if calls != [] {
      ToolResultsSpec(calls[1..], tool);
    }
  }

  /** When no served call's first match is null, there is exactly one message per
      served call, answering that call. */
  lemma {:induction false} OneMessagePerCall(served: seq<ToolCall>, tool: RagTool)
    requires forall c :: c in served ==> Served(c, tool) && !BestThrows(c, tool)
    ensures var r := AnswerAll(served, tool);
            |r| == |served| && forall i :: 0 <= i < |r| ==> r[i] == ToolMsg(served[i].id, Payload(served[i], tool))
  {
    if served != [] {
      OneMessagePerCall(served[1..], tool);
      var r, rest := AnswerAll(served, tool), AnswerAll(served[1..], tool);
      assert r == [ToolMsg(served[0].id, Payload(served[0], tool))] + rest;
      forall i | 0 <= i < |r|
        ensures r[i] == ToolMsg(served[i].id, Payload(served[i], tool))
      {
        if i > 0 {
          assert r[i] == rest[i - 1] && served[i] == served[1..][i - 1];
        }
      }
    }
  }

  /** The model call after `prev` saw `next`: turn `i` requested tools, and their
      results were appended. */
  ghost predicate Link(prev: seq<Message>, next: seq<Message>, turns: seq<ChatTurn>, i: nat, tool: RagTool) {
    i < |turns| && IsToolTurn(turns[i]) && next == prev + ToolResults(turns[i].toolCalls, tool)
  }

  /** Each conversation sent after the first is the previous one plus the tool
      results of the turn that answered it, which requested tools. */
  ghost predicate Chained(sent: seq<seq<Message>>, turns: seq<ChatTurn>, tool: RagTool) {
    forall i {:trigger sent[i]} :: 0 <= i < |sent| - 1 ==> Link(sent[i], sent[i + 1], turns, i, tool)
  }

  lemma ChainedCons(a: seq<Message>, rest: seq<seq<Message>>, t: ChatTurn, turns: seq<ChatTurn>, tool: RagTool)
    requires IsToolTurn(t)
    requires |rest| > 0 && rest[0] == a + ToolResults(t.toolCalls, tool)
    requires Chained(rest, turns, tool)
    ensures Chained([a] + rest, [t] + turns, tool)
  {
    var s, ts := [a] + rest, [t] + turns;
    forall i {:trigger s[i]} | 0 <= i < |s| - 1
      ensures Link(s[i], s[i + 1], ts, i, tool)
    {
      if i == 0 {
        assert s[0] == a && s[1] == rest[0] && ts[0] == t;
      } else {
        var j := i - 1;
        assert j < |rest| - 1 && rest[j] in rest;
        assert Link(rest[j], rest[j + 1], turns, j, tool);
        assert s[i] == rest[j] && s[i + 1] == rest[j + 1] && ts[i] == turns[j];
      }
    }
  }

  /** The tail of a conversation holds only tool messages. */
  ghost predicate ToolsFrom(messages: seq<Message>, n: nat) {
    forall i :: n <= i < |messages| ==> messages[i].ToolMsg?
  }

  lemma AppendTools(messages: seq<Message>, calls: seq<ToolCall>, tool: RagTool)
    ensures messages <= messages + ToolResults(calls, tool)
    ensures ToolsFrom(messages + ToolResults(calls, tool), |messages|)
  {
    var tr := ToolResults(calls, tool);
    forall i | |messages| <= i < |messages + tr|
      ensures (messages + tr)[i].ToolMsg?
    {
      assert (messages + tr)[i] == tr[i - |messages|];
    }
  }

  /** The contract of `Loop` carried back over one tool-calling turn. */
  lemma ToolTurnStep(messages: seq<Message>, turns: seq<ChatTurn>, tool: RagTool,
                     sent: seq<seq<Message>>, s: Session)
    requires |sent| + 1 < MaxSteps && |turns| > 0 && IsToolTurn(turns[0])
    requires var m' := messages + ToolResults(turns[0].toolCalls, tool);
             var sent' := sent + [messages];
             && |sent'| < |s.sent| <= MaxSteps
             && s.sent[..|sent'|] == sent'
             && s.sent[|sent'|] == m'
             && m' <= s.messages && ToolsFrom(s.messages, |m'|)
             && Chained(s.sent[|sent'|..], turns[1..], tool)
             && s.rest == turns[1..][Min(|s.sent| - |sent'|, |turns[1..]|)..]
    ensures |sent| < |s.sent| <= MaxSteps
    ensures s.sent[..|sent|] == sent
    ensures s.sent[|sent|] == messages
    ensures messages <= s.messages && ToolsFrom(s.messages, |messages|)
    ensures Chained(s.sent[|sent|..], turns, tool)
    ensures s.rest == turns[Min(|s.sent| - |sent|, |turns|)..]
  {
    var tr := ToolResults(turns[0].toolCalls, tool);
    var m', sent' := messages + tr, sent + [messages];
    assert s.sent[..|sent|] == s.sent[..|sent'|][..|sent|];
    assert s.sent[|sent|] == s.sent[..|sent'|][|sent|];
    forall i | |messages| <= i < |s.messages|
      ensures s.messages[i].ToolMsg?
    {
      if i < |m'| {
        assert s.messages[i] == m'[i] == tr[i - |messages|];
      }
    }
    assert s.sent[|sent|..] == [messages] + s.sent[|sent'|..];
    ChainedCons(messages, s.sent[|sent'|..], turns[0], turns[1..], tool);
    assert [turns[0]] + turns[1..] == turns;
    assert turns[1..][Min(|s.sent| - |sent'|, |turns[1..]|)..] == turns[Min(|s.sent| - |sent|, |turns|)..];
  }

  /** How `last` parses once a reply without tool calls ends the loop: empty content
      reads as '{}', and text JSON.parse rejects throws. */
  function FinalContent(content: string, parse: string -> Option<Value>): Result<Value> {
    match JsonParse(parse, if content == "" then "{}" else content)
    case None => Err("Model did not return valid JSON")
    case Some(v) => Ok(v)
  }

  /** Reference: the session's outcome as decided by the last turn it consumed
      (None when the replies ran out). A tool turn is last only when it used up the
      steps, and then `last` is still null. */
  function Ending(last: Option<ChatTurn>, parse: string -> Option<Value>): Result<Value> {
    match last
    case None => Err("no reply from the model")
    case Some(ApiFailure(m)) => Err(m)
    case Some(Reply(content, calls)) => if |calls| > 0 then Ok(Null) else FinalContent(content, parse)
  }

  function TurnAt(turns: seq<ChatTurn>, k: nat): Option<ChatTurn> {
    if k < |turns| then Some(turns[k]) else None
  }

  /** The `while (step < 3)` loop, with `step == |sent|`. */
  function Loop(messages: seq<Message>, turns: seq<ChatTurn>, tool: RagTool,
                sent: seq<seq<Message>>): (s: Session)
    requires |sent| < MaxSteps
    decreases MaxSteps - |sent|
    ensures |sent| < |s.sent| <= MaxSteps
    ensures s.sent[..|sent|] == sent
    ensures s.sent[|sent|] == messages
  {
    var sent' := sent + [messages];
    if turns == [] then Session(Err("no reply from the model"), messages, [], sent')
    else match turns[0]
      case ApiFailure(m) => Session(Err(m), messages, turns[1..], sent')
      case Reply(content, calls) =>
        if |calls| > 0 then
          var m' := messages + ToolResults(calls, tool);
          if |sent'| == MaxSteps then
            // `last` is still null: JSON.parse(String(null)).
            Session(Ok(JsonParse(tool.parse, "null").value), m', turns[1..], sent')
          else
            var s := Loop(m', turns[1..], tool, sent');
            assert s.sent[..|sent|] == s.sent[..|sent'|][..|sent|];
            assert s.sent[|sent|] == s.sent[..|sent'|][|sent|];
            s
        else Session(FinalContent(content, tool.parse), messages, turns[1..], sent')
  }

  /** The conversation only grows by tool messages, each model call after the first
      sees the previous one plus the results of a tool-calling turn, and the session
      consumes one reply per model call. */
  lemma {:induction false} LoopShape(messages: seq<Message>, turns: seq<ChatTurn>, tool: RagTool,
                                     sent: seq<seq<Message>>)
    requires |sent| < MaxSteps
    ensures var s := Loop(messages, turns, tool, sent);
            && messages <= s.messages && ToolsFrom(s.messages, |messages|)
            && Chained(s.sent[|sent|..], turns, tool)
            && s.rest == turns[Min(|s.sent| - |sent|, |turns|)..]
    decreases MaxSteps - |sent|
  {
    var s := Loop(messages, turns, tool, sent);
    var sent' := sent + [messages];
    if turns != [] && IsToolTurn(turns[0]) {
      var m' := messages + ToolResults(turns[0].toolCalls, tool);
      if |sent'| == MaxSteps {
        AppendTools(messages, turns[0].toolCalls, tool);
        assert s.sent[|sent|..] == [messages];
      } else {
        LoopShape(m', turns[1..], tool, sent');
        ToolTurnStep(messages, turns, tool, sent, s);
      }
    } else {
      assert s.sent[|sent|..] == [messages];
    }
  }

  /** The outcome of the loop is decided by the last turn it consumed, and it stops
      early only on a turn that requests no tools. */
  lemma {:induction false} LoopEnding(messages: seq<Message>, turns: seq<ChatTurn>, tool: RagTool,
                                      sent: seq<seq<Message>>)
    requires |sent| < MaxSteps
    ensures var s := Loop(messages, turns, tool, sent);
            var last := TurnAt(turns, |s.sent| - |sent| - 1);
            && s.outcome == Ending(last, tool.parse)
            && (|s.sent| < MaxSteps ==> !(last.Some? && IsToolTurn(last.value)))
    decreases MaxSteps - |sent|
  {
    if turns != [] && IsToolTurn(turns[0]) && |sent| + 1 < MaxSteps {
      var sent' := sent + [messages];
      var m' := messages + ToolResults(turns[0].toolCalls, tool);
      LoopEnding(m', turns[1..], tool, sent');
      var s := Loop(m', turns[1..], tool, sent');
      assert Loop(messages, turns, tool, sent) == s;
      assert TurnAt(turns[1..], |s.sent| - |sent'| - 1) == TurnAt(turns, |s.sent| - |sent| - 1);
    }
  }

  /** `runToolLoop(msgs)`: a session over a copy of `msgs`. */
  function RunToolLoop(msgs: seq<Message>, turns: seq<ChatTurn>, tool: RagTool): (s: Session)
    ensures 1 <= |s.sent| <= MaxSteps
    ensures s.sent[0] == msgs
    ensures msgs <= s.messages && ToolsFrom(s.messages, |msgs|)
    ensures Chained(s.sent, turns, tool)
    ensures s.rest == turns[Min(|s.sent|, |turns|)..]
    ensures s.outcome == Ending(TurnAt(turns, |s.sent| - 1), tool.parse)
    ensures |s.sent| < MaxSteps ==> !(TurnAt(turns, |s.sent| - 1).Some? && IsToolTurn(TurnAt(turns, |s.sent| - 1).value))
  {
    var s := Loop(msgs, turns, tool, []);
    LoopShape(msgs, turns, tool, []);
    LoopEnding(msgs, turns, tool, []);
    assert s.sent[0..] == s.sent;
    s
  }

  /** The session consumes exactly the tool-calling turns before the first turn
      that is not one (when that comes within the steps). */
  lemma SessionEndsAt(msgs: seq<Message>, turns: seq<ChatTurn>, tool: RagTool, k: nat)
    requires k < MaxSteps && k < |turns| && !IsToolTurn(turns[k])
    requires forall j :: 0 <= j < k ==> IsToolTurn(turns[j])
    ensures |RunToolLoop(msgs, turns, tool).sent| == k + 1
  {
  }

  /** A final reply with no tool calls and empty content parses as `{}`, after any
      number of tool-calling turns within the steps. */
  lemma EmptyContentIsEmptyObject(msgs: seq<Message>, turns: seq<ChatTurn>, tool: RagTool, k: nat)
    requires k < MaxSteps && k < |turns| && turns[k] == Reply("", [])
    requires forall j :: 0 <= j < k ==> IsToolTurn(turns[j])
    ensures RunToolLoop(msgs, turns, tool).outcome == Ok(EmptyObj)
    ensures |RunToolLoop(msgs, turns, tool).sent| == k + 1
  {
    SessionEndsAt(msgs, turns, tool, k);
  }

  /** A final reply with no tool calls and content JSON.parse rejects throws, after
      any number of tool-calling turns within the steps. */
  lemma InvalidJsonThrows(msgs: seq<Message>, turns: seq<ChatTurn>, tool: RagTool, k: nat)
    requires k < MaxSteps && k < |turns| && turns[k].Reply? && turns[k].toolCalls == []
    requires turns[k].content != "" && JsonParse(tool.parse, turns[k].content).None?
    requires forall j :: 0 <= j < k ==> IsToolTurn(turns[j])
    ensures RunToolLoop(msgs, turns, tool).outcome == Err("Model did not return valid JSON")
  {
    SessionEndsAt(msgs, turns, tool, k);
  }

  /** A failing API call ends the session with its error, after any number of
      tool-calling turns within the steps. */
  lemma ApiFailureFails(msgs: seq<Message>, turns: seq<ChatTurn>, tool: RagTool, k: nat)
    requires k < MaxSteps && k < |turns| && turns[k].ApiFailure?
    requires forall j :: 0 <= j < k ==> IsToolTurn(turns[j])
    ensures RunToolLoop(msgs, turns, tool).outcome == Err(turns[k].message)
  {
    SessionEndsAt(msgs, turns, tool, k);
  }

  /** Three tool-calling turns use up the steps: three model calls, and the
      session yields null (which its caller then dereferences). */
  lemma ExhaustedStepsYieldNull(msgs: seq<Message>, turns: seq<ChatTurn>, tool: RagTool)
    requires |turns| >= 3
    requires IsToolTurn(turns[0]) && IsToolTurn(turns[1]) && IsToolTurn(turns[2])
    ensures RunToolLoop(msgs, turns, tool).outcome == Ok(Null)
    ensures |RunToolLoop(msgs, turns, tool).sent| == 3
    ensures RunToolLoop(msgs, turns, tool).rest == turns[3..]
  {
    var m1 := msgs + ToolResults(turns[0].toolCalls, tool);
    var m2 := m1 + ToolResults(turns[1].toolCalls, tool);
    assert turns[1..][0] == turns[1] && turns[1..][1..] == turns[2..];
    assert turns[2..][0] == turns[2] && turns[2..][1..] == turns[3..];
    var s2 := Loop(m2, turns[2..], tool, [msgs, m1]);
    assert s2.outcome == Ok(Null) && |s2.sent| == 3 && s2.rest == turns[3..];
    var s1 := Loop(m1, turns[1..], tool, [msgs]);
    assert [msgs] + [m1] == [msgs, m1];
    assert s1 == s2;
    assert [] + [msgs] == [msgs];
    assert Loop(msgs, turns, tool, []) == s1;
  }
}

=== FILE: values.dfy ===
/** The JavaScript values the analyze handler manipulates: what JSON.parse can
    return, plus NaN (which `Number(...)` can produce) and named properties
    written onto an array. Property reads and writes follow the language's
    rules for the cases the handler exercises. */
module Values {
  import opened Wrappers

  datatype Value =
    | Null
    | Bool(b: bool)
    | Num(n: real)
    | NaN
    | Str(s: string)
    | Arr(items: seq<Value>, props: map<string, Value>)
    | Obj(fields: map<string, Value>)

  const EmptyObj: Value := Obj(map[])
  const EmptyArr: Value := Arr([], map[])

  /** JavaScript truthiness: null, false, 0, NaN and "" are falsy. */
  predicate Truthy(v: Value) {
    match v
    case Null => false
    case Bool(b) => b
    case Num(n) => n != 0.0
    case NaN => false
    case Str(s) => s != ""
    case _ => true
  }

  /** Truthiness of a possibly-undefined property value. */
  predicate Present(o: Option<Value>) {
    o.Some? && Truthy(o.value)
  }

  /** `typeof v === 'object' && v !== null`. */
  predicate IsObject(v: Value) {
    v.Obj? || v.Arr?
  }

  /** `Array.isArray(o)` for a possibly-undefined value. */
  predicate IsArray(o: Option<Value>) {
    o.Some? && o.value.Arr?
  }

  /** `v.k` for a non-null value (None is `undefined`); primitives have none of the
      property names the handler reads. */
  function Prop(v: Value, k: string): (r: Option<Value>)
    ensures r.Some? ==> IsObject(v)
  {
    match v
    case Obj(f) => if k in f then Some(f[k]) else None
    case Arr(_, p) => if k in p then Some(p[k]) else None
    case _ => None
  }

  /** `v?.k`: optional chaining on a possibly-undefined value. */
  function PropOpt(o: Option<Value>, k: string): Option<Value> {
    if o.None? then None else Prop(o.value, k)
  }

  /** `v.k` with its failure: reading a property of null throws a TypeError. */
  function ReadProp(v: Value, k: string): (r: Result<Option<Value>>)
    ensures r.Err? <==> v == Null
    ensures r.Ok? ==> r.value == Prop(v, k)
  {
    if v == Null then Err("TypeError: Cannot read properties of null") else Ok(Prop(v, k))
  }

  /** `v.k = x` in strict-mode code: objects and arrays take the property,
      primitives throw. */
  function WriteProp(v: Value, k: string, x: Value): (r: Result<Value>)
    ensures r.Ok? <==> IsObject(v)
    ensures r.Ok? ==> Prop(r.value, k) == Some(x)
    ensures r.Ok? ==> forall k' :: k' != k ==> Prop(r.value, k') == Prop(v, k')
    ensures r.Ok? ==> r.value.Arr? == v.Arr?
  {
    match v
    case Obj(f) => Ok(Obj(f[k := x]))
    case Arr(items, p) => Ok(Arr(items, p[k := x]))
    case _ => Err("TypeError: Cannot create property '" + k + "' on a primitive")
  }

  /** `JSON.parse(s)`: the parser is a parameter, except on the two literals the
      handler itself supplies ('{}' and the text of `String(null)`), whose values
      are fixed by the JSON grammar. None is a SyntaxError. */
  function JsonParse(parse: string -> Option<Value>, s: string): (r: Option<Value>)
    ensures s == "{}" ==> r == Some(EmptyObj)
    ensures s == "null" ==> r == Some(Null)
  {
    if s == "{}" then Some(EmptyObj) else if s == "null" then Some(Null) else parse(s)
  }

  /** `Number(v)`; None is NaN. `strToNum` is the numeric-literal grammar for strings.
      An array converts through its comma-joined text: [] is 0, [x] converts like x
      (null inside it reads as ""), longer arrays are NaN unless that text is numeric,
      which the model reads as NaN. */
  function ToNumber(v: Value, strToNum: string -> Option<real>): Option<real> {
    match v
    case Null => Some(0.0)
    case Bool(b) => Some(if b then 1.0 else 0.0)
    case Num(n) => Some(n)
    case NaN => None
    case Str(s) => strToNum(s)
    case Obj(_) => None
    case Arr(items, _) =>
      if |items| == 0 then Some(0.0)
      else if |items| == 1 then
        match items[0]
        case Null => Some(0.0)
        case Num(n) => Some(n)
        case Str(s) => strToNum(s)
        case Arr(_, _) => ToNumber(items[0], strToNum)
        case _ => None
      else None
  }

  /** A number as a value: NaN stays NaN. */
  function NumValue(o: Option<real>): (r: Value)
    ensures r.Num? <==> o.Some?
    ensures o.Some? ==> r.n == o.value
  {
    if o.Some? then Num(o.value) else NaN
  }

  function Strs(xs: seq<string>): (r: seq<Value>)
    ensures |r| == |xs|
    ensures forall i :: 0 <= i < |xs| ==> r[i] == Str(xs[i])
  {
    if xs == [] then [] else [Str(xs[0])] + Strs(xs[1..])
  }

  /** A strict-mode read after a successful write finds the written value under its
      key and the old one under every other; a read never throws on a written value. */
  lemma ReadAfterWrite(v: Value, k: string, x: Value, k': string)
    requires WriteProp(v, k, x).Ok?
    ensures ReadProp(WriteProp(v, k, x).value, k') == Ok(if k' == k then Some(x) else Prop(v, k'))
    ensures ReadProp(v, k').Ok?
  {
  }

  /** For a parser that follows the JSON grammar on '{}' and 'null', pinning those two
      texts changes nothing: JsonParse is then that parser on every text. */
  lemma JsonParseIsTheParser(parse: string -> Option<Value>, s: string)
    requires parse("{}") == Some(EmptyObj) && parse("null") == Some(Null)
    ensures JsonParse(parse, s) == parse(s)
  {
  }

  /** Writing a property and reading it back gives the written value; nothing else moves. */
  lemma WriteReadBack(v: Value, k: string, x: Value, k': string)
    requires IsObject(v)
    ensures WriteProp(v, k, x).Ok?
    ensures Prop(WriteProp(v, k, x).value, k') == if k' == k then Some(x) else Prop(v, k')
  {
  }
}

=== FILE: wrappers.dfy ===
/** Failure-compatible wrappers used throughout the model: `Option` for a value that
    may be absent (a JavaScript `undefined`), `Result` for a computation that may
    throw (the error carries the exception message). */
module Wrappers {

  datatype Option<+T> = None | Some(value: T) {

    predicate IsFailure() {
      None?
    }

    function PropagateFailure<U>(): Option<U>
      requires None?
    {
      None
    }

    function Extract(): T
      requires Some?
    {
      value
    }

    /** The value, or `default` when absent (JavaScript's `x ?? default`). */
    function GetOr(default: T): T {
      match this
      case Some(v) => v
      case None => default
    }
  }

  datatype Result<+T> = Ok(value: T) | Err(error: string) {

    predicate IsFailure() {
      Err?
    }

    function PropagateFailure<U>(): Result<U>
      requires Err?
    {
      Err(error)
    }

    function Extract(): T
      requires Ok?
    {
      value
    }
  }
}
